=== FILE: README.md ===
# Shop backend core in Dafny

A model of the business core of a TypeScript/Express e-commerce backend for a
Vietnamese shop. It covers:

- the order lifecycle: placing an order, cancelling it, and the administrator's status changes;
- the payment lifecycle: starting a payment, the retry window and the expiry sweep, status updates, and cash on delivery;
- the two payment gateways, VNPay and MoMo, with the services that build their requests and handle their callbacks, and the MoMo refund;
- the role-based access table;
- promotion codes, the shopping cart, and editing or deleting reviews;
- the forgotten-password reset code, the grouping of validation errors, and the request context (client address, locale, device, location);
- the product document sent to the search index.

The database is one immutable record `Db`. Orders, products, carts, contacts,
reviews and users are maps keyed by id. Payments and promotions are sequences
in the collection's natural order, so `findOne` is "the first match"
(`Entities.FirstIndex`).

Every service is a pure function returning `Effect(db, result)`: the database
after the call, and either the value or the error it throws. `Thrown(msg)` is
`new Error(msg)`. `TypeError` is a JavaScript runtime error, and
`ZodError(path)` is a failed schema parse.

The following are parameters rather than being computed:

- HMAC: a function from secret and data to a hex string;
- the clock, random draws and JWT signing;
- gateway answers and the translation table;
- settings the source reads from a configuration module that is not part of this model.

The modules follow the source tree:

| module | file | models |
|---|---|---|
| `Entities` | entities.dfy | schemas, the `Db` record, JavaScript values, `findOne` |
| `OrderStatus` | order_status.dfy | `update-order-status.service.ts` |
| `Orders` | orders.dfy | `create-order.service.ts`, `cancel-order.service.ts` |
| `CodPaymentStatus` | cod_status.dfy | `update-cod-status-payment.service.ts` |
| `ContactStateMachine` | contact_state.dfy | `update-contact-state.service.ts` |
| `PaymentServices` | payment_service.dfy | `create-payment`, `verify-payment` and `update-payment-status` services |
| `PaymentExpiry` | payment_expiry.dfy | `get-pending-payment`, `cancel-expired-payments` |
| `VnpayGateway`, `VnpayKeys`, `VnpayAmounts` | vnpay_*.dfy | `vnpay.gateway.ts` |
| `VnpayServices` | vnpay_services.dfy | `create-vnpay-payment`, `vnpay-payment`, `verify-vnpay-callback` |
| `MomoGateway` | momo_gateway.dfy | `momo.gateway.ts` |
| `MomoServices` | momo_services.dfy | `verify-momo-callback`, `momo-callback`, `refund-momo-payment` |
| `Rbac` | rbac.dfy | `config/rbac.ts` |
| `Promotions` | promotions.dfy | the three promotion services |
| `Cart` | cart.dfy | `add-cart-item`, `update-cart-item` |
| `Reviews` | reviews.dfy | `update-review`, `delete-review`, and the ratings refresh |
| `ResetCode` | reset_code.dfy | `forgot-password`, `validate-reset-code` |
| `ZodErrors` | zod_errors.dfy | `zod-error-handler.ts` |
| `RequestContext` | request_context.dfy | `get-client-ip.ts`, `device-context.middleware.ts` |
| `Meili` | meili.dfy | `meili-product.interface.ts` |
| `Query`, `Uri`, `Text` | query.dfy, uri.dfy, text.dfy | `qs.stringify`, `encodeURIComponent`, string helpers |

## Model

| member | source | states |
|---|---|---|
| OrderStatus.TableCoversSchema | src/common/services/order/update-order-status.service.ts:8-14 | the transition table has an entry exactly for the five statuses the order schema declares |
| OrderStatus.TerminalStatuses | src/common/services/order/update-order-status.service.ts:8-14 | among schema statuses, exactly DELIVERED and CANCELED allow no move |
| OrderStatus.NoSelfTransition | src/common/services/order/update-order-status.service.ts:8-14 | no status may move to itself |
| OrderStatus.CancelFromAnyLiveStatus | src/common/services/order/update-order-status.service.ts:10-13 | every non-terminal schema status may move to CANCELED |
| OrderStatus.MovesGoForward | src/common/services/order/update-order-status.service.ts:8-14 | every allowed move strictly increases the lifecycle rank and lands on a schema status, so the table has no cycle |
| OrderStatus.UpdateOrderStatus | src/common/services/order/update-order-status.service.ts:24-40 | ORDER_NOT_FOUND for an unknown order; a TypeError with nothing written when the stored status has no table entry; ORDER_INVALID_STATUS_TRANSITION for a move the table refuses; success exactly for an allowed move, which changes only that order's status |
| OrderStatus.ReplayIsBounded | src/common/services/order/update-order-status.service.ts:8-40 | however many updates are requested, an order's status changes at most 4 − rank times |
| OrderStatus.UpdateTouchesOnlyItsOrder | src/common/services/order/update-order-status.service.ts:36-37 | every other order is left as it was |
| Orders.FoundAllExactly | src/common/services/order/create-order.service.ts:19-24 | the count check passes exactly when every id names a stored product and no id repeats |
| Orders.CheckStock | src/common/services/order/create-order.service.ts:26-37 | the stock loop passes exactly when every item's product is stored and holds at least its quantity; it fails only with the two named errors, and never with ORDER_PRODUCT_NOT_FOUND when all products are stored |
| Orders.Snapshot | src/common/services/order/create-order.service.ts:39-54 | the saved order is CREATED, belongs to the user, and copies the items, total and payment method |
| Orders.TakeStock | src/common/services/order/create-order.service.ts:58-63 | each ordered product loses exactly its item's quantity and stays non-negative; every other product is untouched |
| Orders.PruneCart | src/common/services/order/create-order.service.ts:65-70 | only the user's cart changes, and only when it exists |
| Orders.Pull | src/common/services/order/create-order.service.ts:69 | the pruned cart keeps exactly the items whose product was not ordered |
| Orders.CreateOrder | src/common/services/order/create-order.service.ts:17-73 | ORDER_INVALID_PRODUCTS when the found count differs; success exactly when the ids are distinct and in stock; on success the order is stored, stock is taken and the cart pruned; on failure nothing is written |
| Orders.ShiftStock | src/common/services/order/cancel-order.service.ts:30-35 | each product's stock moves by the total quantity of its items; the product set is unchanged |
| Orders.ShiftStockRoundTrip | src/common/services/order/cancel-order.service.ts:30-35 | taking and then restoring stock for the same items gives back every product |
| Orders.CancelOrder | src/common/services/order/cancel-order.service.ts:15-41 | ORDER_NOT_FOUND unless the order exists and belongs to the user; ORDER_CANNOT_BE_CANCELLED unless it is CREATED or PAID; on success it becomes CANCELED and each product's stock rises by its quantities; every other field of every product and every other collection is untouched |
| Orders.CreateThenCancelRestoresStock | src/common/services/order/cancel-order.service.ts:30-38 | placing an order and cancelling it leaves every product exactly as before |
| Orders.CancelIsNotRepeatable | src/common/services/order/cancel-order.service.ts:25-28 | a cancelled order cannot be cancelled again, so stock is restored once |
| CodPaymentStatus.CodTable | src/common/services/payment/update-cod-status-payment.service.ts:6-11 | only PENDING moves, and only to PAID or FAILED; the other tabled statuses are final |
| CodPaymentStatus.UpdateCodPaymentStatus | src/common/services/payment/update-cod-status-payment.service.ts:20-46 | the error chain PAYMENT_NOT_FOUND, PAYMENT_METHOD_NOT_ALLOWED, PAYMENT_INVALID_STATUS, TypeError for an untabled status, PAYMENT_INVALID_STATUS_TRANSITION; no target returns the payment unchanged; success sets the status and stamps only the matching timestamp |
| CodPaymentStatus.CodSettlesOnce | src/common/services/payment/update-cod-status-payment.service.ts:6-46 | after one successful transition every further transition is refused |
| ContactStateMachine.OnlyNewToReplied | src/common/services/contact/update-contact-state.service.ts:7-10 | the only legal move is new → replied |
| ContactStateMachine.UpdateContactState | src/common/services/contact/update-contact-state.service.ts:12-28 | CONTACT_NOT_FOUND, CONTACT_INVALID_STATE for a contact without state, CONTACT_INVALID_STATE_TRANSITION for an illegal target; without a target the contact is returned unchanged |
| ContactStateMachine.RepliedIsFinal | src/common/services/contact/update-contact-state.service.ts:7-24 | after one successful move every further move is refused |
| PaymentServices.Create | src/common/services/payment/create-payment.service.ts:24-110 | the error chain PAYMENT_ORDER_NOT_FOUND, PAYMENT_UNAUTHORIZED, PAYMENT_INVALID_ORDER_STATUS, PAYMENT_GATEWAY_NOT_SUPPORTED with nothing written; an existing pending payment is reused and otherwise one is appended; COD marks the order PAID and has no URL; online payments get the gateway URL |
| PaymentServices.CreatePayment | src/common/services/payment/create-payment.service.ts:105-109 | as written, `isRetry` is whether the returned payment was created before the later clock reading |
| PaymentServices.CreatePaymentCorrected | src/common/services/payment/create-payment.service.ts:105-109 | `isRetry` holds exactly for an online payment when a pending payment already existed |
| PaymentServices.FirstPaymentReportedAsRetry | src/common/services/payment/create-payment.service.ts:83-106 | as written, an order's first online payment is reported as a retry once the clock has advanced; the corrected rule reports no retry |
| PaymentServices.CreateKeepsOnePending | src/common/services/payment/create-payment.service.ts:45-93 | starting a payment never gives an order a second PENDING payment |
| PaymentServices.CodSettlesOnce | src/common/services/payment/create-payment.service.ts:40-73 | cash on delivery leaves the order PAID, and a second call is refused with PAYMENT_INVALID_ORDER_STATUS |
| PaymentServices.VerifyPayment | src/common/services/payment/verify-payment.service.ts:9-27 | an unregistered provider gives PAYMENT_GATEWAY_NOT_SUPPORTED; VNPay delegates to the gateway's verification |
| PaymentServices.CodIsNotVerifiable | src/common/services/payment/verify-payment.service.ts:9-24 | COD and MOMO have no registered gateway to verify against |
| PaymentServices.UpdatePaymentStatus | src/common/services/payment/update-payment-status.service.ts:16-41 | PAYMENT_NOT_FOUND without a payment for the order; otherwise the first payment gets the status and transaction id, no other payment changes, and SUCCESS marks an existing order PAID |
| PaymentServices.UpdatePaymentStatusOverwrites | src/common/services/payment/update-payment-status.service.ts:21-33 | there is no transition check: any status is overwritten, and recording the same status twice equals recording it once |
| PaymentExpiry.GetPendingPayment | src/common/services/payment/get-pending-payment.service.ts:17-41 | no pending payment gives null; a live one is returned; an expired one is failed and its order cancelled, and then PAYMENT_EXPIRED is thrown with both writes kept |
| PaymentExpiry.ExpiryIsFinal | src/common/services/payment/get-pending-payment.service.ts:18-37 | after an expiry, asking again finds nothing pending |
| PaymentExpiry.SweepAgreesWithExpiry | src/common/services/payment/cancel-expired-payments.service.ts:7-14 | the sweep selects exactly the pending payments the pending check would call expired at the same instant |
| PaymentExpiry.CountBounded | src/common/services/payment/cancel-expired-payments.service.ts:16-34 | the reported count never exceeds the number of selected payments |
| PaymentExpiry.CancelExpiredPayments | src/common/services/payment/cancel-expired-payments.service.ts:6-35 | each selected payment whose order exists is failed and counted; every order hit by a selected payment is cancelled; nothing else changes |
| VnpayGateway.FormatDateRoundTrip | src/gateway/payment/vnpay.gateway.ts:87-97 | a date with a four-digit year is written as 14 digits, each field readable back from its fixed position |
| Query.SortObjectPlain | src/gateway/payment/vnpay.gateway.ts:106-120 | on keys that need no encoding, `sortObject` lists the keys in ascending string order, each with its encoded value, and holds exactly the object's keys; this is the order `querystring.stringify` writes when no key is integer-like, as for the `vnp_` names |
| VnpayKeys.RequestKeysSorted | src/gateway/payment/vnpay.gateway.ts:32-45 | the twelve request names are written in ascending order |
| VnpayGateway.SortRequest | src/gateway/payment/vnpay.gateway.ts:106-120 | sorting the request gives the twelve names in ascending order, each with its signed value |
| VnpayGateway.CreatePayment | src/gateway/payment/vnpay.gateway.ts:21-54 | the redirect URL is the gateway URL, the canonical sorted pairs, and the HMAC of exactly those pairs as `vnp_SecureHash` |
| VnpayGateway.SecureHashNotSigned | src/gateway/payment/vnpay.gateway.ts:47-49 | the hash parameter is not among the signed pairs |
| VnpayGateway.AppendHash | src/gateway/payment/vnpay.gateway.ts:49-52 | adding the hash to the sorted object appends `&vnp_SecureHash=<hash>` to the signed string |
| VnpayGateway.Unsigned | src/gateway/payment/vnpay.gateway.ts:57-59 | no hash parameter survives the two deletions |
| VnpayGateway.GetUnsigned | src/gateway/payment/vnpay.gateway.ts:57-59 | every other parameter reads as before the deletions |
| VnpayGateway.VerifyPayment | src/gateway/payment/vnpay.gateway.ts:56-85 | a wrong hash gives FAILED; SUCCESS only when the response code is "00"; the amount is `vnp_Amount` / 100; the raw response is the parameters without the hash |
| VnpayGateway.SignedCallbackAccepted | src/gateway/payment/vnpay.gateway.ts:56-77 | a callback carrying the hash of its own fields succeeds exactly when the response code is "00" |
| VnpayAmounts.AmountRoundTrip | src/gateway/payment/vnpay.gateway.ts:68-84 | an amount sent in hundredths is reported back as the original amount, and a missing amount as 0 |
| VnpayKeys.LiteralKeysSort | src/common/services/payment/create-vnpay-payment.service.ts:40-42 | sorting the names in the order the service writes them gives the ascending names |
| VnpayKeys.LiteralKeysPlain | src/common/services/payment/create-vnpay-payment.service.ts:25-45 | the request names are distinct and none is the hash parameter |
| VnpayServices.SortedPairsOfRequest | src/common/services/payment/create-vnpay-payment.service.ts:40-42 | the object literal, read by sorted keys, gives the canonical signed string raw and the canonical query encoded |
| VnpayServices.CreateVnpayPayment | src/common/services/payment/create-vnpay-payment.service.ts:12-65 | ORDER_NOT_FOUND for an unknown order; otherwise the URL lists the literal-order encoded request and the encoded hash of the sorted raw request, and one PENDING VNPAY payment is appended carrying the transaction reference, the URL and the signed request |
| VnpayServices.RecordedFor | src/common/services/payment/create-vnpay-payment.service.ts:40-62 | the signing, the URL and the payment write for any request, with nothing else changed |
| VnpayServices.CreatedPaymentIsFound | src/common/services/payment/create-vnpay-payment.service.ts:54-62 | a callback naming the new transaction reference finds the new payment |
| VnpayServices.PaddedStampIsGatewayDate | src/common/services/payment/create-vnpay-payment.service.ts:20-23 | the `padStart` date equals the gateway's `yyyyMMddHHmmss` date |
| VnpayServices.SlicedStampIsGatewayDate | src/common/services/payment/vnpay-payment.service.ts:9-15 | the `slice(-2)` date equals the gateway's date |
| VnpayServices.CreateVnpayUrl | src/common/services/payment/vnpay-payment.service.ts:24-65 | the URL is the sorted request with encoded values, then the hash of the raw sorted request, itself not encoded |
| VnpayServices.PlainUrlCarriesSignData | src/common/services/payment/vnpay-payment.service.ts:46-63 | when no value needs encoding, the query before the hash is exactly the signed string |
| VnpayServices.UrlsShareCreateDate | src/common/services/payment/vnpay-payment.service.ts:9-37 | all URLs built in one process carry the same creation date; this holds by construction, since the date is read once at module load and every build receives that one value |
| VnpayServices.VerifyVnpayCallback | src/common/services/payment/verify-vnpay-callback.service.ts:8-59 | INVALID_VNPAY_SIGNATURE for a wrong hash, PAYMENT_NOT_FOUND without a payment for `vnp_TxnRef`, each with nothing written; otherwise the payment and its order are settled |
| VnpayServices.ApplyWrites | src/common/services/payment/verify-vnpay-callback.service.ts:34-56 | "00" makes the payment PAID and the order's payment status PAID; anything else makes both FAILED; the matching timestamp is set and nothing else changes |
| VnpayServices.VerifyVnpayCallbackReplay | src/common/services/payment/verify-vnpay-callback.service.ts:34-56 | delivering the same callback again changes nothing more |
| VnpayServices.ForgedCallbackWritesNothing | src/common/services/payment/verify-vnpay-callback.service.ts:9-27 | a callback whose hash is not that of its own fields is refused with nothing written |
| VnpayServices.SignedCallbackSettles | src/common/services/payment/verify-vnpay-callback.service.ts:9-56 | a correctly signed callback settles its payment, PAID exactly when the code is "00", storing the fields it was sent |
| MomoGateway.CreateRequestBody | src/gateway/payment/momo.gateway.ts:21-54 | the request id is `orderId_now`; order info and extra data fall back to their defaults when falsy; the signature is the HMAC of the ten signed pairs |
| MomoGateway.CreateNamesAscending | src/gateway/payment/momo.gateway.ts:31-34 | the create signature lists its names in ascending order |
| MomoGateway.RefundRequestBody | src/gateway/payment/momo.gateway.ts:64-89 | the request id and order id each use their own clock reading; the description is "Refund test"; the signature is the HMAC of the seven signed pairs |
| MomoGateway.RefundNamesAscending | src/gateway/payment/momo.gateway.ts:69-72 | the refund signature lists its names in ascending order |
| MomoGateway.CallbackNamesAscending | src/gateway/payment/momo.gateway.ts:98-102 | the callback signature lists its names in ascending order |
| MomoGateway.SignatureNotSigned | src/gateway/payment/momo.gateway.ts:98-102 | adding the signature to a result leaves the signed string unchanged |
| MomoGateway.VerifyPayment | src/gateway/payment/momo.gateway.ts:97-126 | a wrong signature gives FAILED; PAID only when `resultCode` is the number 0; the raw response is the parameters; the amount is `Number(amount)` |
| MomoGateway.SignedCallbackAccepted | src/gateway/payment/momo.gateway.ts:109-119 | a result carrying MoMo's signature of its fields is PAID exactly when the result code is 0 |
| MomoGateway.GenuineSignature | src/gateway/payment/momo.gateway.ts:118-119 | with the right signature the status follows the result code alone |
| MomoGateway.ForgedCallbackFails | src/gateway/payment/momo.gateway.ts:109-116 | a wrong signature gives FAILED whatever the result code |
| MomoGateway.AmountReported | src/gateway/payment/momo.gateway.ts:120-125 | an amount echoed as a number or as its decimal text is reported unchanged |
| MomoServices.VerifyMomoCallback | src/common/services/payment/verify-momo-callback.service.ts:10-56 | INVALID_MOMO_SIGNATURE, then PAYMENT_NOT_FOUND, each with nothing written; result code 0 makes the payment PAID with the transaction id; any other code makes it FAILED with the gateway code; the order's payment status follows and nothing else changes |
| MomoServices.VerifyMomoCallbackReplay | src/common/services/payment/verify-momo-callback.service.ts:31-54 | delivering the same callback again changes nothing more |
| MomoServices.VerifyMomoCallbackAgreesWithGateway | src/common/services/payment/verify-momo-callback.service.ts:31-54 | the status the service writes is the status the gateway's own verification reports |
| MomoServices.ForgedCallbackWritesNothing | src/common/services/payment/verify-momo-callback.service.ts:12-25 | a wrongly signed callback is refused with nothing written |
| MomoServices.HandleMomoCallback | src/common/services/payment/momo-callback.service.ts:8-37 | a wrong signature throws with nothing written; otherwise only the order's payment status is set, and no payment is touched |
| MomoServices.HandlersAgreeOnOrder | src/common/services/payment/momo-callback.service.ts:23-34 | both callback handlers leave the order with the same payment status |
| MomoServices.RefundRequestFor | src/common/services/payment/refund-momo-payment.service.ts:24-45 | the refund request is built from the payment's id, order, transaction id and amount, signed over the seven pairs |
| MomoServices.Refund | src/common/services/payment/refund-momo-payment.service.ts:11-58 | the error chain PAYMENT_NOT_FOUND, INVALID_PAYMENT_METHOD, PAYMENT_NOT_PAID, ORDER_NOT_FOUND, ORDER_NOT_CANCELLED, then a decline with the message `Refund failed: ` and MoMo's message, each with nothing written; the refund succeeds exactly when every check passes and MoMo answers `resultCode` 0, and success makes the PAID MoMo payment REFUNDED with its timestamp and MoMo's answer |
| MomoServices.RefundMomoPayment | src/common/services/payment/refund-momo-payment.service.ts:20-22 | as written, a refund succeeds only for an order whose status is "CANCELLED" |
| MomoServices.RefundMomoPaymentCorrected | src/common/services/payment/refund-momo-payment.service.ts:20-22 | corrected, a refund succeeds only for an order whose status is CANCELED |
| MomoServices.RefundNeverSucceeds | src/common/services/payment/refund-momo-payment.service.ts:20-22 | as written, no refund ever succeeds while orders hold statuses their schema accepts |
| MomoServices.RefundAfterCancel | src/common/services/payment/refund-momo-payment.service.ts:11-57 | after the customer cancels, the service as written refuses the refund, and the corrected service records it |
| Rbac.MethodToPermission | src/config/rbac.ts:9-15 | GET is read, POST is write, PUT and PATCH are update, DELETE is delete, each in both directions |
| Rbac.FindResource | src/config/rbac.ts:55-57 | no resource exactly when no pattern matches; otherwise the resource of the first matching pattern |
| Rbac.HasPermission | src/config/rbac.ts:69-79 | allowed exactly when the path names a resource and the method's permission is granted to the role on it |
| Rbac.ResourceOfPath | src/config/rbac.ts:17-57 | paths under `/users/` are users, paths under `/categories` are categories, and nothing else is a resource |
| Rbac.UnknownPathDenied | src/config/rbac.ts:74-75 | a path matching no pattern is denied for every role and method |
| Rbac.AdminAllowedOnResources | src/config/rbac.ts:23-26 | an admin is allowed every method on every resource path |
| Rbac.CustomerPermissions | src/config/rbac.ts:27-30 | a customer may read and update users and only read categories; POST and DELETE are always denied |
| Rbac.CustomerBelowAdmin | src/config/rbac.ts:22-31 | whatever a customer may do, an admin may do |
| Promotions.ValidatePromotion | src/common/services/promotion/validate-promotion.service.ts:14-57 | the first active promotion with the upper-cased code (Latin-1, Latin Extended-A and Vietnamese letters included) is checked: PROMOTION_NOT_FOUND, PROMOTION_NOT_STARTED, PROMOTION_EXPIRED, ORDER_VALUE_TOO_LOW in that order, both window ends accepted; on success the discount is the percentage or the fixed value, and final amount plus discount equals the order value |
| Promotions.PercentWithinOrder | src/common/services/promotion/validate-promotion.service.ts:36-49 | under stored bounds a percentage discount lies between nothing and the whole order |
| Promotions.FixedDiscountCanExceedOrder | src/common/services/promotion/validate-promotion.service.ts:41-49 | an example: a fixed discount larger than the order leaves a negative final amount, since nothing caps a fixed discount |
| Promotions.VietnameseCodeFound | src/common/services/promotion/validate-promotion.service.ts:15-20 | an example: a check of "giảm10" finds the stored active "GIẢM10" and returns its discount |
| Text.ToUpperIdempotent | src/common/models/promotion.model.ts:8 | upper-casing an upper-cased code changes nothing, so the schema setter leaves a code the payload schema upper-cased as it is |
| Promotions.CreatePromotion | src/common/services/promotion/create-promotion.service.ts:19-41 | PROMOTION_ALREADY_EXISTS, END_DATE_BEFORE_START_DATE, INVALID_PERCENTAGE_VALUE in that order; success exactly when all three pass, appending the promotion with its code upper-cased by the schema's `uppercase` setter |
| Promotions.CreateKeepsWellFormed | src/common/services/promotion/create-promotion.service.ts:19-41 | creation keeps codes unique, windows non-empty and percentages in range, for a payload in any case |
| Promotions.CreatedPromotionValidates | src/common/services/promotion/create-promotion.service.ts:19-41 | an active promotion just created is the one its code finds in whatever case it is typed, and it accepts exactly the orders in its window and above its minimum |
| Promotions.UpdatePromotion | src/common/services/promotion/update-promotion.service.ts:16-54 | INVALID_PROMOTION_ID, PROMOTION_NOT_FOUND, PROMOTION_ALREADY_EXISTS for a code held elsewhere, then END_DATE_BEFORE_START_DATE and INVALID_PERCENTAGE_VALUE on the merged values; nothing is written unless every check passes, and success writes the merged promotion |
| Promotions.UpdateKeepsWellFormed | src/common/services/promotion/update-promotion.service.ts:26-48 | a change keeps codes unique, windows non-empty and percentages in range |
| Promotions.HarmlessUpdateSucceeds | src/common/services/promotion/update-promotion.service.ts:26-53 | changing only the description and the active flag of a well-formed promotion always succeeds |
| Cart.AddCartItem | src/common/services/cart/add-cart-item.service.ts:8-55 | INVALID_USER_ID, INVALID_PRODUCT_ID, PRODUCT_NOT_FOUND with nothing written; without a cart, a cart holding the one item is saved; otherwise the item is added |
| Cart.AddToQuantities | src/common/services/cart/add-cart-item.service.ts:43-51 | adding raises the product's quantity by exactly the amount added and leaves every other product's quantity alone |
| Cart.AddCartItemAdds | src/common/services/cart/add-cart-item.service.ts:30-54 | the same for the saved cart, which stays free of duplicates |
| Cart.UpdateCartItem | src/common/services/cart/update-cart-item.service.ts:8-59 | the same error chain; without a cart, a cart holding the item is saved; otherwise the quantity is set |
| Cart.SetInQuantities | src/common/services/cart/update-cart-item.service.ts:43-55 | setting gives the product exactly the quantity asked for and leaves every other product's quantity alone |
| Cart.UpdateCartItemSets | src/common/services/cart/update-cart-item.service.ts:32-58 | the same for the saved cart, which stays free of duplicates |
| Cart.UpdateToZeroRemoves | src/common/services/cart/update-cart-item.service.ts:50-51 | setting a listed product to 0 removes it from the cart |
| Reviews.RefreshRatings | src/common/services/review/base-review.service.ts:12-37 | only the product's ratings change: its count becomes the number of its remaining reviews and its average the mean, or 0 when none is left; every other field and product is untouched |
| Reviews.UpdateReview | src/common/services/review/update-review.service.ts:27-68 | INVALID_REVIEW_ID, REVIEW_NOT_FOUND, REVIEW_NOT_OWNED, REVIEW_UPDATE_PERIOD_EXPIRED in that order with nothing written; success writes only the fields present, trims the comment and refreshes the product's ratings |
| Reviews.UpdateAtBoundary | src/common/services/review/update-review.service.ts:49-57 | a change exactly at the end of the period is accepted |
| Reviews.UpdateKeepsCount | src/common/services/review/update-review.service.ts:59-65 | a change keeps the product's review count |
| Reviews.DeleteReview | src/common/services/review/delete-review.service.ts:23-59 | the same error chain ending in REVIEW_DELETE_PERIOD_EXPIRED with nothing written; success removes the review and refreshes its product's ratings |
| Reviews.DeleteCountsOneFewer | src/common/services/review/delete-review.service.ts:51-58 | exactly that review is removed, and its product counts one review fewer |
| Reviews.DeleteAtBoundary | src/common/services/review/delete-review.service.ts:41-49 | a deletion exactly at the end of the period is accepted |
| Reviews.OnlyAuthorMayEdit | src/common/services/review/delete-review.service.ts:35-38 | someone other than the author can neither change nor delete a review |
| ResetCode.ValidateResetCode | src/common/services/auth/validate-reset-code.service.ts:8-110 | a code of the wrong length fails the schema; then USER_NOT_FOUND, INVALID_CODE and EXPIRED_CODE in that order; a token for the email exactly when the stored code matches and has not expired |
| ResetCode.GenerateResetCode | src/common/services/auth/forgot-password.service.ts:79-90 | for a draw between 10^(length−1) and 10^length − 1, the bounds given to `crypto.randomInt` for length 6, the code is six digits without a leading zero and reads back as the draw; it expires fifteen minutes later |
| ResetCode.ForgotPassword | src/common/services/auth/forgot-password.service.ts:35-51 | USER_NOT_FOUND for an unknown email; otherwise the saved code is the mailed code, with its expiry and the request's device context |
| ResetCode.ForgotThenValidate | src/common/services/auth/forgot-password.service.ts:104-109 | the mailed code is accepted until and including its expiry and refused afterwards; any other code is refused |
| ResetCode.LatestCodeOnly | src/common/services/auth/forgot-password.service.ts:104-109 | asking again replaces the stored code, so the earlier code is refused |
| ResetCode.NoCodeNoToken | src/common/services/auth/validate-reset-code.service.ts:100-105 | a user who never asked for a code never gets a token |
| ZodErrors.HandleZodError | src/common/utils/zod-error-handler.ts:4-19 | one group per distinct field in first-issue order; each group holds its field's translated messages in issue order; the messages add up to the number of issues |
| ZodErrors.FieldsInOrderListsIssues | src/common/utils/zod-error-handler.ts:9-14 | a field is listed exactly when some issue is on it |
| ZodErrors.SingleField | src/common/utils/zod-error-handler.ts:9-18 | issues on one field give one group holding all their messages in order |
| ZodErrors.AddKeepsGrouped | src/common/utils/zod-error-handler.ts:12-13 | adding one issue keeps the grouping exact |
| RequestContext.ClientIp | src/common/utils/get-client-ip.ts:9-17 | a string header gives its first comma-separated part trimmed, with no comma; a list gives its first element trimmed; otherwise the request address or "" |
| RequestContext.ClientIpIsFirstHop | src/common/utils/get-client-ip.ts:11-12 | behind a chain of proxies the client is the first hop |
| RequestContext.PlainAddressKept | src/common/utils/get-client-ip.ts:11-12 | a single address without commas or surrounding spaces comes back unchanged |
| RequestContext.Locale | src/common/middlewares/device-context.middleware.ts:42-55 | "vi" exactly when the header is one string starting with "vi"; "en" otherwise |
| RequestContext.Device | src/common/middlewares/device-context.middleware.ts:58-59 | the user agent, or the translated unknown-device text |
| RequestContext.Location | src/common/middlewares/device-context.middleware.ts:63-69 | "city, country" when both are known, else the address, or the translated unknown text without an address |
| RequestContext.DeviceContextOf | src/common/middlewares/device-context.middleware.ts:36-77 | the context combines the locale, device, location and date in the request's locale |
| RequestContext.BareRequestContext | src/common/middlewares/device-context.middleware.ts:42-69 | a request without headers or address gets English and both unknown texts |
| RequestContext.ListedLanguageIsEnglish | src/common/middlewares/device-context.middleware.ts:42-45 | a header sent as a list never selects Vietnamese |
| Meili.ToMeiliProduct | src/common/services/search/meili-search/interface/meili-product.interface.ts:32-57 | a category object gives its id and name, a string id gives itself and ""; missing discount and ratings are 0 and missing images are []; id, name, price, slug, type and weight are copied |
| Meili.OmittedFieldsIgnored | src/common/services/search/meili-search/interface/meili-product.interface.ts:3-15 | description, origin and stock never reach the document |
| Meili.DefaultsAreExplicit | src/common/services/search/meili-search/interface/meili-product.interface.ts:46-52 | a missing optional is indexed like its default written out |
| Meili.CategoryIdSurvivesPopulation | src/common/services/search/meili-search/interface/meili-product.interface.ts:33-39 | the category id is the same whether the category arrives as an object or as a string id, and a string id gives the name "" |
| Uri.EncodeIdentity | src/gateway/payment/vnpay.gateway.ts:112-117 | a string is its own encoding exactly when every character is unreserved; otherwise the encoding is longer |

## Left out

- Cryptography is a parameter. HMAC-SHA256 and HMAC-SHA512 are a function `Hmac` from secret and data to the hex digest. JWT signing is a function from email to token. `crypto.randomInt` is a draw given as a number in its range.
- Clocks are parameters: `Date.now()` is an integer and `new Date()` is a `LocalTime` of calendar fields. `toLocaleString` is a function of time and locale.
- Outbound HTTP to MoMo is left out. MoMo's answer is an input, and the `payUrl` returned by `createPayment` is not modelled.
- Persistence is modelled as a map or sequence per collection. Mongoose casting, `ObjectId` construction and `populate` are not modelled. `IsValidObjectId` stands for `ObjectId.isValid` on strings: any 12-character string, or 24 hexadecimal digits. Conversions between ObjectId and string are treated as the identity.
- The payment schema (`src/common/models/payment.model.ts`) declares `orderId`, `userId`, `provider`, `status`, `transactionId` and `amount`. Its providers are COD and VNPay, and its statuses are PENDING, SUCCESS, FAILED and REFUNDED. The payment services also write:
  - the providers VNPAY and MOMO;
  - the status PAID;
  - the fields `paymentMethod`, `paidTimestamp`, `failedTimestamp`, `refundedTimestamp`, `payUrl`, `rawResponse` and `gatewayResponseCode`.

  Mongoose would drop the undeclared fields, and refuse the undeclared providers and status, when saving. The model follows the services' code and keeps every write.
- Schema hooks other than the review comment trim are left out, along with schema validators, indexes and `runValidators`.
- Concurrency is left out: the `setInterval` cleanup job and races between the sweep and callbacks. One sweep is one sequential method.
- Floating point is not modelled:
  - amounts are integers (`Math.round` is the identity on them);
  - promotion arithmetic uses exact rationals;
  - the rating average, rounded by the database, is a parameter `mean`.
- The values of the payment, promotion and review settings imported from `#config/app.js` are not available: retry period, discount bounds and edit periods. They are parameters. Only the reset-code length and expiry are constants.
- `encodeURIComponent` is modelled on characters below U+0080 exactly. Other characters are escaped through a simplified UTF-8 that ignores surrogate pairs.
- String sorting compares characters as code points, which agrees with JavaScript's UTF-16 order outside the surrogate range.
- Query.SortObject: the entries are kept in ascending string order, which also covers `Query.SortObjectPlain`. The object `sortObject` builds lists integer-like keys first, in numeric order, when `querystring.stringify` serialises it. For keys such as "9" and "10" the signed string differs. The `vnp_` names VNPay uses have no such key.
- Text.ParseNumber: `Number` is modelled on integer text only, and with it `Entities.JsNumber`. Decimal, exponent, hexadecimal and `Infinity` text is not modelled and reads as `NaN`.
- ZodErrors.HandleZodError: fields are grouped in first-occurrence order. JavaScript lists integer-like keys first, so a field such as "0" comes out in a different place there.
- Path segments are given as text, and the `.` join is done on text.
- Zod schemas are modelled only for the reset code's length. Email syntax and the other payload schemas are assumed to have passed.
- Templates, mail sending, i18n tables, logging and `console.log` are left out. Translation is a function `Translate`.
- Meili.ToMeiliProduct: a `null` `categoryId`, which the source would crash on with a TypeError, is not modelled.
- The order schema (`src/common/models/order.model.ts:36-61`) declares no `paymentStatus`, `paidTimestamp` or `failedTimestamp`. In the program, Mongoose's strict mode drops these paths from the callback services' order updates, so the stored order is left unchanged. The model keeps the write each service asks for, which `has-purchased.service.ts` reads back. The members this concerns are listed below.
- VnpayServices.VerifyVnpayCallback: sets the order's `paymentStatus` and timestamp; under the order schema as declared that write is dropped.
- VnpayServices.ApplyWrites: the order half of its writes (`paymentStatus` and the timestamp) is dropped by the order schema as declared.
- MomoServices.VerifyMomoCallback: sets the order's `paymentStatus` and timestamp; under the order schema as declared that write is dropped.
- MomoServices.HandleMomoCallback: its only write, the order's `paymentStatus`, is dropped by the order schema as declared, so in the program it changes nothing.
- Promotions.ValidatePromotion: `toUpperCase` is modelled for ASCII, Latin-1, Latin Extended-A, the horned vowels ơ and ư, and U+1EA0 to U+1EF9, with ß and ŉ upper-cased to two characters. Greek, Cyrillic and other scripts are left as they are, so a code in those scripts is matched only in the case it is typed.
- Promotions.UpdatePromotion: the `uppercase` setter is not applied to a changed code. The update schema has already upper-cased it, and `Text.ToUpperIdempotent` shows the setter would leave it as it is.
- Query values are `undefined`, a number or a string. The array that `qs` makes of a repeated `vnp_*` or `resultCode` key is not modelled.
- ResetCode.ValidateResetCode: the `MissingEnvVarError` thrown when `JWT_SECRET` is unset is not modelled. Token signing is a total function.
- Creating a review and its save-time hooks are not part of this model; only update and delete are.
- The legacy copies of the services under the top-level `controllers`, `models`, `routes`, `middlewares` and `utils` directories are left out.

## Findings

| source | as written | input that shows it | evidently intended | confidence | as-written member | corrected member |
|---|---|---|---|---|---|---|
| src/common/services/payment/refund-momo-payment.service.ts:20 | the refund requires the order status "CANCELLED", but cancelling an order writes "CANCELED" and the order schema has no "CANCELLED" | a MoMo payment that is PAID, whose order was cancelled by `cancelOrder`; MoMo would answer `resultCode` 0 | refund an order whose status is CANCELED | not executed | MomoServices.RefundAfterCancel | MomoServices.RefundMomoPaymentCorrected |
| src/common/services/payment/create-payment.service.ts:106 | `isRetry` is `pendingPayment.createdAt < new Date()` after `pendingPayment` has been set to the payment just created | a CREATED VNPay order with no pending payment, where the clock advances by 1 ms between the save and the check | `isRetry` true exactly when a pending payment already existed | not executed | PaymentServices.FirstPaymentReportedAsRetry | PaymentServices.CreatePaymentCorrected |

=== FILE: cart.dfy ===
/** The shopping cart: adding to the quantity of a product and setting it.
    Each user has at most one cart, kept under the user's id; a cart lists
    products with their quantities. */
module Cart {
  import opened Wrappers
  import opened Entities

  function WithProduct(productId: string): CartItem -> bool {
    (it: CartItem) => it.productId == productId
  }

  /** `cart.items.findIndex((i) => i.productId.equals(productId))`, `None` for -1. */
  function IndexOf(items: seq<CartItem>, productId: string): Option<nat> {
    FirstIndex(items, WithProduct(productId))
  }

  /** No product is listed twice. */
  predicate NoDuplicates(items: seq<CartItem>) {
    forall i, j :: 0 <= i < j < |items| ==> items[i].productId != items[j].productId
  }

  /** How many of a product the items hold in all: the reference the two
      services are measured against. */
  function QuantityOf(items: seq<CartItem>, productId: string): int {
    if items == [] then 0
    else QuantityOf(items[..|items| - 1], productId) + Share(items[|items| - 1], productId)
  }

  function Share(it: CartItem, productId: string): int {
    if it.productId == productId then it.quantity else 0
  }

  // ---------------------------------------------------------------------------
  // Facts about the reference count
  // ---------------------------------------------------------------------------

  lemma QuantityOfAppend(items: seq<CartItem>, x: CartItem, productId: string)
    ensures QuantityOf(items + [x], productId) == QuantityOf(items, productId) + Share(x, productId)
  {
    assert (items + [x])[..|items|] == items;
  }

  lemma {:induction false} QuantityOfConcat(a: seq<CartItem>, b: seq<CartItem>, productId: string)
    ensures QuantityOf(a + b, productId) == QuantityOf(a, productId) + QuantityOf(b, productId)
    decreases |b|
  {
    if b == [] {
      assert a + b == a;
    } else {
      var last := b[|b| - 1];
      var front := b[..|b| - 1];
      assert a + b == (a + front) + [last];
      QuantityOfConcat(a, front, productId);
      QuantityOfAppend(a + front, last, productId);
    }
  }

  lemma QuantityOfSingle(x: CartItem, productId: string)
    ensures QuantityOf([x], productId) == Share(x, productId)
  {
    QuantityOfAppend([], x, productId);
  }

  /** Replacing one item changes the total by the difference of the two. */
  lemma QuantityOfReplace(items: seq<CartItem>, i: nat, x: CartItem, productId: string)
    requires i < |items|
    ensures QuantityOf(items[i := x], productId)
            == QuantityOf(items, productId) - Share(items[i], productId) + Share(x, productId)
  {
    assert items == items[..i] + ([items[i]] + items[i + 1..]);
    assert items[i := x] == items[..i] + ([x] + items[i + 1..]);
    QuantityOfConcat(items[..i], [items[i]] + items[i + 1..], productId);
    QuantityOfConcat([items[i]], items[i + 1..], productId);
    QuantityOfConcat(items[..i], [x] + items[i + 1..], productId);
    QuantityOfConcat([x], items[i + 1..], productId);
    QuantityOfSingle(items[i], productId);
    QuantityOfSingle(x, productId);
  }

  /** Removing one item takes its share out of the total. */
  lemma QuantityOfRemove(items: seq<CartItem>, i: nat, productId: string)
    requires i < |items|
    ensures QuantityOf(items[..i] + items[i + 1..], productId)
            == QuantityOf(items, productId) - Share(items[i], productId)
  {
    assert items == items[..i] + ([items[i]] + items[i + 1..]);
    QuantityOfConcat(items[..i], [items[i]] + items[i + 1..], productId);
    QuantityOfConcat([items[i]], items[i + 1..], productId);
    QuantityOfConcat(items[..i], items[i + 1..], productId);
    QuantityOfSingle(items[i], productId);
  }

  /** A product listed nowhere has no quantity. */
  lemma {:induction false} QuantityOfAbsent(items: seq<CartItem>, productId: string)
    requires forall j :: 0 <= j < |items| ==> items[j].productId != productId
    ensures QuantityOf(items, productId) == 0
    decreases |items|
  {
    if items != [] {
      QuantityOfAbsent(items[..|items| - 1], productId);
    }
  }

  /** In a cart without duplicates, a product's quantity is that of its one item. */
  lemma QuantityOfListed(items: seq<CartItem>, productId: string)
    requires NoDuplicates(items)
    ensures IndexOf(items, productId).None? ==> QuantityOf(items, productId) == 0
    ensures IndexOf(items, productId).Some? ==>
              QuantityOf(items, productId) == items[IndexOf(items, productId).value].quantity
  {
    match IndexOf(items, productId)
    case None =>
      QuantityOfAbsent(items, productId);
    case Some(i) =>
      assert WithProduct(productId)(items[i]);
      var rest := items[..i] + items[i + 1..];
      forall j | 0 <= j < |rest| ensures rest[j].productId != productId {
        if j < i { assert rest[j] == items[j]; } else { assert rest[j] == items[j + 1]; }
      }
      QuantityOfAbsent(rest, productId);
      QuantityOfRemove(items, i, productId);
  }

  // ---------------------------------------------------------------------------
  // The two edits
  // ---------------------------------------------------------------------------

  /** The items after `quantity` more of a product are added. */
  function AddTo(items: seq<CartItem>, productId: string, quantity: nat): seq<CartItem> {
    match IndexOf(items, productId)
    case None => items + [CartItem(productId, quantity)]
    case Some(i) => items[i := items[i].(quantity := items[i].quantity + quantity)]
  }

  /** The items after a product's quantity is set: 0 removes it, and an absent
      product is only listed for a positive quantity. */
  function SetIn(items: seq<CartItem>, productId: string, quantity: nat): seq<CartItem> {
    match IndexOf(items, productId)
    case None => if quantity > 0 then items + [CartItem(productId, quantity)] else items
    case Some(i) =>
      if quantity == 0 then items[..i] + items[i + 1..]
      else items[i := items[i].(quantity := quantity)]
  }

  /** Adding raises the product's total by exactly the amount added and leaves
      every other product's total alone, whatever the items were. */
  lemma AddToQuantities(items: seq<CartItem>, productId: string, quantity: nat, other: string)
    ensures QuantityOf(AddTo(items, productId, quantity), other)
            == QuantityOf(items, other) + (if other == productId then quantity else 0)
  {
    match IndexOf(items, productId)
    case None =>
      QuantityOfAppend(items, CartItem(productId, quantity), other);
    case Some(i) =>
      assert WithProduct(productId)(items[i]);
      QuantityOfReplace(items, i, items[i].(quantity := items[i].quantity + quantity), other);
  }

  lemma AddToKeepsNoDuplicates(items: seq<CartItem>, productId: string, quantity: nat)
    requires NoDuplicates(items)
    ensures NoDuplicates(AddTo(items, productId, quantity))
  {
  }

  /** Setting gives the product exactly the quantity asked for and leaves every
      other product's total alone. */
  lemma SetInQuantities(items: seq<CartItem>, productId: string, quantity: nat, other: string)
    requires NoDuplicates(items)
    ensures QuantityOf(SetIn(items, productId, quantity), other)
            == if other == productId then quantity else QuantityOf(items, other)
  {
    QuantityOfListed(items, productId);
    match IndexOf(items, productId)
    case None =>
      if quantity > 0 {
        QuantityOfAppend(items, CartItem(productId, quantity), other);
      }
    case Some(i) =>
      assert WithProduct(productId)(items[i]);
      if quantity == 0 {
        QuantityOfRemove(items, i, other);
      } else {
        QuantityOfReplace(items, i, items[i].(quantity := quantity), other);
      }
  }

  lemma SetInKeepsNoDuplicates(items: seq<CartItem>, productId: string, quantity: nat)
    requires NoDuplicates(items)
    ensures NoDuplicates(SetIn(items, productId, quantity))
  {
    match IndexOf(items, productId)
    case None =>
    case Some(i) =>
      if quantity == 0 {
        var rest := items[..i] + items[i + 1..];
        forall j, k | 0 <= j < k < |rest| ensures rest[j].productId != rest[k].productId {
          var j' := if j < i then j else j + 1;
          var k' := if k < i then k else k + 1;
          assert rest[j] == items[j'] && rest[k] == items[k'];
        }
      }
  }

  // ---------------------------------------------------------------------------
  // The services
  // ---------------------------------------------------------------------------

  /** The checks both services make before touching the cart. */
  function Precheck(db: Db, userId: string, productId: string): Option<string> {
    if !IsValidObjectId(userId) then Some("INVALID_USER_ID")
    else if !IsValidObjectId(productId) then Some("INVALID_PRODUCT_ID")
    else if productId !in db.products then Some("PRODUCT_NOT_FOUND")
    else None
  }

  /** `AddCartItemService.addCartItem(userId, { productId, quantity })`: the cart saved. */
  function AddCartItem(db: Db, userId: string, productId: string, quantity: nat)
    : (r: Effect<seq<CartItem>>)
    ensures Precheck(db, userId, productId).Some? ==> r == Fail(db, Precheck(db, userId, productId).value)
    ensures Precheck(db, userId, productId).None? ==>
              && r.result.Ok?
              && r.db == db.(carts := db.carts[userId := r.result.value])
              && (userId !in db.carts ==> r.result.value == [CartItem(productId, quantity)])
              && (userId in db.carts ==> r.result.value == AddTo(db.carts[userId], productId, quantity))
  {
    match Precheck(db, userId, productId)
    case Some(e) => Fail(db, e)
    case None =>
      if userId !in db.carts then
        var items := [CartItem(productId, quantity)];
        Effect(db.(carts := db.carts[userId := items]), Ok(items))
      else
        var items := AddTo(db.carts[userId], productId, quantity);
        Effect(db.(carts := db.carts[userId := items]), Ok(items))
  }

  /** The cart of a user, empty when there is none. */
  function CartOf(db: Db, userId: string): seq<CartItem> {
    if userId in db.carts then db.carts[userId] else []
  }

  /** Adding raises the product's quantity in the user's cart by the amount
      added, leaves every other product's quantity alone, and keeps the cart
      free of duplicates. */
  lemma AddCartItemAdds(db: Db, userId: string, productId: string, quantity: nat, other: string)
    requires Precheck(db, userId, productId).None?
    ensures var after := AddCartItem(db, userId, productId, quantity).result.value;
            && QuantityOf(after, other) == QuantityOf(CartOf(db, userId), other)
                                           + (if other == productId then quantity else 0)
            && (NoDuplicates(CartOf(db, userId)) ==> NoDuplicates(after))
  {
    assert AddTo([], productId, quantity) == [CartItem(productId, quantity)];
    AddToQuantities(CartOf(db, userId), productId, quantity, other);
    if NoDuplicates(CartOf(db, userId)) {
      AddToKeepsNoDuplicates(CartOf(db, userId), productId, quantity);
    }
  }

  /** `UpdateCartItemService.updateCartItem(userId, { item: { productId, quantity } })`:
      the cart saved. A user without a cart gets one holding the item, even
      with quantity 0. */
  function UpdateCartItem(db: Db, userId: string, productId: string, quantity: nat)
    : (r: Effect<seq<CartItem>>)
    ensures Precheck(db, userId, productId).Some? ==> r == Fail(db, Precheck(db, userId, productId).value)
    ensures Precheck(db, userId, productId).None? ==>
              && r.result.Ok?
              && r.db == db.(carts := db.carts[userId := r.result.value])
              && (userId !in db.carts ==> r.result.value == [CartItem(productId, quantity)])
              && (userId in db.carts ==> r.result.value == SetIn(db.carts[userId], productId, quantity))
  {
    match Precheck(db, userId, productId)
    case Some(e) => Fail(db, e)
    case None =>
      if userId !in db.carts then
        var items := [CartItem(productId, quantity)];
        Effect(db.(carts := db.carts[userId := items]), Ok(items))
      else
        var items := SetIn(db.carts[userId], productId, quantity);
        Effect(db.(carts := db.carts[userId := items]), Ok(items))
  }

  /** Setting leaves exactly the asked quantity of the product in a cart free
      of duplicates, keeps it free of duplicates, and leaves every other
      product's quantity alone. */
  lemma UpdateCartItemSets(db: Db, userId: string, productId: string, quantity: nat, other: string)
    requires Precheck(db, userId, productId).None?
    requires NoDuplicates(CartOf(db, userId))
    ensures var after := UpdateCartItem(db, userId, productId, quantity).result.value;
            && QuantityOf(after, other) == (if other == productId then quantity else QuantityOf(CartOf(db, userId), other))
            && NoDuplicates(after)
  {
    if userId in db.carts {
      SetInQuantities(db.carts[userId], productId, quantity, other);
      SetInKeepsNoDuplicates(db.carts[userId], productId, quantity);
    } else {
      QuantityOfSingle(CartItem(productId, quantity), other);
    }
  }

  /** Setting a product to 0 takes it out of an existing cart free of duplicates. */
  lemma UpdateToZeroRemoves(db: Db, userId: string, productId: string)
    requires Precheck(db, userId, productId).None? && userId in db.carts
    requires NoDuplicates(db.carts[userId])
    ensures var after := UpdateCartItem(db, userId, productId, 0).result.value;
            forall j :: 0 <= j < |after| ==> after[j].productId != productId
  {
    var items := db.carts[userId];
    if IndexOf(items, productId).Some? {
      var i := IndexOf(items, productId).value;
      assert WithProduct(productId)(items[i]);
      var rest := items[..i] + items[i + 1..];
      forall j | 0 <= j < |rest| ensures rest[j].productId != productId {
        if j < i { assert rest[j] == items[j]; } else { assert rest[j] == items[j + 1]; }
      }
    }
  }
}

=== FILE: cod_status.dfy ===
/** The administrative status update for cash-on-delivery payments: a
    transition table, a table of the timestamp each target status stamps, and
    a guarded write. */
module CodPaymentStatus {
  import opened Wrappers
  import opened Entities

  /** `validCodTransitions[status]`; `None` where the table has no entry
      (SUCCESS among them), in which case `allowed.includes` throws a `TypeError`. */
  function CodAllowed(s: Status): Option<set<Status>> {
    match s
    case PENDING => Some({PAID, FAILED})
    case PAID => Some({})
    case FAILED => Some({})
    case REFUNDED => Some({})
    case _ => None
  }

  predicate CanSettle(from: Status, to: Status) {
    CodAllowed(from).Some? && to in CodAllowed(from).value
  }

  /** `statusTimestamps[status]`: set that field to `now`, if the status has one. */
  function Stamp(p: Payment, s: Status, now: int): Payment {
    match s
    case PAID => p.(paidTimestamp := Some(now))
    case FAILED => p.(failedTimestamp := Some(now))
    case REFUNDED => p.(refundedTimestamp := Some(now))
    case _ => p
  }

  /** Only PENDING moves, and only to PAID or FAILED; PAID, FAILED and REFUNDED are final. */
  lemma CodTable(from: Status, to: Status)
    ensures CanSettle(from, to) <==> from == PENDING && (to == PAID || to == FAILED)
    ensures CodAllowed(from).Some? ==> (CodAllowed(from) == Some({}) <==> from != PENDING)
  {
  }

  /** `updatePaymentStatus(paymentId, { status: target })` at time `now`. */
  function UpdateCodPaymentStatus(db: Db, paymentId: string, target: Option<Status>, now: int)
    : (r: Effect<Payment>)
    ensures FindPayment(db, paymentId).None? ==> r == Fail(db, "PAYMENT_NOT_FOUND")
    ensures FindPayment(db, paymentId).Some? ==>
              var p := db.payments[FindPayment(db, paymentId).value];
              && (p.paymentMethod != Some(COD) ==> r == Fail(db, "PAYMENT_METHOD_NOT_ALLOWED"))
              && (p.paymentMethod == Some(COD) && p.status.None? ==>
                    r == Fail(db, "PAYMENT_INVALID_STATUS"))
              && (p.paymentMethod == Some(COD) && p.status.Some? && target.None? ==>
                    r == Effect(db, Ok(p)))
              && (p.paymentMethod == Some(COD) && p.status.Some? && target.Some? &&
                  CodAllowed(p.status.value).None? ==>
                    r == Effect(db, Err(TypeError)))
              && (p.paymentMethod == Some(COD) && p.status.Some? && target.Some? &&
                  CodAllowed(p.status.value).Some? && !CanSettle(p.status.value, target.value) ==>
                    r == Fail(db, "PAYMENT_INVALID_STATUS_TRANSITION"))
    ensures r.result.Ok? && target.Some? ==>
              var i := FindPayment(db, paymentId).value;
              var p := db.payments[i];
              var q := r.result.value;
              && p.paymentMethod == Some(COD) && p.status.Some? && CanSettle(p.status.value, target.value)
              && q.status == target
              && q.paidTimestamp == (if target == Some(PAID) then Some(now) else p.paidTimestamp)
              && q.failedTimestamp == (if target == Some(FAILED) then Some(now) else p.failedTimestamp)
              && q.refundedTimestamp == p.refundedTimestamp
              && q.(status := p.status, paidTimestamp := p.paidTimestamp,
                    failedTimestamp := p.failedTimestamp) == p
              && r.db == SetPayment(db, i, q)
  {
    match FindPayment(db, paymentId)
    case None => Fail(db, "PAYMENT_NOT_FOUND")
    case Some(i) =>
      var p := db.payments[i];
      if p.paymentMethod != Some(COD) then Fail(db, "PAYMENT_METHOD_NOT_ALLOWED")
      else if p.status.None? then Fail(db, "PAYMENT_INVALID_STATUS")
      else if target.None? then Effect(db, Ok(p))
      else match CodAllowed(p.status.value)
        case None => Effect(db, Err(TypeError))
        case Some(allowed) =>
          if target.value !in allowed then Fail(db, "PAYMENT_INVALID_STATUS_TRANSITION")
          else
            var q := Stamp(p.(status := target), target.value, now);
            Effect(SetPayment(db, i, q), Ok(q))
  }

  /** A COD payment settles at most once: after one successful transition,
      every further requested transition is refused. */
  lemma CodSettlesOnce(db: Db, paymentId: string, t1: Status, t2: Status, now1: int, now2: int)
    requires UpdateCodPaymentStatus(db, paymentId, Some(t1), now1).result.Ok?
    ensures var db1 := UpdateCodPaymentStatus(db, paymentId, Some(t1), now1).db;
            UpdateCodPaymentStatus(db1, paymentId, Some(t2), now2) ==
              Fail(db1, "PAYMENT_INVALID_STATUS_TRANSITION")
  {
    var i := FindPayment(db, paymentId).value;
    var db1 := UpdateCodPaymentStatus(db, paymentId, Some(t1), now1).db;
    assert db1.payments[i].id == paymentId;
    assert FindPayment(db1, paymentId) == Some(i) by {
      assert forall j :: 0 <= j < i ==> db1.payments[j] == db.payments[j];
    }
    CodTable(db.payments[i].status.value, t1);
  }
}

=== FILE: contact_state.dfy ===
/** The administrative contact-message state update: `new` may become
    `replied`, and `replied` is final. */
module ContactStateMachine {
  import opened Wrappers
  import opened Entities

  /** `validTransitions[state]`; both states have an entry. */
  function Allowed(s: ContactState): set<ContactState> {
    match s
    case New => {Replied}
    case Replied => {}
  }

  /** The only legal move is from `new` to `replied`. */
  lemma OnlyNewToReplied(from: ContactState, to: ContactState)
    ensures to in Allowed(from) <==> from == New && to == Replied
  {
  }

  /** `updateContactState(contactId, { state: target })` */
  function UpdateContactState(db: Db, contactId: string, target: Option<ContactState>)
    : (r: Effect<Contact>)
    ensures contactId !in db.contacts ==> r == Fail(db, "CONTACT_NOT_FOUND")
    ensures contactId in db.contacts && db.contacts[contactId].state.None? ==>
              r == Fail(db, "CONTACT_INVALID_STATE")
    ensures contactId in db.contacts && db.contacts[contactId].state.Some? && target.Some? &&
            target.value !in Allowed(db.contacts[contactId].state.value) ==>
              r == Fail(db, "CONTACT_INVALID_STATE_TRANSITION")
    ensures contactId in db.contacts && db.contacts[contactId].state.Some? && target.None? ==>
              r == Effect(db, Ok(db.contacts[contactId]))
    ensures r.result.Ok? ==>
              && contactId in db.contacts
              && var c := db.contacts[contactId];
              && c.state.Some?
              && (target.Some? ==> target.value in Allowed(c.state.value) && r.result.value == c.(state := target))
              && r.db == db.(contacts := db.contacts[contactId := r.result.value])
  {
    if contactId !in db.contacts then Fail(db, "CONTACT_NOT_FOUND")
    else
      var c := db.contacts[contactId];
      if c.state.None? then Fail(db, "CONTACT_INVALID_STATE")
      else if target.None? then Effect(db, Ok(c))
      else if target.value !in Allowed(c.state.value) then Fail(db, "CONTACT_INVALID_STATE_TRANSITION")
      else
        var updated := c.(state := target);
        Effect(db.(contacts := db.contacts[contactId := updated]), Ok(updated))
  }

  /** A contact is marked replied at most once: once the update succeeds with a
      target, a second update with a target is refused. */
  lemma RepliedIsFinal(db: Db, contactId: string, t1: ContactState, t2: ContactState)
    requires UpdateContactState(db, contactId, Some(t1)).result.Ok?
    ensures var db1 := UpdateContactState(db, contactId, Some(t1)).db;
            UpdateContactState(db1, contactId, Some(t2)) ==
              Fail(db1, "CONTACT_INVALID_STATE_TRANSITION")
  {
    OnlyNewToReplied(db.contacts[contactId].state.value, t1);
  }
}

=== FILE: entities.dfy ===
/** The persistent records of the shop and the shapes shared by every service:
    one immutable `Db` value stands in for the MongoDB collections, a service
    call returns the database it leaves behind together with its value or the
    error it throws. */
module Entities {
  import opened Wrappers
  import Text

  // ---------------------------------------------------------------------------
  // Vocabularies
  // ---------------------------------------------------------------------------

  /** Every status literal any service reads or writes. Orders are declared with
      CREATED, PAID, SHIPPED, DELIVERED and CANCELED; payments with PENDING,
      SUCCESS, FAILED and REFUNDED; the callback and refund services also write
      PAID into payments and compare orders against CANCELLED. */
  datatype Status =
    | CREATED | PAID | SHIPPED | DELIVERED | CANCELED | CANCELLED
    | PENDING | SUCCESS | FAILED | REFUNDED

  /** The statuses the order schema accepts. */
  predicate IsOrderSchemaStatus(s: Status) {
    s in {CREATED, PAID, SHIPPED, DELIVERED, CANCELED}
  }

  /** Payment method / provider literals. Orders and `create-payment` use COD
      and VNPay; the VNPay service writes VNPAY; the refund service expects MOMO. */
  datatype Method = COD | VNPay | VNPAY | MOMO

  /** A JavaScript value arriving in an untyped parameter bag: only the three
      kinds the services meet. Numbers are integers here. */
  datatype Js = Undefined | Num(n: int) | Str(s: string)

  /** `${v}` / `String(v)` */
  function JsText(v: Js): (r: string)
    ensures v.Str? ==> r == v.s
    ensures v.Num? ==> r == Text.IntToString(v.n)
    ensures v.Undefined? ==> r == "undefined"
  {
    match v
    case Undefined => "undefined"
    case Num(n) => Text.IntToString(n)
    case Str(s) => s
  }

  /** JavaScript truthiness: `undefined`, `0` and `""` are falsy. */
  predicate Truthy(v: Js) {
    (v.Str? && v.s != "") || (v.Num? && v.n != 0)
  }

  /** `v || d` */
  function JsOr(v: Js, d: Js): Js {
    if Truthy(v) then v else d
  }

  /** `parseInt(v || "0")` reads back the integer a value was rendered from,
      and 0 for a missing value. */
  lemma ReadBackOrZero(v: Js, n: int)
    requires (v == Str(Text.IntToString(n)) && n != 0) || (v == Undefined && n == 0)
    ensures Text.ParseInt(JsText(JsOr(v, Str("0")))) == Some(n)
  {
    Text.ParseIntOfIntToString(n);
    if v == Undefined {
      assert Text.IntToString(0) == "0";
    } else {
      assert Text.IntToString(n) != "";
    }
  }

  /** `Number(v)`; `None` is `NaN`. */
  function JsNumber(v: Js): Option<int> {
    match v
    case Undefined => None
    case Num(n) => Some(n)
    case Str(s) => Text.ParseNumber(s)
  }

  /** An own-property bag such as a parsed query string or a request body:
      keys are distinct and keep their insertion order. */
  type Params = seq<(string, Js)>

  predicate DistinctKeys<V>(ps: seq<(string, V)>) {
    forall i, j :: 0 <= i < j < |ps| ==> ps[i].0 != ps[j].0
  }

  /** `obj[k]` */
  function Get(ps: Params, k: string): (r: Js)
    ensures r != Undefined ==> exists i :: 0 <= i < |ps| && ps[i].0 == k && ps[i].1 == r
    ensures (forall i :: 0 <= i < |ps| ==> ps[i].0 != k) ==> r == Undefined
  {
    if ps == [] then Undefined
    else if ps[0].0 == k then ps[0].1
    else Get(ps[1..], k)
  }

  /** `delete obj[k]` */
  function Delete(ps: Params, k: string): (r: Params)
    ensures forall i :: 0 <= i < |r| ==> r[i].0 != k
    ensures forall i :: 0 <= i < |r| ==> r[i] in ps
    ensures forall i :: 0 <= i < |ps| && ps[i].0 != k ==> ps[i] in r
  {
    if ps == [] then []
    else if ps[0].0 == k then Delete(ps[1..], k)
    else [ps[0]] + Delete(ps[1..], k)
  }

  /** Deleting a key leaves every other key's value as it was. */
  lemma {:induction false} GetDelete(ps: Params, k: string, j: string)
    requires j != k
    ensures Get(Delete(ps, k), j) == Get(ps, j)
    decreases |ps|
  {
    if ps != [] {
      GetDelete(ps[1..], k, j);
    }
  }

  /** Deleting a key that is not there changes nothing. */
  lemma {:induction false} DeleteAbsent(ps: Params, k: string)
    requires forall i :: 0 <= i < |ps| ==> ps[i].0 != k
    ensures Delete(ps, k) == ps
    decreases |ps|
  {
    if ps != [] {
      DeleteAbsent(ps[1..], k);
      assert ps == [ps[0]] + ps[1..];
    }
  }

  /** Adding a new key `k` after the others: reading `k` finds the new value,
      reading any other key finds what it found before, and deleting `k`
      gives back the original bag. */
  lemma AddNewKey(ps: Params, k: string, v: Js)
    requires forall i :: 0 <= i < |ps| ==> ps[i].0 != k
    ensures Get(ps + [(k, v)], k) == v
    ensures forall j :: j != k ==> Get(ps + [(k, v)], j) == Get(ps, j)
    ensures Delete(ps + [(k, v)], k) == ps
  {
    GetAddedKey(ps, k, v);
    forall j | j != k
      ensures Get(ps + [(k, v)], j) == Get(ps, j)
    {
      GetOtherKey(ps, k, v, j);
    }
    DeleteAddedKey(ps, k, v);
  }

  lemma {:induction false} GetAddedKey(ps: Params, k: string, v: Js)
    requires forall i :: 0 <= i < |ps| ==> ps[i].0 != k
    ensures Get(ps + [(k, v)], k) == v
    decreases |ps|
  {
    if ps != [] {
      GetAddedKey(ps[1..], k, v);
      assert (ps + [(k, v)])[1..] == ps[1..] + [(k, v)];
    }
  }

  lemma {:induction false} GetOtherKey(ps: Params, k: string, v: Js, j: string)
    requires j != k
    ensures Get(ps + [(k, v)], j) == Get(ps, j)
    decreases |ps|
  {
    if ps != [] {
      GetOtherKey(ps[1..], k, v, j);
      assert (ps + [(k, v)])[1..] == ps[1..] + [(k, v)];
    }
  }

  lemma {:induction false} DeleteAddedKey(ps: Params, k: string, v: Js)
    requires forall i :: 0 <= i < |ps| ==> ps[i].0 != k
    ensures Delete(ps + [(k, v)], k) == ps
    decreases |ps|
  {
    if ps != [] {
      DeleteAddedKey(ps[1..], k, v);
      assert (ps + [(k, v)])[1..] == ps[1..] + [(k, v)];
      assert ps == [ps[0]] + ps[1..];
    }
  }

  // ---------------------------------------------------------------------------
  // Records
  // ---------------------------------------------------------------------------

  datatype OrderItem = OrderItem(productId: string, name: string, price: int, quantity: int)

  datatype Order = Order(
    id: string,
    userId: string,
    items: seq<OrderItem>,
    totalAmount: int,
    paymentMethod: Method,
    status: Status,
    shippingAddress: string,
    promotionCode: Option<string>,
    notes: Option<string>,
    paymentStatus: Option<Status>,
    paidTimestamp: Option<int>,
    failedTimestamp: Option<int>)

  /** A payment document. `provider` is the schema's field and is what
      `create-payment` fills; `paymentMethod` is the field the COD status, VNPay
      and refund services read or write. */
  datatype Payment = Payment(
    id: string,
    orderId: string,
    userId: Option<string>,
    provider: Option<Method>,
    paymentMethod: Option<Method>,
    status: Option<Status>,
    transactionId: string,
    amount: int,
    createdAt: int,
    payUrl: Option<string>,
    paidTimestamp: Option<int>,
    failedTimestamp: Option<int>,
    refundedTimestamp: Option<int>,
    rawResponse: Option<Params>,
    gatewayResponseCode: Option<int>)

  /** A fresh payment document with the schema defaults for everything not given. */
  function NewPayment(id: string, orderId: string, userId: Option<string>, provider: Option<Method>,
                      paymentMethod: Option<Method>, status: Status, transactionId: string,
                      amount: int, createdAt: int): (p: Payment)
    ensures p.id == id && p.orderId == orderId && p.status == Some(status)
    ensures p.transactionId == transactionId && p.amount == amount && p.createdAt == createdAt
    ensures p.paidTimestamp.None? && p.failedTimestamp.None? && p.refundedTimestamp.None?
  {
    Payment(id, orderId, userId, provider, paymentMethod, Some(status), transactionId, amount,
            createdAt, None, None, None, None, None, None)
  }

  /** The category a product points at: a populated category, with its id
      and name, or an id held as a string. */
  datatype CategoryRef = CategoryObject(catId: string, catName: string) | CategoryId(refId: string)

  datatype Product = Product(
    id: string,
    name: string,
    slug: string,
    categoryId: CategoryRef,
    description: string,
    price: int,
    discount: Option<int>,
    stock: int,
    images: Option<seq<string>>,
    origin: string,
    productType: string,
    weight: string,
    ratingsAverage: Option<real>,
    ratingsCount: Option<int>)

  datatype CartItem = CartItem(productId: string, quantity: int)

  datatype ContactState = New | Replied

  datatype Contact = Contact(id: string, email: string, message: string, name: string,
                             state: Option<ContactState>)

  datatype Review = Review(id: string, productId: string, userId: string,
                           rating: Option<int>, comment: Option<string>, createdAt: int)

  datatype DiscountType = Percent | Fixed

  datatype Promotion = Promotion(
    id: string,
    code: string,
    description: string,
    discountType: DiscountType,
    discountValue: real,
    minOrderValue: real,
    startDate: int,
    endDate: int,
    active: bool)

  datatype User = User(email: string, resetCode: Option<string>, resetCodeExp: Option<int>)

  /** The collections. Keyed collections are maps; payments and promotions are
      searched by fields other than their key, so they keep the collection's
      natural order and `findOne` is the first match. Carts are keyed by user. */
  datatype Db = Db(
    orders: map<string, Order>,
    payments: seq<Payment>,
    products: map<string, Product>,
    carts: map<string, seq<CartItem>>,
    contacts: map<string, Contact>,
    reviews: map<string, Review>,
    promotions: seq<Promotion>,
    users: map<string, User>)

  // ---------------------------------------------------------------------------
  // Service results
  // ---------------------------------------------------------------------------

  /** `throw new Error(message)`; the `TypeError` JavaScript raises on a
      property of `undefined` (a transition table with no entry for the stored
      status, a missing comment); or the `ZodError` a payload schema throws,
      with the path of the field it rejects. */
  datatype Error = Thrown(message: string) | TypeError | ZodError(path: string)

  /** What a service call leaves behind: the database after its writes, and the
      value it returns or the error it throws. */
  datatype Effect<T> = Effect(db: Db, result: Result<T, Error>)

  function Fail<T>(db: Db, message: string): (e: Effect<T>)
    ensures e.db == db && e.result == Err(Thrown(message))
  {
    Effect(db, Err(Thrown(message)))
  }

  // ---------------------------------------------------------------------------
  // Gateways
  // ---------------------------------------------------------------------------

  /** `createHmac(alg, key).update(data).digest("hex")` as a function of key and data. */
  type Hmac = (string, string) -> string

  /** What a gateway's `verifyPayment` reports. A `None` amount is `NaN`. */
  datatype PaymentResult = PaymentResult(amount: Option<real>, rawResponse: Params, status: Status,
                                         transactionId: Js)

  // ---------------------------------------------------------------------------
  // Queries
  // ---------------------------------------------------------------------------

  /** `findOne(filter)` over a collection kept in natural order: the first match. */
  function FirstIndex<T>(s: seq<T>, p: T -> bool): (r: Option<nat>)
    ensures r.Some? ==> r.value < |s| && p(s[r.value])
    ensures r.Some? ==> forall j :: 0 <= j < r.value ==> !p(s[j])
    ensures r.None? <==> forall j :: 0 <= j < |s| ==> !p(s[j])
  {
    if s == [] then None
    else if p(s[0]) then Some(0)
    else match FirstIndex(s[1..], p)
      case None => None
      case Some(i) => Some(i + 1)
  }

  /** Replacing the first match by another match keeps it the first match. */
  lemma FirstIndexUpdate<T>(s: seq<T>, p: T -> bool, i: nat, x: T)
    requires FirstIndex(s, p) == Some(i) && p(x)
    ensures FirstIndex(s[i := x], p) == Some(i)
  {
    var t := s[i := x];
    assert p(t[i]);
    assert forall j :: 0 <= j < i ==> t[j] == s[j];
  }

  /** `Payment.findById(id)`: the position of the payment with that id. */
  function FindPayment(db: Db, paymentId: string): Option<nat> {
    FirstIndex(db.payments, (p: Payment) => p.id == paymentId)
  }

  /** The payment stored at position `i` replaced by `p`. */
  function SetPayment(db: Db, i: nat, p: Payment): (r: Db)
    requires i < |db.payments|
    ensures |r.payments| == |db.payments| && r.payments[i] == p
    ensures forall j :: 0 <= j < |db.payments| && j != i ==> r.payments[j] == db.payments[j]
    ensures r == db.(payments := r.payments)
  {
    db.(payments := db.payments[i := p])
  }

  /** `Order.findByIdAndUpdate(id, f)`: a missing order is left missing. */
  function UpdateOrder(db: Db, id: string, f: Order -> Order): (r: Db)
    ensures id in db.orders ==> r.orders == db.orders[id := f(db.orders[id])]
    ensures id !in db.orders ==> r.orders == db.orders
    ensures r == db.(orders := r.orders)
  {
    if id in db.orders then db.(orders := db.orders[id := f(db.orders[id])]) else db
  }

  /** Mongo's `ObjectId.isValid`: a 12-character string or 24 hexadecimal digits. */
  predicate IsValidObjectId(s: string) {
    |s| == 12 || (|s| == 24 && forall i :: 0 <= i < |s| ==> IsHexDigit(s[i]))
  }

  predicate IsHexDigit(c: char) {
    '0' <= c <= '9' || 'a' <= c <= 'f' || 'A' <= c <= 'F'
  }
}

=== FILE: meili.dfy ===
/** The search-index document of a product: ids become strings, the category is
    flattened to an id and a name, optional numbers and lists get their
    defaults, and the fields search does not need are dropped. */
module Meili {
  import opened Wrappers
  import opened Entities

  datatype Category = Category(id: string, name: string)

  /** `MeiliProduct`: the product without `_id`, `categoryId`, `createdAt`,
      `description`, `origin`, `stock` and `updatedAt`, plus `category` and
      `id`. */
  datatype MeiliProduct = MeiliProduct(
    category: Category,
    discount: int,
    id: string,
    images: seq<string>,
    name: string,
    price: int,
    ratingsAverage: real,
    ratingsCount: int,
    slug: string,
    productType: string,
    weight: string)

  /** `toMeiliProduct(product)` */
  function ToMeiliProduct(p: Product): (d: MeiliProduct)
    ensures p.categoryId.CategoryObject? ==> d.category == Category(p.categoryId.catId, p.categoryId.catName)
    ensures p.categoryId.CategoryId? ==> d.category == Category(p.categoryId.refId, "")
    ensures d.discount == (if p.discount.Some? then p.discount.value else 0)
    ensures d.images == (if p.images.Some? then p.images.value else [])
    ensures d.ratingsAverage == (if p.ratingsAverage.Some? then p.ratingsAverage.value else 0.0)
    ensures d.ratingsCount == (if p.ratingsCount.Some? then p.ratingsCount.value else 0)
    ensures d.id == p.id && d.name == p.name && d.price == p.price && d.slug == p.slug
    ensures d.productType == p.productType && d.weight == p.weight
  {
    var category := match p.categoryId
      case CategoryObject(id, name) => Category(id, name)
      case CategoryId(id) => Category(id, "");
    MeiliProduct(category, p.discount.GetOr(0), p.id, p.images.GetOr([]), p.name, p.price,
                 p.ratingsAverage.GetOr(0.0), p.ratingsCount.GetOr(0), p.slug, p.productType, p.weight)
  }

  /** Description, origin and stock never reach the index: products that differ
      only in those give the same document. */
  lemma OmittedFieldsIgnored(p: Product, description: string, origin: string, stock: int)
    ensures ToMeiliProduct(p.(description := description, origin := origin, stock := stock)) == ToMeiliProduct(p)
  {
  }

  /** A missing discount, image list or rating is indexed exactly like its
      default written out. */
  lemma DefaultsAreExplicit(p: Product)
    requires p.discount.None? && p.images.None? && p.ratingsAverage.None? && p.ratingsCount.None?
    ensures ToMeiliProduct(p) ==
              ToMeiliProduct(p.(discount := Some(0), images := Some([]), ratingsAverage := Some(0.0),
                                ratingsCount := Some(0)))
  {
  }

  /** The document tells the category id whether the category arrives as an
      object or as a string id; only the name is lost with a string id. */
  lemma CategoryIdSurvivesPopulation(p: Product, name: string)
    requires p.categoryId.CategoryId?
    ensures ToMeiliProduct(p.(categoryId := CategoryObject(p.categoryId.refId, name))).category.id ==
              ToMeiliProduct(p).category.id
    ensures ToMeiliProduct(p).category.name == ""
  {
  }
}

=== FILE: momo_gateway.dfy ===
/** The MoMo gateway: the signed request bodies it posts to MoMo to create and
    refund a payment, and the way it judges the result MoMo sends back. Every
    signature is the HMAC-SHA256, under the secret key, of `name=value` pairs
    joined with `&` in a fixed order; the HMAC is an uninterpreted function and
    MoMo's answers are inputs. */
module MomoGateway {
  import opened Wrappers
  import opened Entities
  import Text
  import opened Query

  /** The gateway's settings, read from the environment. */
  datatype Config = Config(partnerCode: string, accessKey: string, secretKey: string,
                           redirectUrl: string, ipnUrl: string)

  // ---------------------------------------------------------------------------
  // `createPayment`
  // ---------------------------------------------------------------------------

  /** The body posted to MoMo's `create` endpoint. */
  datatype CreateRequest = CreateRequest(
    partnerCode: string, accessKey: string, requestId: string, amount: int, orderId: string,
    orderInfo: Js, redirectUrl: string, ipnUrl: string, requestType: string, extraData: Js,
    signature: string, lang: string)

  /** The signed names of a create request, in the order they are written. */
  function CreateNames(): seq<string> {
    [ "accessKey", "amount", "extraData", "ipnUrl", "orderId", "orderInfo", "partnerCode",
      "redirectUrl", "requestId", "requestType" ]
  }

  /** The signed `name=value` pairs of a create request, taken from the request itself. */
  function CreateFields(q: CreateRequest): Entries {
    Zip(CreateNames(),
        [ q.accessKey, Text.IntToString(q.amount), JsText(q.extraData), q.ipnUrl, q.orderId,
          JsText(q.orderInfo), q.partnerCode, q.redirectUrl, q.requestId, q.requestType ])
  }

  /** The default order description, `Thanh toán đơn hàng #<orderId>`. */
  function DefaultOrderInfo(orderId: string): string {
    "Thanh toán đơn hàng #" + orderId
  }

  /** The request `createPayment(orderId, amount, metadata)` posts at time `now`
      (`Date.now()`); an absent `metadata` is the empty bag. The redirect URL it
      returns is the `payUrl` of MoMo's answer. */
  function CreateRequestBody(cfg: Config, hmac: Hmac, orderId: string, amount: int,
                             metadata: Params, now: int): (q: CreateRequest)
    ensures q.requestId == orderId + "_" + Text.IntToString(now)
    ensures q.requestType == "captureWallet" && q.lang == "vi"
    ensures q.orderId == orderId && q.amount == amount
    ensures q.partnerCode == cfg.partnerCode && q.accessKey == cfg.accessKey
    ensures q.redirectUrl == cfg.redirectUrl && q.ipnUrl == cfg.ipnUrl
    ensures Truthy(Get(metadata, "orderInfo")) ==> q.orderInfo == Get(metadata, "orderInfo")
    ensures !Truthy(Get(metadata, "orderInfo")) ==> q.orderInfo == Str(DefaultOrderInfo(orderId))
    ensures Truthy(Get(metadata, "extraData")) ==> q.extraData == Get(metadata, "extraData")
    ensures !Truthy(Get(metadata, "extraData")) ==> q.extraData == Str("")
    ensures q.signature == hmac(cfg.secretKey, Stringify(CreateFields(q)))
  {
    var requestId := orderId + "_" + Text.IntToString(now);
    var orderInfo := JsOr(Get(metadata, "orderInfo"), Str(DefaultOrderInfo(orderId)));
    var requestType := "captureWallet";
    var extraData := JsOr(Get(metadata, "extraData"), Str(""));
    var unsigned := CreateRequest(cfg.partnerCode, cfg.accessKey, requestId, amount, orderId,
                                  orderInfo, cfg.redirectUrl, cfg.ipnUrl, requestType, extraData,
                                  "", "vi");
    var signature := hmac(cfg.secretKey, Stringify(CreateFields(unsigned)));
    assert CreateFields(unsigned.(signature := signature)) == CreateFields(unsigned);
    unsigned.(signature := signature)
  }

  // ---------------------------------------------------------------------------
  // `refundPayment`
  // ---------------------------------------------------------------------------

  /** The body posted to MoMo's `refund` endpoint. */
  datatype RefundRequest = RefundRequest(
    partnerCode: string, accessKey: string, requestId: string, amount: int, orderId: string,
    transId: string, lang: string, description: string, signature: string)

  /** The signed names of a refund request, in the order they are written. */
  function RefundNames(): seq<string> {
    [ "accessKey", "amount", "description", "orderId", "partnerCode", "requestId", "transId" ]
  }

  function RefundFields(q: RefundRequest): Entries {
    Zip(RefundNames(),
        [ q.accessKey, Text.IntToString(q.amount), q.description, q.orderId, q.partnerCode,
          q.requestId, q.transId ])
  }

  /** The request `refundPayment(transactionId, amount)` posts. It reads the
      clock twice: `now1` for the request id and `now2` for the order id. */
  function RefundRequestBody(cfg: Config, hmac: Hmac, transactionId: string, amount: int,
                             now1: int, now2: int): (q: RefundRequest)
    ensures q.requestId == transactionId + "_" + Text.IntToString(now1)
    ensures q.orderId == transactionId + "_" + Text.IntToString(now2)
    ensures q.transId == transactionId && q.amount == amount
    ensures q.description == "Refund test" && q.lang == "vi"
    ensures q.partnerCode == cfg.partnerCode && q.accessKey == cfg.accessKey
    ensures q.signature == hmac(cfg.secretKey, Stringify(RefundFields(q)))
  {
    var unsigned := RefundRequest(cfg.partnerCode, cfg.accessKey,
                                  transactionId + "_" + Text.IntToString(now1), amount,
                                  transactionId + "_" + Text.IntToString(now2), transactionId,
                                  "vi", "Refund test", "");
    var signature := hmac(cfg.secretKey, Stringify(RefundFields(unsigned)));
    assert RefundFields(unsigned.(signature := signature)) == RefundFields(unsigned);
    unsigned.(signature := signature)
  }

  /** `response.data.resultCode === 0`: what `refundPayment` resolves to. */
  predicate RefundSucceeded(response: Params) {
    Get(response, "resultCode") == Num(0)
  }

  // ---------------------------------------------------------------------------
  // `verifyPayment`
  // ---------------------------------------------------------------------------

  /** The signed names of a payment result, in the order they are written. */
  function CallbackNames(): seq<string> {
    [ "accessKey", "amount", "extraData", "message", "orderId", "orderInfo", "orderType",
      "partnerCode", "payType", "requestId", "responseTime", "resultCode", "transId" ]
  }

  /** The signed pairs of a payment result: the configured access key, then each
      other name's value as sent. */
  function CallbackFields(accessKey: string, params: Params): Entries {
    Zip(CallbackNames(), [accessKey] + Texts(params, CallbackNames()[1..]))
  }

  /** The signature MoMo should have sent with `params`. */
  function CallbackSignature(cfg: Config, hmac: Hmac, params: Params): string {
    hmac(cfg.secretKey, Stringify(CallbackFields(cfg.accessKey, params)))
  }

  function AsReal(n: Option<int>): Option<real> {
    match n
    case None => None
    case Some(v) => Some(v as real)
  }

  /** `verifyPayment(params)` */
  function VerifyPayment(cfg: Config, hmac: Hmac, params: Params): (r: PaymentResult)
    ensures r.status == PAID || r.status == FAILED
    ensures r.status == PAID ==> Get(params, "resultCode") == Num(0)
    ensures Get(params, "signature") != Str(CallbackSignature(cfg, hmac, params)) ==> r.status == FAILED
    ensures r.rawResponse == params
    ensures r.amount == AsReal(JsNumber(Get(params, "amount")))
    ensures r.transactionId == JsOr(Get(params, "transId"), Str(""))
  {
    var expected := hmac(cfg.secretKey, Stringify(CallbackFields(cfg.accessKey, params)));
    var amount := AsReal(JsNumber(Get(params, "amount")));
    var transactionId := JsOr(Get(params, "transId"), Str(""));
    if Str(expected) != Get(params, "signature") then PaymentResult(amount, params, FAILED, transactionId)
    else
      var status := if Get(params, "resultCode") == Num(0) then PAID else FAILED;
      PaymentResult(amount, params, status, transactionId)
  }

  // ---------------------------------------------------------------------------
  // Properties
  // ---------------------------------------------------------------------------

  /** Each signed string lists its names in ascending order, as MoMo requires. */
  lemma CreateNamesAscending()
    ensures Text.Sorted(CreateNames())
  {
    Text.SortedByDiffs(CreateNames(), [1, 0, 0, 0, 6, 0, 0, 2, 7]);
  }

  lemma RefundNamesAscending()
    ensures Text.Sorted(RefundNames())
  {
    Text.SortedByDiffs(RefundNames(), [1, 0, 0, 0, 0, 0]);
  }

  lemma CallbackNamesAscending()
    ensures Text.Sorted(CallbackNames())
  {
    Text.SortedByDiffs(CallbackNames(), [1, 0, 0, 0, 6, 5, 0, 2, 0, 2, 3, 0]);
  }

  /** The signature a payment result carries is not itself signed: adding it
      leaves the signed string as it was. */
  lemma SignatureNotSigned(accessKey: string, fields: Params, sig: Js)
    requires forall i :: 0 <= i < |fields| ==> fields[i].0 != "signature"
    ensures CallbackFields(accessKey, fields + [("signature", sig)]) == CallbackFields(accessKey, fields)
  {
    AddNewKey(fields, "signature", sig);
    var names := CallbackNames()[1..];
    forall i | 0 <= i < |names|
      ensures Get(fields + [("signature", sig)], names[i]) == Get(fields, names[i])
    {
      assert names[i] != "signature";
    }
  }

  /** A payment result carrying the signature of its own fields, as MoMo signs
      it, is accepted: it is PAID exactly when the result code is the number 0. */
  lemma SignedCallbackAccepted(cfg: Config, hmac: Hmac, fields: Params)
    requires forall i :: 0 <= i < |fields| ==> fields[i].0 != "signature"
    ensures var params := fields + [("signature", Str(CallbackSignature(cfg, hmac, fields)))];
            (VerifyPayment(cfg, hmac, params).status == PAID <==> Get(fields, "resultCode") == Num(0))
  {
    var sig := Str(CallbackSignature(cfg, hmac, fields));
    var params := fields + [("signature", sig)];
    SignatureNotSigned(cfg.accessKey, fields, sig);
    GetAddedKey(fields, "signature", sig);
    GetOtherKey(fields, "signature", sig, "resultCode");
    assert CallbackSignature(cfg, hmac, params) == CallbackSignature(cfg, hmac, fields);
    GenuineSignature(cfg, hmac, params);
  }

  /** With the right signature the status follows the result code alone. */
  lemma GenuineSignature(cfg: Config, hmac: Hmac, params: Params)
    requires Get(params, "signature") == Str(CallbackSignature(cfg, hmac, params))
    ensures VerifyPayment(cfg, hmac, params).status == PAID <==> Get(params, "resultCode") == Num(0)
  {
  }

  /** A result that fails to carry the right signature is FAILED even when its
      result code says the payment went through. */
  lemma ForgedCallbackFails(cfg: Config, hmac: Hmac, fields: Params, forged: string)
    requires forall i :: 0 <= i < |fields| ==> fields[i].0 != "signature"
    requires forged != CallbackSignature(cfg, hmac, fields)
    ensures VerifyPayment(cfg, hmac, fields + [("signature", Str(forged))]).status == FAILED
  {
    SignatureNotSigned(cfg.accessKey, fields, Str(forged));
    AddNewKey(fields, "signature", Str(forged));
  }

  /** The amount MoMo echoes back as a number, or as its decimal text, is
      reported unchanged. */
  lemma AmountReported(cfg: Config, hmac: Hmac, params: Params, amount: int)
    requires Get(params, "amount") == Num(amount) || Get(params, "amount") == Str(Text.IntToString(amount))
    ensures VerifyPayment(cfg, hmac, params).amount == Some(amount as real)
  {
    Text.ParseNumberOfIntToString(amount);
  }
}

=== FILE: momo_services.dfy ===
/** The services that act on MoMo's answers: the payment-result callback that
    settles the payment and mirrors it on the order, the older handler that
    only marks the order, and the refund of a paid MoMo payment. */
module MomoServices {
  import opened Wrappers
  import opened Entities
  import Text
  import opened Query
  import MomoGateway
  import Orders

  /** A string path assigned `v`: `undefined` unsets it, so it reads back as
      the schema default "". */
  function StoredText(v: Js): string {
    if v.Undefined? then "" else JsText(v)
  }

  /** `expectedSignature === data.signature` */
  predicate SignatureValid(cfg: MomoGateway.Config, hmac: Hmac, data: Params) {
    Get(data, "signature") == Str(MomoGateway.CallbackSignature(cfg, hmac, data))
  }

  /** `data.resultCode === 0` */
  predicate Succeeded(data: Params) {
    Get(data, "resultCode") == Num(0)
  }

  /** The order id a callback is about, as the string the queries compare. */
  function OrderKey(data: Params): string {
    JsText(Get(data, "orderId"))
  }

  /** `Payment.findOne({ orderId: data.orderId })` */
  function PaymentOfOrder(db: Db, data: Params): Option<nat> {
    FirstIndex(db.payments, (p: Payment) => p.orderId == OrderKey(data))
  }

  // ---------------------------------------------------------------------------
  // `VerifyMomoCallbackService.execute`
  // ---------------------------------------------------------------------------

  /** The order write of the callback: payment status and the matching timestamp. */
  function MarkOrder(o: Order, data: Params, now: int): Order {
    if Succeeded(data) then o.(paymentStatus := Some(PAID), paidTimestamp := Some(now))
    else o.(paymentStatus := Some(FAILED), failedTimestamp := Some(now))
  }

  /** `VerifyMomoCallbackService.execute(data)` at time `now`. */
  function VerifyMomoCallback(db: Db, cfg: MomoGateway.Config, hmac: Hmac, data: Params, now: int)
    : (r: Effect<string>)
    ensures !SignatureValid(cfg, hmac, data) ==> r == Fail(db, "INVALID_MOMO_SIGNATURE")
    ensures SignatureValid(cfg, hmac, data) && PaymentOfOrder(db, data).None? ==>
              r == Fail(db, "PAYMENT_NOT_FOUND")
    ensures r.result.Ok? <==> SignatureValid(cfg, hmac, data) && PaymentOfOrder(db, data).Some?
    ensures r.result.Ok? ==>
              var i := PaymentOfOrder(db, data).value;
              var p := db.payments[i];
              && r.result.value == "ok"
              && |r.db.payments| == |db.payments|
              && (forall j :: 0 <= j < |db.payments| && j != i ==> r.db.payments[j] == db.payments[j])
              && (Succeeded(data) ==>
                    r.db.payments[i] == p.(status := Some(PAID), paidTimestamp := Some(now),
                                           transactionId := StoredText(Get(data, "transId"))))
              && (!Succeeded(data) ==>
                    r.db.payments[i] == p.(status := Some(FAILED), failedTimestamp := Some(now),
                                           gatewayResponseCode := JsNumber(Get(data, "resultCode"))))
              && r.db.orders.Keys == db.orders.Keys
              && (forall id :: id in db.orders && id != OrderKey(data) ==> r.db.orders[id] == db.orders[id])
              && (OrderKey(data) in db.orders ==>
                    var o := db.orders[OrderKey(data)];
                    r.db.orders[OrderKey(data)] ==
                      if Succeeded(data) then o.(paymentStatus := Some(PAID), paidTimestamp := Some(now))
                      else o.(paymentStatus := Some(FAILED), failedTimestamp := Some(now)))
              && r.db == db.(payments := r.db.payments, orders := r.db.orders)
  {
    if !SignatureValid(cfg, hmac, data) then Fail(db, "INVALID_MOMO_SIGNATURE")
    else match PaymentOfOrder(db, data)
      case None => Fail(db, "PAYMENT_NOT_FOUND")
      case Some(i) => Effect(Apply(db, i, data, now), Ok("ok"))
  }

  /** The payment write of the callback. */
  function Settle(p: Payment, data: Params, now: int): Payment {
    if Succeeded(data) then
      p.(status := Some(PAID), paidTimestamp := Some(now), transactionId := StoredText(Get(data, "transId")))
    else
      p.(status := Some(FAILED), failedTimestamp := Some(now), gatewayResponseCode := JsNumber(Get(data, "resultCode")))
  }

  /** Both writes of the callback, for the payment at position `i`. */
  function Apply(db: Db, i: nat, data: Params, now: int): Db
    requires i < |db.payments|
  {
    MarkOrders(SetPayment(db, i, Settle(db.payments[i], data, now)), data, now)
  }

  /** `Order.findByIdAndUpdate(data.orderId, …)` */
  function MarkOrders(db: Db, data: Params, now: int): Db {
    UpdateOrder(db, OrderKey(data), (o: Order) => MarkOrder(o, data, now))
  }

  lemma MarkOrdersTwice(db: Db, data: Params, now: int)
    ensures MarkOrders(MarkOrders(db, data, now), data, now) == MarkOrders(db, data, now)
  {
    var key := OrderKey(data);
    if key in db.orders {
      var o := db.orders[key];
      assert MarkOrder(MarkOrder(o, data, now), data, now) == MarkOrder(o, data, now);
    }
  }

  /** Delivering the same callback again at the same instant changes nothing more. */
  lemma VerifyMomoCallbackReplay(db: Db, cfg: MomoGateway.Config, hmac: Hmac, data: Params, now: int)
    requires VerifyMomoCallback(db, cfg, hmac, data, now).result.Ok?
    ensures var db1 := VerifyMomoCallback(db, cfg, hmac, data, now).db;
            VerifyMomoCallback(db1, cfg, hmac, data, now) == Effect(db1, Ok("ok"))
  {
    ApplyIdempotent(db, PaymentOfOrder(db, data).value, data, now);
  }

  lemma ApplyIdempotent(db: Db, i: nat, data: Params, now: int)
    requires PaymentOfOrder(db, data) == Some(i)
    ensures PaymentOfOrder(Apply(db, i, data, now), data) == Some(i)
    ensures Apply(Apply(db, i, data, now), i, data, now) == Apply(db, i, data, now)
  {
    var p1 := Settle(db.payments[i], data, now);
    var mid := SetPayment(db, i, p1);
    var db1 := MarkOrders(mid, data, now);
    assert db1.payments == db.payments[i := p1];
    FirstIndexUpdate(db.payments, (p: Payment) => p.orderId == OrderKey(data), i, p1);
    assert Settle(p1, data, now) == p1;
    assert SetPayment(db1, i, p1) == db1;
    MarkOrdersTwice(mid, data, now);
  }

  /** The settled status is the one the gateway's own `verifyPayment` reports
      for the same data. */
  lemma VerifyMomoCallbackAgreesWithGateway(db: Db, cfg: MomoGateway.Config, hmac: Hmac, data: Params, now: int)
    requires VerifyMomoCallback(db, cfg, hmac, data, now).result.Ok?
    ensures var r := VerifyMomoCallback(db, cfg, hmac, data, now);
            r.db.payments[PaymentOfOrder(db, data).value].status ==
              Some(MomoGateway.VerifyPayment(cfg, hmac, data).status)
  {
  }

  /** A callback whose signature is not MoMo's signature of its fields changes
      nothing, whatever its result code says. */
  lemma ForgedCallbackWritesNothing(db: Db, cfg: MomoGateway.Config, hmac: Hmac, fields: Params,
                                    forged: string, now: int)
    requires forall i :: 0 <= i < |fields| ==> fields[i].0 != "signature"
    requires forged != MomoGateway.CallbackSignature(cfg, hmac, fields)
    ensures var r := VerifyMomoCallback(db, cfg, hmac, fields + [("signature", Str(forged))], now);
            r == Fail(db, "INVALID_MOMO_SIGNATURE")
  {
    MomoGateway.SignatureNotSigned(cfg.accessKey, fields, Str(forged));
    AddNewKey(fields, "signature", Str(forged));
  }

  // ---------------------------------------------------------------------------
  // `handleMomoCallback`
  // ---------------------------------------------------------------------------

  /** `handleMomoCallback(data)`: the same signature check, then only the
      order's `paymentStatus` is written. */
  function HandleMomoCallback(db: Db, cfg: MomoGateway.Config, hmac: Hmac, data: Params): (r: Effect<string>)
    ensures !SignatureValid(cfg, hmac, data) ==> r == Fail(db, "Sai chữ ký callback Momo")
    ensures SignatureValid(cfg, hmac, data) ==>
              && r == Effect(db.(orders := r.db.orders), Ok("ok"))
              && r.db.orders.Keys == db.orders.Keys
              && (forall id :: id in db.orders && id != OrderKey(data) ==> r.db.orders[id] == db.orders[id])
              && (OrderKey(data) in db.orders ==>
                    r.db.orders[OrderKey(data)] ==
                      db.orders[OrderKey(data)].(paymentStatus := Some(if Succeeded(data) then PAID else FAILED)))
  {
    if !SignatureValid(cfg, hmac, data) then Fail(db, "Sai chữ ký callback Momo")
    else
      var status := if Succeeded(data) then PAID else FAILED;
      Effect(UpdateOrder(db, OrderKey(data), (o: Order) => o.(paymentStatus := Some(status))), Ok("ok"))
  }

  /** On the same valid callback both handlers leave the order with the same
      payment status. */
  lemma HandlersAgreeOnOrder(db: Db, cfg: MomoGateway.Config, hmac: Hmac, data: Params, now: int)
    requires VerifyMomoCallback(db, cfg, hmac, data, now).result.Ok?
    requires OrderKey(data) in db.orders
    ensures VerifyMomoCallback(db, cfg, hmac, data, now).db.orders[OrderKey(data)].paymentStatus ==
            HandleMomoCallback(db, cfg, hmac, data).db.orders[OrderKey(data)].paymentStatus
  {
  }

  // ---------------------------------------------------------------------------
  // `RefundMomoPaymentService.execute`
  // ---------------------------------------------------------------------------

  /** The request the refund service posts for payment `p`: the request id is
      built from the payment's id and the order id from its order, each with its
      own reading of the clock. */
  function RefundRequestFor(cfg: MomoGateway.Config, hmac: Hmac, p: Payment, now1: int, now2: int)
    : (q: MomoGateway.RefundRequest)
    ensures q.requestId == p.id + "_" + Text.IntToString(now1)
    ensures q.orderId == p.orderId + "_" + Text.IntToString(now2)
    ensures q.transId == p.transactionId && q.amount == p.amount && q.description == "Refund test"
    ensures q.partnerCode == cfg.partnerCode && q.accessKey == cfg.accessKey
    ensures q.signature == hmac(cfg.secretKey, Stringify(MomoGateway.RefundFields(q)))
  {
    var unsigned := MomoGateway.RefundRequest(cfg.partnerCode, cfg.accessKey,
                                              p.id + "_" + Text.IntToString(now1), p.amount,
                                              p.orderId + "_" + Text.IntToString(now2),
                                              p.transactionId, "vi", "Refund test", "");
    var signature := hmac(cfg.secretKey, Stringify(MomoGateway.RefundFields(unsigned)));
    assert MomoGateway.RefundFields(unsigned.(signature := signature)) == MomoGateway.RefundFields(unsigned);
    unsigned.(signature := signature)
  }

  /** `{ message: "Refund successful", data: response.data }` */
  datatype RefundReply = RefundReply(message: string, data: Params)

  /** The thrown message when MoMo declines: `message`, or `localMessage` when
      that is empty. */
  function RefundFailure(response: Params): string {
    "Refund failed: " + JsText(JsOr(Get(response, "message"), Get(response, "localMessage")))
  }

  /** The refund service, with the order status it insists on as a parameter:
      the precondition chain, then MoMo's answer `response` decides. */
  function Refund(db: Db, paymentId: string, response: Params, now: int, cancelled: Status)
    : (r: Effect<RefundReply>)
    ensures FindPayment(db, paymentId).None? ==> r == Fail(db, "PAYMENT_NOT_FOUND")
    ensures FindPayment(db, paymentId).Some? ==>
              var p := db.payments[FindPayment(db, paymentId).value];
              && (p.paymentMethod != Some(MOMO) ==> r == Fail(db, "INVALID_PAYMENT_METHOD"))
              && (p.paymentMethod == Some(MOMO) && p.status != Some(PAID) ==>
                    r == Fail(db, "PAYMENT_NOT_PAID"))
              && (p.paymentMethod == Some(MOMO) && p.status == Some(PAID) && p.orderId !in db.orders ==>
                    r == Fail(db, "ORDER_NOT_FOUND"))
              && (p.paymentMethod == Some(MOMO) && p.status == Some(PAID) && p.orderId in db.orders &&
                  db.orders[p.orderId].status != cancelled ==>
                    r == Fail(db, "ORDER_NOT_CANCELLED"))
    ensures r.result.Err? ==> r.db == db
    ensures r.result.Ok? ==>
              var i := FindPayment(db, paymentId).value;
              var p := db.payments[i];
              && p.paymentMethod == Some(MOMO) && p.status == Some(PAID)
              && p.orderId in db.orders && db.orders[p.orderId].status == cancelled
              && MomoGateway.RefundSucceeded(response)
              && r.result.value == RefundReply("Refund successful", response)
              && r.db == SetPayment(db, i, p.(status := Some(REFUNDED), refundedTimestamp := Some(now),
                                              rawResponse := Some(response)))
    ensures FindPayment(db, paymentId).Some? && !MomoGateway.RefundSucceeded(response) ==> r.result.Err?
    ensures r.result.Ok? <==>
              && FindPayment(db, paymentId).Some?
              && (var p := db.payments[FindPayment(db, paymentId).value];
                  && p.paymentMethod == Some(MOMO) && p.status == Some(PAID)
                  && p.orderId in db.orders && db.orders[p.orderId].status == cancelled)
              && MomoGateway.RefundSucceeded(response)
    ensures FindPayment(db, paymentId).Some? && !MomoGateway.RefundSucceeded(response) ==>
              var p := db.payments[FindPayment(db, paymentId).value];
              p.paymentMethod == Some(MOMO) && p.status == Some(PAID)
              && p.orderId in db.orders && db.orders[p.orderId].status == cancelled ==>
                r == Fail(db, RefundFailure(response))
  {
    match FindPayment(db, paymentId)
    case None => Fail(db, "PAYMENT_NOT_FOUND")
    case Some(i) =>
      var p := db.payments[i];
      if p.paymentMethod != Some(MOMO) then Fail(db, "INVALID_PAYMENT_METHOD")
      else if p.status != Some(PAID) then Fail(db, "PAYMENT_NOT_PAID")
      else if p.orderId !in db.orders then Fail(db, "ORDER_NOT_FOUND")
      else if db.orders[p.orderId].status != cancelled then Fail(db, "ORDER_NOT_CANCELLED")
      else if MomoGateway.RefundSucceeded(response) then
        var refunded := p.(status := Some(REFUNDED), refundedTimestamp := Some(now), rawResponse := Some(response));
        Effect(SetPayment(db, i, refunded), Ok(RefundReply("Refund successful", response)))
      else Fail(db, RefundFailure(response))
  }

  /** `RefundMomoPaymentService.execute(paymentId)` as written: it asks for an
      order whose status is "CANCELLED". */
  function RefundMomoPayment(db: Db, paymentId: string, response: Params, now: int)
    : (r: Effect<RefundReply>)
    ensures r.result.Ok? ==>
              && FindPayment(db, paymentId).Some?
              && var p := db.payments[FindPayment(db, paymentId).value];
                 p.orderId in db.orders && db.orders[p.orderId].status == CANCELLED
  {
    Refund(db, paymentId, response, now, CANCELLED)
  }

  /** The refund service asking for the status cancellation actually writes. */
  function RefundMomoPaymentCorrected(db: Db, paymentId: string, response: Params, now: int)
    : (r: Effect<RefundReply>)
    ensures r.result.Ok? ==>
              && FindPayment(db, paymentId).Some?
              && var p := db.payments[FindPayment(db, paymentId).value];
                 p.orderId in db.orders && db.orders[p.orderId].status == CANCELED
  {
    Refund(db, paymentId, response, now, CANCELED)
  }

  /** As written, no refund ever succeeds while the orders hold statuses their
      schema accepts, since "CANCELLED" is not one of them. */
  lemma RefundNeverSucceeds(db: Db, paymentId: string, response: Params, now: int)
    requires forall id :: id in db.orders ==> IsOrderSchemaStatus(db.orders[id].status)
    ensures RefundMomoPayment(db, paymentId, response, now).result.Err?
  {
  }

  /** An order the customer cancelled, paid through MoMo: the service as
      written refuses the refund MoMo would grant, the corrected one records it. */
  lemma RefundAfterCancel(db: Db, userId: string, orderId: string, paymentId: string,
                          response: Params, now: int)
    requires Orders.CancelOrder(db, userId, orderId).result.Ok?
    requires FindPayment(db, paymentId).Some?
    requires var p := db.payments[FindPayment(db, paymentId).value];
             p.orderId == orderId && p.paymentMethod == Some(MOMO) && p.status == Some(PAID)
    requires MomoGateway.RefundSucceeded(response)
    ensures var db1 := Orders.CancelOrder(db, userId, orderId).db;
            RefundMomoPayment(db1, paymentId, response, now) == Fail(db1, "ORDER_NOT_CANCELLED")
    ensures var db1 := Orders.CancelOrder(db, userId, orderId).db;
            var r := RefundMomoPaymentCorrected(db1, paymentId, response, now);
            r.result.Ok? && r.db.payments[FindPayment(db, paymentId).value].status == Some(REFUNDED)
  {
    var db1 := Orders.CancelOrder(db, userId, orderId).db;
    assert db1.payments == db.payments;
    assert db1.orders[orderId].status == CANCELED;
  }
}

=== FILE: order_status.dfy ===
/** The administrative order-status update: a transition table looked up by
    the stored status, then a guarded write of the requested status. */
module OrderStatus {
  import opened Wrappers
  import opened Entities

  /** `validTransitions[status]`; `None` where the table has no entry, in which
      case `allowedStatuses.includes` throws a `TypeError`. */
  function Allowed(s: Status): Option<set<Status>> {
    match s
    case CANCELED => Some({})
    case CREATED => Some({PAID, CANCELED})
    case DELIVERED => Some({})
    case PAID => Some({SHIPPED, CANCELED})
    case SHIPPED => Some({DELIVERED, CANCELED})
    case _ => None
  }

  predicate CanMove(from: Status, to: Status) {
    Allowed(from).Some? && to in Allowed(from).value
  }

  predicate IsTerminal(s: Status) {
    Allowed(s) == Some({})
  }

  /** Position of a status along the lifecycle; cancellation is last. */
  function Rank(s: Status): nat {
    match s
    case CREATED => 0
    case PAID => 1
    case SHIPPED => 2
    case DELIVERED => 3
    case CANCELED => 4
    case _ => 0
  }

  /** The table has an entry exactly for the statuses the order schema declares. */
  lemma TableCoversSchema(s: Status)
    ensures Allowed(s).Some? <==> IsOrderSchemaStatus(s)
  {
  }

  /** DELIVERED and CANCELED accept no target; every other known status accepts one. */
  lemma TerminalStatuses(s: Status)
    requires IsOrderSchemaStatus(s)
    ensures IsTerminal(s) <==> s == DELIVERED || s == CANCELED
  {
  }

  /** No status may move to itself. */
  lemma NoSelfTransition(s: Status)
    ensures !CanMove(s, s)
  {
  }

  /** Every known, non-terminal status can move to CANCELED. */
  lemma CancelFromAnyLiveStatus(s: Status)
    requires IsOrderSchemaStatus(s) && !IsTerminal(s)
    ensures CanMove(s, CANCELED)
  {
  }

  /** Every allowed move goes strictly forward in the lifecycle, so there are no cycles. */
  lemma MovesGoForward(from: Status, to: Status)
    requires CanMove(from, to)
    ensures Rank(from) < Rank(to)
    ensures IsOrderSchemaStatus(to)
  {
  }

  /** `updateOrderStatus(orderId, { status: target })` */
  function UpdateOrderStatus(db: Db, orderId: string, target: Status): (r: Effect<Order>)
    ensures orderId !in db.orders ==> r == Fail(db, "ORDER_NOT_FOUND")
    ensures orderId in db.orders && Allowed(db.orders[orderId].status).None? ==>
              r.db == db && r.result == Err(TypeError)
    ensures orderId in db.orders && Allowed(db.orders[orderId].status).Some? &&
            !CanMove(db.orders[orderId].status, target) ==>
              r == Fail(db, "ORDER_INVALID_STATUS_TRANSITION")
    ensures r.result.Ok? <==> orderId in db.orders && CanMove(db.orders[orderId].status, target)
    ensures r.result.Ok? ==>
              r.result.value == db.orders[orderId].(status := target) &&
              r.db == db.(orders := db.orders[orderId := r.result.value])
  {
    if orderId !in db.orders then Fail(db, "ORDER_NOT_FOUND")
    else
      var order := db.orders[orderId];
      match Allowed(order.status)
      case None => Effect(db, Err(TypeError))
      case Some(allowed) =>
        if target !in allowed then Fail(db, "ORDER_INVALID_STATUS_TRANSITION")
        else
          var updated := order.(status := target);
          Effect(db.(orders := db.orders[orderId := updated]), Ok(updated))
  }

  /** Applies the requested targets one after another, as an administrator
      issuing successive updates would, and counts the ones that succeed. */
  function Replay(db: Db, orderId: string, targets: seq<Status>): (r: (Db, nat))
    ensures r.1 <= |targets|
    decreases |targets|
  {
    if targets == [] then (db, 0)
    else
      var step := UpdateOrderStatus(db, orderId, targets[0]);
      var rest := Replay(step.db, orderId, targets[1..]);
      (rest.0, rest.1 + (if step.result.Ok? then 1 else 0))
  }

  /** However many updates are requested, an order's status changes at most
      `4 - Rank(status)` times: the lifecycle is finite. */
  lemma {:induction false} ReplayIsBounded(db: Db, orderId: string, targets: seq<Status>)
    requires orderId in db.orders
    ensures Replay(db, orderId, targets).1 <= 4 - Rank(db.orders[orderId].status)
    decreases |targets|
  {
    if targets != [] {
      var step := UpdateOrderStatus(db, orderId, targets[0]);
      ReplayIsBounded(step.db, orderId, targets[1..]);
      if step.result.Ok? {
        MovesGoForward(db.orders[orderId].status, targets[0]);
      }
    }
  }

  /** An update of one order leaves every other order as it was. */
  lemma UpdateTouchesOnlyItsOrder(db: Db, orderId: string, target: Status, other: string)
    requires other != orderId && other in db.orders
    ensures var r := UpdateOrderStatus(db, orderId, target);
            other in r.db.orders && r.db.orders[other] == db.orders[other]
  {
  }
}

=== FILE: orders.dfy ===
/** Placing and cancelling orders: the availability check, the order snapshot,
    the stock decrement and the cart clean-up on creation, and the stock
    restore on cancellation. */
module Orders {
  import opened Wrappers
  import opened Entities

  /** The create-order payload after validation. */
  datatype OrderPayload = OrderPayload(
    items: seq<OrderItem>,
    notes: Option<string>,
    paymentMethod: Method,
    promotionCode: Option<string>,
    shippingAddress: string,
    totalAmount: int)

  function ProductIds(items: seq<OrderItem>): (ids: seq<string>)
    ensures |ids| == |items|
    ensures forall i :: 0 <= i < |items| ==> ids[i] == items[i].productId
  {
    seq(|items|, i requires 0 <= i < |items| => items[i].productId)
  }

  predicate Distinct(ids: seq<string>) {
    forall i, j :: 0 <= i < j < |ids| ==> ids[i] != ids[j]
  }

  /** `Product.find({ _id: { $in: ids } })`: each stored product listed at least once. */
  function Found(products: map<string, Product>, ids: seq<string>): set<string> {
    set id | id in ids && id in products
  }

  /** The set of entries of a list. */
  function Elems(ids: seq<string>): (r: set<string>)
    ensures forall x :: x in r <==> x in ids
    decreases |ids|
  {
    if ids == [] then {}
    else
      assert forall x :: x in ids <==> x == ids[0] || x in ids[1..] by {
        assert ids == [ids[0]] + ids[1..];
      }
      {ids[0]} + Elems(ids[1..])
  }

  lemma DistinctCons(ids: seq<string>)
    requires ids != []
    ensures Distinct(ids) <==> ids[0] !in ids[1..] && Distinct(ids[1..])
  {
    var rest := ids[1..];
    if ids[0] in rest {
      var j :| 0 <= j < |rest| && rest[j] == ids[0];
      assert ids[0] == ids[j + 1];
    }
    if !Distinct(ids) {
      var i, j :| 0 <= i < j < |ids| && ids[i] == ids[j];
      if i > 0 {
        assert rest[i - 1] == rest[j - 1];
      } else {
        assert rest[j - 1] == ids[0];
      }
    }
  }

  /** A list has as many distinct elements as entries exactly when no entry repeats. */
  lemma {:induction false} DistinctCount(ids: seq<string>)
    ensures |Elems(ids)| <= |ids|
    ensures |Elems(ids)| == |ids| <==> Distinct(ids)
    decreases |ids|
  {
    if ids != [] {
      var rest := ids[1..];
      DistinctCount(rest);
      DistinctCons(ids);
      if ids[0] in rest {
        assert Elems(ids) == Elems(rest);
      } else {
        assert Elems(ids) == Elems(rest) + {ids[0]};
        assert ids[0] !in Elems(rest);
      }
    }
  }

  /** The count check passes exactly when every id names a stored product and
      no product is listed twice. */
  lemma FoundAllExactly(products: map<string, Product>, ids: seq<string>)
    ensures |Found(products, ids)| == |ids| <==>
              Distinct(ids) && forall i :: 0 <= i < |ids| ==> ids[i] in products
  {
    DistinctCount(ids);
    if forall i :: 0 <= i < |ids| ==> ids[i] in products {
      assert Found(products, ids) == Elems(ids);
    } else {
      var i :| 0 <= i < |ids| && ids[i] !in products;
      FoundMissesOne(products, ids, i);
    }
  }

  /** An id that names no product leaves the found set short of the listed ids. */
  lemma FoundMissesOne(products: map<string, Product>, ids: seq<string>, i: nat)
    requires i < |ids| && ids[i] !in products
    ensures |Found(products, ids)| < |Elems(ids)|
  {
    var all := Elems(ids);
    var found := Found(products, ids);
    var missing := all - found;
    assert ids[i] in missing;
    assert all == found + missing;
    assert found * missing == {};
    assert |all| == |found| + |missing|;
  }

  /** Total quantity of product `pid` across `items`. */
  function QtySum(items: seq<OrderItem>, pid: string): int {
    if items == [] then 0
    else (if items[0].productId == pid then items[0].quantity else 0) + QtySum(items[1..], pid)
  }

  /** When product ids are distinct, a product's total is its one item's quantity. */
  lemma {:induction false} QtySumDistinct(items: seq<OrderItem>, k: nat)
    requires k < |items| && Distinct(ProductIds(items))
    ensures QtySum(items, items[k].productId) == items[k].quantity
    decreases |items|
  {
    var pid := items[k].productId;
    if k == 0 {
      QtySumAbsent(items[1..], pid);
    } else {
      assert items[0].productId != pid by { assert ProductIds(items)[0] != ProductIds(items)[k]; }
      assert Distinct(ProductIds(items[1..])) by {
        forall i, j | 0 <= i < j < |items| - 1
          ensures ProductIds(items[1..])[i] != ProductIds(items[1..])[j]
        {
          assert ProductIds(items)[i + 1] != ProductIds(items)[j + 1];
        }
      }
      QtySumDistinct(items[1..], k - 1);
    }
  }

  lemma {:induction false} QtySumAbsent(items: seq<OrderItem>, pid: string)
    requires forall i :: 0 <= i < |items| ==> items[i].productId != pid
    ensures QtySum(items, pid) == 0
    decreases |items|
  {
    if items != [] {
      QtySumAbsent(items[1..], pid);
    }
  }

  /** `q` when restoring stock, `-q` when taking it. */
  function Signed(q: int, up: bool): int {
    if up then q else -q
  }

  /** One `Product.findByIdAndUpdate(item.productId, { $inc: { stock: ±item.quantity } })`;
      a product that is not stored is left missing. */
  function Bump(products: map<string, Product>, it: OrderItem, up: bool): (r: map<string, Product>)
    ensures r.Keys == products.Keys
    ensures forall k :: k in products ==>
              r[k] == products[k].(stock := products[k].stock +
                                   (if k == it.productId then Signed(it.quantity, up) else 0))
  {
    if it.productId in products
    then products[it.productId := products[it.productId].(stock := products[it.productId].stock + Signed(it.quantity, up))]
    else products
  }

  /** The `$inc` loop over all items: taking stock when `up` is false,
      restoring it when `up` is true. */
  function ShiftStock(products: map<string, Product>, items: seq<OrderItem>, up: bool)
    : (r: map<string, Product>)
    ensures r.Keys == products.Keys
    ensures forall k :: k in products ==>
              r[k] == products[k].(stock := products[k].stock + Signed(QtySum(items, k), up))
    decreases |items|
  {
    if items == [] then products
    else ShiftStock(Bump(products, items[0], up), items[1..], up)
  }

  /** Taking and then restoring stock for the same items restores every product. */
  lemma ShiftStockRoundTrip(products: map<string, Product>, items: seq<OrderItem>)
    ensures ShiftStock(ShiftStock(products, items, false), items, true) == products
  {
    var r := ShiftStock(ShiftStock(products, items, false), items, true);
    assert forall k :: k in products ==> r[k] == products[k];
  }

  /** The stock loop: `ORDER_PRODUCT_NOT_FOUND` for an item whose product was
      not fetched, `ORDER_INSUFFICIENT_STOCK` for one asking more than the stock,
      whichever comes first. */
  function CheckStock(products: map<string, Product>, items: seq<OrderItem>): (r: Result<(), Error>)
    ensures r.Ok? <==> Available(products, items)
    ensures r.Err? ==> r.error in {Thrown("ORDER_PRODUCT_NOT_FOUND"), Thrown("ORDER_INSUFFICIENT_STOCK")}
    ensures (forall i :: 0 <= i < |items| ==> items[i].productId in products) ==>
              r != Err(Thrown("ORDER_PRODUCT_NOT_FOUND"))
    decreases |items|
  {
    if items == [] then Ok(())
    else if items[0].productId !in products then Err(Thrown("ORDER_PRODUCT_NOT_FOUND"))
    else if products[items[0].productId].stock < items[0].quantity then Err(Thrown("ORDER_INSUFFICIENT_STOCK"))
    else
      var rest := CheckStock(products, items[1..]);
      assert forall i :: 1 <= i < |items| ==> items[i] == items[1..][i - 1];
      rest
  }

  /** `$pull: { items: { productId: { $in: ids } } }` */
  function Pull(cart: seq<CartItem>, ids: seq<string>): (r: seq<CartItem>)
    ensures forall i :: 0 <= i < |r| ==> r[i] in cart && r[i].productId !in ids
    ensures forall i :: 0 <= i < |cart| && cart[i].productId !in ids ==> cart[i] in r
    decreases |cart|
  {
    if cart == [] then []
    else if cart[0].productId in ids then Pull(cart[1..], ids)
    else [cart[0]] + Pull(cart[1..], ids)
  }

  /** Every item names a stored product holding at least the item's quantity. */
  predicate Available(products: map<string, Product>, items: seq<OrderItem>) {
    forall i :: 0 <= i < |items| ==>
      items[i].productId in products && items[i].quantity <= products[items[i].productId].stock
  }

  /** The stock decrement of a successful order: each ordered product loses
      exactly its item's quantity and stays non-negative; every other product
      is untouched. */
  function TakeStock(products: map<string, Product>, items: seq<OrderItem>): (r: map<string, Product>)
    requires Distinct(ProductIds(items)) && Available(products, items)
    ensures r.Keys == products.Keys
    ensures r == ShiftStock(products, items, false)
    ensures forall i :: 0 <= i < |items| ==>
              r[items[i].productId] ==
                products[items[i].productId].(stock := products[items[i].productId].stock - items[i].quantity)
    ensures forall i :: 0 <= i < |items| ==> r[items[i].productId].stock >= 0
    ensures forall k :: k in products && k !in ProductIds(items) ==> r[k] == products[k]
  {
    forall i | 0 <= i < |items|
      ensures QtySum(items, items[i].productId) == items[i].quantity
    {
      QtySumDistinct(items, i);
    }
    forall k | k in products && k !in ProductIds(items)
      ensures QtySum(items, k) == 0
    {
      QtySumAbsent(items, k);
    }
    ShiftStock(products, items, false)
  }

  /** `Cart.findOneAndUpdate({ userId }, { $pull: ... })`: no cart is created. */
  function PruneCart(carts: map<string, seq<CartItem>>, userId: string, ids: seq<string>)
    : (r: map<string, seq<CartItem>>)
    ensures r.Keys == carts.Keys
    ensures forall u :: u in carts && u != userId ==> r[u] == carts[u]
    ensures userId in carts ==> r[userId] == Pull(carts[userId], ids)
  {
    if userId in carts then carts[userId := Pull(carts[userId], ids)] else carts
  }

  function Snapshot(orderId: string, userId: string, data: OrderPayload): (o: Order)
    ensures o.status == CREATED && o.id == orderId && o.userId == userId
    ensures o.items == data.items && o.totalAmount == data.totalAmount
    ensures o.paymentMethod == data.paymentMethod && o.paymentStatus.None?
  {
    var items := seq(|data.items|, i requires 0 <= i < |data.items| =>
      OrderItem(data.items[i].productId, data.items[i].name, data.items[i].price, data.items[i].quantity));
    assert items == data.items;
    Order(orderId, userId, items, data.totalAmount, data.paymentMethod, CREATED,
          data.shippingAddress, data.promotionCode, data.notes, None, None, None)
  }

  /** `CreateOrderService.invoke(userId, data)`; `orderId` is the id the new
      document receives. */
  function CreateOrder(db: Db, userId: string, orderId: string, data: OrderPayload): (r: Effect<Order>)
    ensures |Found(db.products, ProductIds(data.items))| != |data.items| ==>
              r == Fail(db, "ORDER_INVALID_PRODUCTS")
    ensures r.result.Err? ==>
              r.db == db &&
              r.result.error in {Thrown("ORDER_INVALID_PRODUCTS"), Thrown("ORDER_INSUFFICIENT_STOCK")}
    ensures r.result.Ok? <==> Distinct(ProductIds(data.items)) && Available(db.products, data.items)
    ensures r.result.Ok? ==>
              && r.result.value == Snapshot(orderId, userId, data)
              && r.db == db.(orders := db.orders[orderId := r.result.value],
                             products := TakeStock(db.products, data.items),
                             carts := PruneCart(db.carts, userId, ProductIds(data.items)))
  {
    var ids := ProductIds(data.items);
    FoundAllExactly(db.products, ids);
    if |Found(db.products, ids)| != |ids| then Fail(db, "ORDER_INVALID_PRODUCTS")
    else match CheckStock(db.products, data.items)
      case Err(e) => Effect(db, Err(e))
      case Ok(_) =>
        var order := Snapshot(orderId, userId, data);
        Effect(db.(orders := db.orders[orderId := order],
                   products := TakeStock(db.products, data.items),
                   carts := PruneCart(db.carts, userId, ids)), Ok(order))
  }

  /** `CancelOrderService.cancelOrder(userId, orderId)` */
  function CancelOrder(db: Db, userId: string, orderId: string): (r: Effect<Order>)
    ensures orderId !in db.orders || db.orders[orderId].userId != userId ==>
              r == Fail(db, "ORDER_NOT_FOUND")
    ensures orderId in db.orders && db.orders[orderId].userId == userId &&
            db.orders[orderId].status !in {CREATED, PAID} ==>
              r == Fail(db, "ORDER_CANNOT_BE_CANCELLED")
    ensures r.result.Ok? <==>
              orderId in db.orders && db.orders[orderId].userId == userId &&
              db.orders[orderId].status in {CREATED, PAID}
    ensures r.result.Ok? ==>
              var o := db.orders[orderId];
              && r.result.value == o.(status := CANCELED)
              && r.db == db.(orders := db.orders[orderId := o.(status := CANCELED)], products := r.db.products)
              && r.db.products.Keys == db.products.Keys
              && (forall k :: k in db.products ==>
                    r.db.products[k] == db.products[k].(stock := db.products[k].stock + QtySum(o.items, k)))
  {
    if orderId !in db.orders || db.orders[orderId].userId != userId then Fail(db, "ORDER_NOT_FOUND")
    else
      var o := db.orders[orderId];
      if o.status !in {CREATED, PAID} then Fail(db, "ORDER_CANNOT_BE_CANCELLED")
      else
        var cancelled := o.(status := CANCELED);
        Effect(db.(orders := db.orders[orderId := cancelled],
                   products := ShiftStock(db.products, o.items, true)), Ok(cancelled))
  }

  /** Placing an order that can be placed, and then cancelling it, leaves every
      product exactly as it was. */
  lemma CreateThenCancelRestoresStock(db: Db, userId: string, orderId: string, data: OrderPayload)
    requires Distinct(ProductIds(data.items)) && Available(db.products, data.items)
    ensures var db1 := CreateOrder(db, userId, orderId, data).db;
            var r := CancelOrder(db1, userId, orderId);
            r.result.Ok? && r.db.products == db.products
  {
    var db1 := CreateOrder(db, userId, orderId, data).db;
    assert db1.products == ShiftStock(db.products, data.items, false);
    assert db1.orders[orderId].items == data.items;
    ShiftStockRoundTrip(db.products, data.items);
  }

  /** A cancelled order cannot be cancelled again, so its stock is restored once. */
  lemma CancelIsNotRepeatable(db: Db, userId: string, orderId: string)
    requires CancelOrder(db, userId, orderId).result.Ok?
    ensures var db1 := CancelOrder(db, userId, orderId).db;
            CancelOrder(db1, userId, orderId) == Fail(db1, "ORDER_CANNOT_BE_CANCELLED")
  {
  }
}

=== FILE: payment_expiry.dfy ===
/** The retry window of a pending payment: the check made when a customer
    comes back to a pending payment, and the periodic sweep that cancels the
    orders whose payment was left pending too long. The retry period, in
    hours, is a parameter. */
module PaymentExpiry {
  import opened Wrappers
  import opened Entities
  import PaymentServices

  /** Milliseconds in an hour: `60 * 60 * 1000`. */
  const HourMs: int := 3_600_000

  function RetryWindow(periodHours: int): int {
    periodHours * HourMs
  }

  /** `Date.now() > createdAt + PAYMENT_RETRY_PERIOD` */
  predicate Expired(p: Payment, periodHours: int, now: int) {
    now > p.createdAt + RetryWindow(periodHours)
  }

  // ---------------------------------------------------------------------------
  // `GetPendingPaymentService.invoke`
  // ---------------------------------------------------------------------------

  /** `GetPendingPaymentService.invoke(orderId)` at time `now`: `Ok(None)` is
      `null`. An expired payment is failed and its order cancelled, and then
      PAYMENT_EXPIRED is thrown with both writes kept. */
  function GetPendingPayment(db: Db, orderId: string, periodHours: int, now: int)
    : (r: Effect<Option<Payment>>)
    ensures PaymentServices.PendingOf(db, orderId).None? ==> r == Effect(db, Ok(None))
    ensures PaymentServices.PendingOf(db, orderId).Some? ==>
              var i := PaymentServices.PendingOf(db, orderId).value;
              var p := db.payments[i];
              && p.status == Some(PENDING)
              && (!Expired(p, periodHours, now) ==> r == Effect(db, Ok(Some(p))))
              && (Expired(p, periodHours, now) ==>
                    && r.result == Err(Thrown("PAYMENT_EXPIRED"))
                    && r.db.payments == db.payments[i := p.(status := Some(FAILED))]
                    && (orderId in db.orders ==>
                          r.db.orders == db.orders[orderId := db.orders[orderId].(status := CANCELED)])
                    && (orderId !in db.orders ==> r.db.orders == db.orders)
                    && r.db == db.(payments := r.db.payments, orders := r.db.orders))
  {
    match PaymentServices.PendingOf(db, orderId)
    case None => Effect(db, Ok(None))
    case Some(i) =>
      var p := db.payments[i];
      var expiryTime := p.createdAt + RetryWindow(periodHours);
      if now > expiryTime then
        var db1 := UpdateOrder(db, orderId, (o: Order) => o.(status := CANCELED));
        Effect(SetPayment(db1, i, p.(status := Some(FAILED))), Err(Thrown("PAYMENT_EXPIRED")))
      else Effect(db, Ok(Some(p)))
  }

  /** Asking again after an expiry finds nothing pending for the order when it
      had only the one pending payment. */
  lemma ExpiryIsFinal(db: Db, orderId: string, periodHours: int, now: int)
    requires PaymentServices.OnePendingPerOrder(db.payments)
    requires GetPendingPayment(db, orderId, periodHours, now).result.Err?
    ensures var db1 := GetPendingPayment(db, orderId, periodHours, now).db;
            GetPendingPayment(db1, orderId, periodHours, now) == Effect(db1, Ok(None))
  {
    var i := PaymentServices.PendingOf(db, orderId).value;
    var db1 := GetPendingPayment(db, orderId, periodHours, now).db;
    forall j | 0 <= j < |db1.payments|
      ensures !(db1.payments[j].orderId == orderId && db1.payments[j].status == Some(PENDING))
    {
      if j != i {
        assert db1.payments[j] == db.payments[j];
      }
    }
  }

  // ---------------------------------------------------------------------------
  // `CancelExpiredPaymentsService.execute`
  // ---------------------------------------------------------------------------

  /** `Date.now() - PAYMENT_RETRY_PERIOD` */
  function Cutoff(periodHours: int, now: int): int {
    now - RetryWindow(periodHours)
  }

  /** `Payment.find({ createdAt: { $lt: cutoff }, status: "PENDING" })` */
  predicate Selected(p: Payment, cutoff: int) {
    p.status == Some(PENDING) && p.createdAt < cutoff
  }

  /** A selected payment whose order exists: it is failed and counted. */
  predicate Cancellable(p: Payment, cutoff: int, orders: map<string, Order>) {
    Selected(p, cutoff) && p.orderId in orders
  }

  /** The sweep selects exactly the pending payments the pending check
      would call expired at the same instant. */
  lemma SweepAgreesWithExpiry(p: Payment, periodHours: int, now: int)
    ensures Selected(p, Cutoff(periodHours, now)) <==> p.status == Some(PENDING) && Expired(p, periodHours, now)
  {
  }

  function CountSelected(ps: seq<Payment>, cutoff: int): nat {
    if ps == [] then 0
    else CountSelected(ps[..|ps| - 1], cutoff) + (if Selected(ps[|ps| - 1], cutoff) then 1 else 0)
  }

  function CountCancellable(ps: seq<Payment>, cutoff: int, orders: map<string, Order>): nat {
    if ps == [] then 0
    else CountCancellable(ps[..|ps| - 1], cutoff, orders) + (if Cancellable(ps[|ps| - 1], cutoff, orders) then 1 else 0)
  }

  /** Counting one more payment. */
  lemma CountStep(ps: seq<Payment>, k: nat, cutoff: int, orders: map<string, Order>)
    requires k < |ps|
    ensures CountCancellable(ps[..k + 1], cutoff, orders)
            == CountCancellable(ps[..k], cutoff, orders) + (if Cancellable(ps[k], cutoff, orders) then 1 else 0)
  {
    assert ps[..k + 1][..k] == ps[..k];
  }

  /** Fewer payments are cancelled than selected. */
  lemma {:induction false} CountBounded(ps: seq<Payment>, cutoff: int, orders: map<string, Order>)
    ensures CountCancellable(ps, cutoff, orders) <= CountSelected(ps, cutoff)
    decreases |ps|
  {
    if ps != [] {
      CountBounded(ps[..|ps| - 1], cutoff, orders);
    }
  }

  /** Some selected payment belongs to order `id`. */
  predicate Hit(ps: seq<Payment>, cutoff: int, id: string) {
    exists j :: 0 <= j < |ps| && Selected(ps[j], cutoff) && ps[j].orderId == id
  }

  /** What the sweep leaves in a payment's place. */
  function Swept(p: Payment, cutoff: int, orders: map<string, Order>): Payment {
    if Cancellable(p, cutoff, orders) then p.(status := Some(FAILED)) else p
  }

  /** What the sweep leaves in an order's place. */
  function Closed(o: Order, hit: bool): Order {
    if hit then o.(status := CANCELED) else o
  }

  /** One more payment looked at: the orders hit so far grow by its order
      exactly when it is selected. */
  lemma HitStep(ps: seq<Payment>, k: nat, cutoff: int, id: string)
    requires k < |ps|
    ensures Hit(ps[..k + 1], cutoff, id) <==>
              Hit(ps[..k], cutoff, id) || (Selected(ps[k], cutoff) && ps[k].orderId == id)
  {
    var before, now := ps[..k], ps[..k + 1];
    if Hit(now, cutoff, id) && !(Selected(ps[k], cutoff) && ps[k].orderId == id) {
      var j :| 0 <= j < k + 1 && Selected(now[j], cutoff) && now[j].orderId == id;
      assert before[j] == now[j];
    }
    if Hit(before, cutoff, id) {
      var j :| 0 <= j < k && Selected(before[j], cutoff) && before[j].orderId == id;
      assert now[j] == before[j];
    }
    if Selected(ps[k], cutoff) && ps[k].orderId == id {
      assert now[k] == ps[k];
    }
  }

  /** The orders after one selected payment is looked at. */
  function CloseOrder(os: map<string, Order>, p: Payment, cutoff: int): map<string, Order> {
    if Selected(p, cutoff) && p.orderId in os then os[p.orderId := os[p.orderId].(status := CANCELED)]
    else os
  }

  /** Closing the order of payment `k` keeps the orders closed exactly for
      the orders hit by the first `k + 1` payments. */
  lemma CloseOrderStep(orders: map<string, Order>, os: map<string, Order>, ps: seq<Payment>, k: nat, cutoff: int)
    requires k < |ps| && os.Keys == orders.Keys
    requires forall id :: id in orders ==> os[id] == Closed(orders[id], Hit(ps[..k], cutoff, id))
    ensures CloseOrder(os, ps[k], cutoff).Keys == orders.Keys
    ensures forall id :: id in orders ==>
              CloseOrder(os, ps[k], cutoff)[id] == Closed(orders[id], Hit(ps[..k + 1], cutoff, id))
  {
    forall id | id in orders
      ensures CloseOrder(os, ps[k], cutoff)[id] == Closed(orders[id], Hit(ps[..k + 1], cutoff, id))
    {
      HitStep(ps, k, cutoff, id);
    }
  }

  /** `CancelExpiredPaymentsService.execute()` at time `now`: every order with
      a payment selected is cancelled, whatever its status; each selected
      payment whose order exists is failed and counted. */
  method CancelExpiredPayments(db: Db, periodHours: int, now: int) returns (after: Db, count: nat)
    ensures var cutoff := Cutoff(periodHours, now);
            && |after.payments| == |db.payments|
            && (forall j :: 0 <= j < |db.payments| ==> after.payments[j] == Swept(db.payments[j], cutoff, db.orders))
            && after.orders.Keys == db.orders.Keys
            && (forall id :: id in db.orders ==> after.orders[id] == Closed(db.orders[id], Hit(db.payments, cutoff, id)))
            && count == CountCancellable(db.payments, cutoff, db.orders)
            && count <= CountSelected(db.payments, cutoff)
            && after == db.(payments := after.payments, orders := after.orders)
  {
    var cutoff := Cutoff(periodHours, now);
    var n := |db.payments|;
    var ps := db.payments;
    var os := db.orders;
    count := 0;
    var k := 0;
    while k < n
      invariant 0 <= k <= n && |ps| == n
      invariant forall j :: 0 <= j < k ==> ps[j] == Swept(db.payments[j], cutoff, db.orders)
      invariant forall j :: k <= j < n ==> ps[j] == db.payments[j]
      invariant os.Keys == db.orders.Keys
      invariant forall id :: id in db.orders ==> os[id] == Closed(db.orders[id], Hit(db.payments[..k], cutoff, id))
      invariant count == CountCancellable(db.payments[..k], cutoff, db.orders)
    {
      var p := db.payments[k];
      CountStep(db.payments, k, cutoff, db.orders);
      CloseOrderStep(db.orders, os, db.payments, k, cutoff);
      // the order is updated first; the payment is failed and counted only
      // when that update found the order
      var found := Selected(p, cutoff) && p.orderId in os;
      ps := ps[k := Swept(p, cutoff, db.orders)];
      count := count + if found then 1 else 0;
      os := CloseOrder(os, p, cutoff);
      k := k + 1;
    }
    assert db.payments[..n] == db.payments;
    CountBounded(db.payments, cutoff, db.orders);
    after := db.(payments := ps, orders := os);
  }
}

=== FILE: payment_service.dfy ===
/** Payment orchestration: starting a payment for an order (cash on delivery
    settles at once, online methods go through the registered gateway and
    reuse a pending payment), verifying a gateway's answer, and recording a
    verified status. */
module PaymentServices {
  import opened Wrappers
  import opened Entities
  import VnpayGateway

  /** The gateway registry: only VNPay is registered. */
  predicate Registered(m: Method) {
    m == VNPay
  }

  /** `Payment.findOne({ orderId, status: "PENDING" })` */
  function PendingOf(db: Db, orderId: string): Option<nat> {
    FirstIndex(db.payments, (p: Payment) => p.orderId == orderId && p.status == Some(PENDING))
  }

  /** No order has two PENDING payments. */
  predicate OnePendingPerOrder(ps: seq<Payment>) {
    forall i, j :: 0 <= i < j < |ps| && ps[i].status == Some(PENDING) && ps[j].status == Some(PENDING) ==>
      ps[i].orderId != ps[j].orderId
  }

  /** `{ isRetry, payment, paymentUrl? }` */
  datatype Outcome = Outcome(isRetry: bool, payment: Payment, paymentUrl: Option<string>)

  /** Everything `invoke` takes from outside the database: the id a new payment
      receives, the clock when it is saved (`createdAt`) and when `isRetry` is
      computed, the calendar time the gateway stamps, and the VNPay gateway. */
  datatype Env = Env(newId: string, savedAt: int, later: int, local: VnpayGateway.LocalTime,
                     gateway: VnpayGateway.Config, hmac: Hmac)

  /** `isRetry` as written: `!!pendingPayment && pendingPayment.createdAt < new Date()`,
      evaluated after `pendingPayment` has been replaced by any payment just created. */
  function RetryAsWritten(found: Option<nat>, p: Payment, env: Env): bool {
    p.createdAt < env.later
  }

  /** `isRetry` as intended: a pending payment already existed. */
  function RetryCorrected(found: Option<nat>, p: Payment, env: Env): bool {
    found.Some?
  }

  /** `CreatePaymentService.invoke(orderId, userId, metadata)`, with the rule
      deciding `isRetry` as a parameter. */
  function Create(db: Db, orderId: string, userId: string, ipAddr: Js, orderInfo: Js, env: Env,
                  retry: (Option<nat>, Payment, Env) -> bool): (r: Effect<Outcome>)
    ensures orderId !in db.orders ==> r == Fail(db, "PAYMENT_ORDER_NOT_FOUND")
    ensures orderId in db.orders && db.orders[orderId].userId != userId ==>
              r == Fail(db, "PAYMENT_UNAUTHORIZED")
    ensures orderId in db.orders && db.orders[orderId].userId == userId &&
            db.orders[orderId].status != CREATED ==>
              r == Fail(db, "PAYMENT_INVALID_ORDER_STATUS")
    ensures orderId in db.orders && db.orders[orderId].userId == userId &&
            db.orders[orderId].status == CREATED && db.orders[orderId].paymentMethod != COD &&
            !Registered(db.orders[orderId].paymentMethod) ==>
              r == Fail(db, "PAYMENT_GATEWAY_NOT_SUPPORTED")
    ensures r.result.Err? ==> r.db == db
    ensures r.result.Ok? ==>
              var o := db.orders[orderId];
              var found := PendingOf(db, orderId);
              var made := NewPayment(env.newId, orderId, Some(userId), Some(o.paymentMethod), None,
                                      if o.paymentMethod == COD then SUCCESS else PENDING,
                                      if o.paymentMethod == COD then "COD" else "",
                                      o.totalAmount, env.savedAt);
              && o.userId == userId && o.status == CREATED
              && (o.paymentMethod == COD || Registered(o.paymentMethod))
              && (found.Some? ==> r.db.payments == db.payments && r.result.value.payment == db.payments[found.value])
              && (found.None? ==> r.db.payments == db.payments + [made] && r.result.value.payment == made)
              && (o.paymentMethod == COD ==>
                    && r.db.orders == db.orders[orderId := o.(status := PAID)]
                    && !r.result.value.isRetry && r.result.value.paymentUrl.None?)
              && (o.paymentMethod != COD ==>
                    && r.db.orders == db.orders
                    && r.result.value.paymentUrl ==
                         Some(VnpayGateway.CreatePayment(env.gateway, env.hmac, orderId, o.totalAmount,
                                                         ipAddr, orderInfo, env.local))
                    && r.result.value.isRetry == retry(found, r.result.value.payment, env))
              && r.db == db.(payments := r.db.payments, orders := r.db.orders)
  {
    if orderId !in db.orders then Fail(db, "PAYMENT_ORDER_NOT_FOUND")
    else
      var o := db.orders[orderId];
      if o.userId != userId then Fail(db, "PAYMENT_UNAUTHORIZED")
      else if o.status != CREATED then Fail(db, "PAYMENT_INVALID_ORDER_STATUS")
      else
        var found := PendingOf(db, orderId);
        if o.paymentMethod == COD then
          var (db1, payment) :=
            if found.Some? then (db, db.payments[found.value])
            else
              var p := NewPayment(env.newId, orderId, Some(userId), Some(COD), None, SUCCESS, "COD",
                                  o.totalAmount, env.savedAt);
              (db.(payments := db.payments + [p]), p);
          Effect(db1.(orders := db1.orders[orderId := o.(status := PAID)]),
                 Ok(Outcome(false, payment, None)))
        else if !Registered(o.paymentMethod) then Fail(db, "PAYMENT_GATEWAY_NOT_SUPPORTED")
        else
          var (db1, payment) :=
            if found.Some? then (db, db.payments[found.value])
            else
              var p := NewPayment(env.newId, orderId, Some(userId), Some(o.paymentMethod), None, PENDING, "",
                                  o.totalAmount, env.savedAt);
              (db.(payments := db.payments + [p]), p);
          var url := VnpayGateway.CreatePayment(env.gateway, env.hmac, orderId, o.totalAmount, ipAddr,
                                                orderInfo, env.local);
          Effect(db1, Ok(Outcome(retry(found, payment, env), payment, Some(url))))
  }

  /** `CreatePaymentService.invoke` as written. */
  function CreatePayment(db: Db, orderId: string, userId: string, ipAddr: Js, orderInfo: Js, env: Env)
    : (r: Effect<Outcome>)
    ensures r.result.Ok? && r.result.value.paymentUrl.Some? ==>
              r.result.value.isRetry == (r.result.value.payment.createdAt < env.later)
  {
    Create(db, orderId, userId, ipAddr, orderInfo, env, RetryAsWritten)
  }

  /** `CreatePaymentService.invoke` reporting a retry exactly when a pending
      payment already existed. */
  function CreatePaymentCorrected(db: Db, orderId: string, userId: string, ipAddr: Js, orderInfo: Js, env: Env)
    : (r: Effect<Outcome>)
    ensures r.result.Ok? ==> (r.result.value.isRetry <==> r.result.value.paymentUrl.Some? && PendingOf(db, orderId).Some?)
  {
    Create(db, orderId, userId, ipAddr, orderInfo, env, RetryCorrected)
  }

  /** As written, the first online payment of an order is reported as a retry
      as soon as the clock has moved past the instant it was saved. */
  lemma FirstPaymentReportedAsRetry(db: Db, orderId: string, userId: string, ipAddr: Js, orderInfo: Js, env: Env)
    requires orderId in db.orders
    requires db.orders[orderId].userId == userId && db.orders[orderId].status == CREATED
    requires db.orders[orderId].paymentMethod == VNPay
    requires PendingOf(db, orderId).None?
    requires env.savedAt < env.later
    ensures var r := CreatePayment(db, orderId, userId, ipAddr, orderInfo, env);
            && r.result.Ok? && r.result.value.isRetry
            && r.db.payments == db.payments + [r.result.value.payment]
    ensures var r := CreatePaymentCorrected(db, orderId, userId, ipAddr, orderInfo, env);
            r.result.Ok? && !r.result.value.isRetry
  {
  }

  /** Starting a payment never gives an order a second PENDING payment. */
  lemma CreateKeepsOnePending(db: Db, orderId: string, userId: string, ipAddr: Js, orderInfo: Js, env: Env,
                              retry: (Option<nat>, Payment, Env) -> bool)
    requires OnePendingPerOrder(db.payments)
    ensures OnePendingPerOrder(Create(db, orderId, userId, ipAddr, orderInfo, env, retry).db.payments)
  {
    var r := Create(db, orderId, userId, ipAddr, orderInfo, env, retry);
    if r.result.Ok? && PendingOf(db, orderId).None? {
      var made := r.db.payments[|db.payments|];
      assert r.db.payments == db.payments + [made];
      AppendKeepsOnePending(db.payments, made);
    }
  }

  /** A payment appended for an order with no PENDING payment keeps at most
      one PENDING payment per order. */
  lemma AppendKeepsOnePending(ps: seq<Payment>, made: Payment)
    requires OnePendingPerOrder(ps)
    requires forall j :: 0 <= j < |ps| ==> !(ps[j].orderId == made.orderId && ps[j].status == Some(PENDING))
    ensures OnePendingPerOrder(ps + [made])
  {
    var qs := ps + [made];
    forall i, j | 0 <= i < j < |qs| && qs[i].status == Some(PENDING) && qs[j].status == Some(PENDING)
      ensures qs[i].orderId != qs[j].orderId
    {
      assert qs[i] == ps[i];
      if j < |ps| {
        assert qs[j] == ps[j];
      }
    }
  }

  /** Cash on delivery always leaves the order PAID, whether or not a payment
      was pending; a second call finds the order no longer CREATED. */
  lemma CodSettlesOnce(db: Db, orderId: string, userId: string, ipAddr: Js, orderInfo: Js, env: Env)
    requires CreatePayment(db, orderId, userId, ipAddr, orderInfo, env).result.Ok?
    requires db.orders[orderId].paymentMethod == COD
    ensures var db1 := CreatePayment(db, orderId, userId, ipAddr, orderInfo, env).db;
            && db1.orders[orderId].status == PAID
            && CreatePayment(db1, orderId, userId, ipAddr, orderInfo, env) == Fail(db1, "PAYMENT_INVALID_ORDER_STATUS")
  {
  }

  // ---------------------------------------------------------------------------
  // `VerifyPaymentService.invoke`
  // ---------------------------------------------------------------------------

  /** `VerifyPaymentService.invoke(provider, params)`: delegation to the
      registered gateway. It takes no database and so writes nothing. */
  function VerifyPayment(provider: Method, gateway: VnpayGateway.Config, hmac: Hmac, params: Params)
    : (r: Result<PaymentResult, Error>)
    ensures !Registered(provider) ==> r == Err(Thrown("PAYMENT_GATEWAY_NOT_SUPPORTED"))
    ensures Registered(provider) ==> r == Ok(VnpayGateway.VerifyPayment(gateway, hmac, params))
  {
    if provider != VNPay then Err(Thrown("PAYMENT_GATEWAY_NOT_SUPPORTED"))
    else Ok(VnpayGateway.VerifyPayment(gateway, hmac, params))
  }

  /** Cash on delivery has no gateway to verify against. */
  lemma CodIsNotVerifiable(gateway: VnpayGateway.Config, hmac: Hmac, params: Params)
    ensures VerifyPayment(COD, gateway, hmac, params).Err?
    ensures VerifyPayment(MOMO, gateway, hmac, params).Err?
  {
  }

  // ---------------------------------------------------------------------------
  // `UpdatePaymentStatusService.invoke`
  // ---------------------------------------------------------------------------

  /** `Payment.findOne({ orderId })`: the first payment of the order, whatever its status. */
  function PaymentOf(db: Db, orderId: string): Option<nat> {
    FirstIndex(db.payments, (p: Payment) => p.orderId == orderId)
  }

  /** `UpdatePaymentStatusService.invoke(orderId, status, transactionId)` */
  function UpdatePaymentStatus(db: Db, orderId: string, status: Status, transactionId: string)
    : (r: Effect<()>)
    ensures PaymentOf(db, orderId).None? ==> r == Fail(db, "PAYMENT_NOT_FOUND")
    ensures PaymentOf(db, orderId).Some? ==>
              var i := PaymentOf(db, orderId).value;
              && r.result.Ok?
              && |r.db.payments| == |db.payments|
              && r.db.payments[i] == db.payments[i].(status := Some(status), transactionId := transactionId)
              && (forall j :: 0 <= j < |db.payments| && j != i ==> r.db.payments[j] == db.payments[j])
              && (status == SUCCESS && orderId in db.orders ==>
                    r.db.orders == db.orders[orderId := db.orders[orderId].(status := PAID)])
              && (status != SUCCESS || orderId !in db.orders ==> r.db.orders == db.orders)
              && r.db == db.(payments := r.db.payments, orders := r.db.orders)
  {
    match PaymentOf(db, orderId)
    case None => Fail(db, "PAYMENT_NOT_FOUND")
    case Some(i) =>
      var db1 := SetPayment(db, i, db.payments[i].(status := Some(status), transactionId := transactionId));
      var db2 := if status == SUCCESS then UpdateOrder(db1, orderId, (o: Order) => o.(status := PAID)) else db1;
      Effect(db2, Ok(()))
  }

  /** There is no transition check: any stored status, REFUNDED included, is
      overwritten, and recording the same status twice is the same as once. */
  lemma UpdatePaymentStatusOverwrites(db: Db, orderId: string, status: Status, transactionId: string)
    requires PaymentOf(db, orderId).Some?
    ensures var db1 := UpdatePaymentStatus(db, orderId, status, transactionId).db;
            && db1.payments[PaymentOf(db, orderId).value].status == Some(status)
            && UpdatePaymentStatus(db1, orderId, status, transactionId).db == db1
  {
    var i := PaymentOf(db, orderId).value;
    var p1 := db.payments[i].(status := Some(status), transactionId := transactionId);
    var db1 := UpdatePaymentStatus(db, orderId, status, transactionId).db;
    assert db1.payments == db.payments[i := p1];
    FirstIndexUpdate(db.payments, (p: Payment) => p.orderId == orderId, i, p1);
    var db2 := UpdatePaymentStatus(db1, orderId, status, transactionId).db;
    assert db2.payments == db1.payments;
  }
}

=== FILE: promotions.dfy ===
/** Promotion codes: creating one, changing one, and checking one against an
    order. The discount bounds come from the promotion settings, which are
    parameters here; amounts are exact rationals. */
module Promotions {
  import opened Wrappers
  import opened Entities
  import Text

  /** `promotionConfig.discount`: the least discount value and the value that
      stands for a whole order in a percentage discount. */
  datatype Config = Config(minValue: real, maxPercent: real)

  /** The validated payload of a new promotion. */
  datatype Draft = Draft(code: string, description: string, discountType: DiscountType,
                         discountValue: real, minOrderValue: real, startDate: int, endDate: int,
                         active: bool)

  /** The validated payload of a change: only the fields present are written. */
  datatype Patch = Patch(code: Option<string>, description: Option<string>,
                         discountType: Option<DiscountType>, discountValue: Option<real>,
                         minOrderValue: Option<real>, startDate: Option<int>, endDate: Option<int>,
                         active: Option<bool>)

  /** What a successful check reports. */
  datatype Validation = Validation(discountAmount: real, discountType: DiscountType,
                                   discountValue: real, finalAmount: real, promotionId: string,
                                   code: string, description: string, valid: bool)

  /** The bound both `create` and `update` put on a percentage. */
  predicate PercentInRange(cfg: Config, t: DiscountType, v: real) {
    t == Percent ==> cfg.minValue <= v <= cfg.maxPercent
  }

  /** The facts the three services keep about the stored promotions: codes are
      unique and non-empty, every window ends after it starts, and every
      percentage lies in the configured range. */
  predicate WellFormed(cfg: Config, ps: seq<Promotion>) {
    && (forall i, j :: 0 <= i < j < |ps| ==> ps[i].code != ps[j].code)
    && (forall i :: 0 <= i < |ps| ==> ps[i].code != "" && ps[i].startDate < ps[i].endDate
                                      && PercentInRange(cfg, ps[i].discountType, ps[i].discountValue))
  }

  function WithCode(code: string): Promotion -> bool {
    (p: Promotion) => p.code == code
  }

  function ActiveWithCode(code: string): Promotion -> bool {
    (p: Promotion) => p.active && p.code == code
  }

  function WithId(id: string): Promotion -> bool {
    (p: Promotion) => p.id == id
  }

  // ---------------------------------------------------------------------------
  // `ValidatePromotionService.validatePromotion`
  // ---------------------------------------------------------------------------

  /** The discount of promotion `p` on an order worth `orderValue`. */
  function Discount(cfg: Config, p: Promotion, orderValue: real): real
    requires cfg.maxPercent != 0.0
  {
    if p.discountType == Percent then orderValue * p.discountValue / cfg.maxPercent
    else p.discountValue
  }

  /** `validatePromotion({ code, orderValue })` at time `now`. */
  function ValidatePromotion(db: Db, cfg: Config, code: string, orderValue: real, now: int)
    : (r: Result<Validation, Error>)
    requires cfg.maxPercent != 0.0
    ensures FirstIndex(db.promotions, ActiveWithCode(Text.ToUpper(code))).None? ==>
              r == Err(Thrown("PROMOTION_NOT_FOUND"))
    ensures FirstIndex(db.promotions, ActiveWithCode(Text.ToUpper(code))).Some? ==>
              var p := db.promotions[FirstIndex(db.promotions, ActiveWithCode(Text.ToUpper(code))).value];
              && p.active && p.code == Text.ToUpper(code)
              && (now < p.startDate ==> r == Err(Thrown("PROMOTION_NOT_STARTED")))
              && (p.startDate <= now && p.endDate < now ==> r == Err(Thrown("PROMOTION_EXPIRED")))
              && (p.startDate <= now <= p.endDate && orderValue < p.minOrderValue ==>
                    r == Err(Thrown("ORDER_VALUE_TOO_LOW")))
              && (r.Ok? <==> p.startDate <= now <= p.endDate && p.minOrderValue <= orderValue)
              && (r.Ok? ==>
                    && r.value.valid
                    && r.value.finalAmount + r.value.discountAmount == orderValue
                    && r.value.discountAmount == Discount(cfg, p, orderValue)
                    && r.value.discountType == p.discountType && r.value.discountValue == p.discountValue
                    && r.value.promotionId == p.id && r.value.code == p.code)
  {
    match FirstIndex(db.promotions, ActiveWithCode(Text.ToUpper(code)))
    case None => Err(Thrown("PROMOTION_NOT_FOUND"))
    case Some(i) =>
      var p := db.promotions[i];
      if now < p.startDate then Err(Thrown("PROMOTION_NOT_STARTED"))
      else if now > p.endDate then Err(Thrown("PROMOTION_EXPIRED"))
      else if orderValue < p.minOrderValue then Err(Thrown("ORDER_VALUE_TOO_LOW"))
      else
        var discountAmount := Discount(cfg, p, orderValue);
        Ok(Validation(discountAmount, p.discountType, p.discountValue, orderValue - discountAmount,
                      p.id, p.code, p.description, true))
  }

  /** Under the stored bounds a percentage never takes more than the order is
      worth, and never less than nothing, when the bounds are not negative. */
  lemma PercentWithinOrder(db: Db, cfg: Config, code: string, orderValue: real, now: int)
    requires 0.0 <= cfg.minValue && 0.0 < cfg.maxPercent && 0.0 <= orderValue
    requires WellFormed(cfg, db.promotions)
    requires ValidatePromotion(db, cfg, code, orderValue, now).Ok?
    requires ValidatePromotion(db, cfg, code, orderValue, now).value.discountType == Percent
    ensures var v := ValidatePromotion(db, cfg, code, orderValue, now).value;
            0.0 <= v.discountAmount <= orderValue && 0.0 <= v.finalAmount <= orderValue
  {
    var v := ValidatePromotion(db, cfg, code, orderValue, now).value;
    var i := FirstIndex(db.promotions, ActiveWithCode(Text.ToUpper(code))).value;
    var p := db.promotions[i];
    assert p.discountType == Percent;
    assert cfg.minValue <= p.discountValue <= cfg.maxPercent;
    var d := orderValue * p.discountValue / cfg.maxPercent;
    PercentShare(orderValue, p.discountValue, cfg.maxPercent);
    assert 0.0 <= d <= orderValue;
    assert v.discountAmount == d;
    assert v.finalAmount == orderValue - d;
  }

  lemma PercentShare(x: real, v: real, m: real)
    requires 0.0 <= x && 0.0 <= v <= m && 0.0 < m
    ensures 0.0 <= x * v / m <= x
  {
    assert x * v <= x * m;
    assert x * v / m <= x * m / m;
  }

  /** A fixed discount has no upper bound: it can exceed the order, leaving a
      negative amount to pay. */
  lemma FixedDiscountCanExceedOrder()
    ensures var p := Promotion("p1", "SALE", "", Fixed, 50.0, 0.0, 0, 10, true);
            var db := Db(map[], [], map[], map[], map[], map[], [p], map[]);
            var r := ValidatePromotion(db, Config(1.0, 100.0), "sale", 20.0, 5);
            r.Ok? && r.value.finalAmount == -30.0
  {
    var p := Promotion("p1", "SALE", "", Fixed, 50.0, 0.0, 0, 10, true);
    var db := Db(map[], [], map[], map[], map[], map[], [p], map[]);
    assert Text.ToUpper("sale") == "SALE";
    assert ActiveWithCode("SALE")(db.promotions[0]);
  }

  /** A code with Vietnamese letters is found whatever case it is typed in: a
      check of "giảm10" finds the stored "GIẢM10". */
  lemma VietnameseCodeFound()
    ensures var p := Promotion("p1", "GI\U{1EA2}M10", "", Fixed, 10.0, 0.0, 0, 10, true);
            var db := Db(map[], [], map[], map[], map[], map[], [p], map[]);
            var r := ValidatePromotion(db, Config(1.0, 100.0), "gi\U{1EA3}m10", 20.0, 5);
            r.Ok? && r.value.promotionId == "p1" && r.value.finalAmount == 10.0
  {
    var p := Promotion("p1", "GI\U{1EA2}M10", "", Fixed, 10.0, 0.0, 0, 10, true);
    assert Text.ToUpper("gi\U{1EA3}m10") == "GI\U{1EA2}M10";
    assert ActiveWithCode("GI\U{1EA2}M10")(p);
  }

  // ---------------------------------------------------------------------------
  // `CreatePromotionService.createPromotion`
  // ---------------------------------------------------------------------------

  /** `new Promotion(data)`: the schema's `uppercase` setter stores the code
      upper-cased. */
  function FromDraft(id: string, d: Draft): Promotion {
    Promotion(id, Text.ToUpper(d.code), d.description, d.discountType, d.discountValue, d.minOrderValue,
              d.startDate, d.endDate, d.active)
  }

  /** `createPromotion(data)`, storing the new promotion under `newId`. */
  function CreatePromotion(db: Db, cfg: Config, d: Draft, newId: string): (r: Effect<Promotion>)
    ensures FirstIndex(db.promotions, WithCode(Text.ToUpper(d.code))).Some? ==>
              r == Fail(db, "PROMOTION_ALREADY_EXISTS")
    ensures FirstIndex(db.promotions, WithCode(Text.ToUpper(d.code))).None? && d.endDate <= d.startDate ==>
              r == Fail(db, "END_DATE_BEFORE_START_DATE")
    ensures FirstIndex(db.promotions, WithCode(Text.ToUpper(d.code))).None? && d.startDate < d.endDate
            && !PercentInRange(cfg, d.discountType, d.discountValue) ==>
              r == Fail(db, "INVALID_PERCENTAGE_VALUE")
    ensures r.result.Ok? <==>
              && (forall i :: 0 <= i < |db.promotions| ==> db.promotions[i].code != Text.ToUpper(d.code))
              && d.startDate < d.endDate && PercentInRange(cfg, d.discountType, d.discountValue)
    ensures r.result.Ok? ==>
              && r.result.value == FromDraft(newId, d)
              && r.db == db.(promotions := db.promotions + [FromDraft(newId, d)])
  {
    if FirstIndex(db.promotions, WithCode(Text.ToUpper(d.code))).Some? then Fail(db, "PROMOTION_ALREADY_EXISTS")
    else if d.endDate <= d.startDate then Fail(db, "END_DATE_BEFORE_START_DATE")
    else if d.discountType == Percent && (d.discountValue < cfg.minValue || d.discountValue > cfg.maxPercent) then
      Fail(db, "INVALID_PERCENTAGE_VALUE")
    else
      var p := FromDraft(newId, d);
      Effect(db.(promotions := db.promotions + [p]), Ok(p))
  }

  /** Creating a promotion keeps the stored promotions well formed: the
      duplicate check looks for the very code the setter stores. */
  lemma CreateKeepsWellFormed(db: Db, cfg: Config, d: Draft, newId: string)
    requires WellFormed(cfg, db.promotions)
    requires d.code != ""
    ensures WellFormed(cfg, CreatePromotion(db, cfg, d, newId).db.promotions)
  {
    var r := CreatePromotion(db, cfg, d, newId);
    if r.result.Ok? {
      var ps := r.db.promotions;
      assert ps == db.promotions + [FromDraft(newId, d)];
      assert forall i :: 0 <= i < |db.promotions| ==> ps[i] == db.promotions[i];
    }
  }

  /** An active promotion just created is the one a check of its code finds,
      in whatever case the code is typed, and it accepts exactly the orders its
      window and minimum allow. */
  lemma CreatedPromotionValidates(db: Db, cfg: Config, d: Draft, newId: string, orderValue: real, now: int)
    requires cfg.maxPercent != 0.0
    requires d.active
    requires CreatePromotion(db, cfg, d, newId).result.Ok?
    ensures var db1 := CreatePromotion(db, cfg, d, newId).db;
            var r := ValidatePromotion(db1, cfg, d.code, orderValue, now);
            && (r.Ok? <==> d.startDate <= now <= d.endDate && d.minOrderValue <= orderValue)
            && (r.Ok? ==> r.value.promotionId == newId && r.value.discountType == d.discountType)
  {
    var db1 := CreatePromotion(db, cfg, d, newId).db;
    var ps := db1.promotions;
    assert ps == db.promotions + [FromDraft(newId, d)];
    var code := Text.ToUpper(d.code);
    forall j | 0 <= j < |db.promotions| ensures !ActiveWithCode(code)(ps[j]) {
      assert ps[j] == db.promotions[j];
    }
    assert ActiveWithCode(code)(ps[|db.promotions|]);
    assert FirstIndex(ps, ActiveWithCode(code)) == Some(|db.promotions|);
  }

  // ---------------------------------------------------------------------------
  // `UpdatePromotionService.updatePromotion`
  // ---------------------------------------------------------------------------

  /** `findByIdAndUpdate(id, data)`: every field present in the patch replaces
      the stored one. */
  function Merge(p: Promotion, patch: Patch): Promotion {
    p.(code := patch.code.GetOr(p.code),
       description := patch.description.GetOr(p.description),
       discountType := patch.discountType.GetOr(p.discountType),
       discountValue := patch.discountValue.GetOr(p.discountValue),
       minOrderValue := patch.minOrderValue.GetOr(p.minOrderValue),
       startDate := patch.startDate.GetOr(p.startDate),
       endDate := patch.endDate.GetOr(p.endDate),
       active := patch.active.GetOr(p.active))
  }

  /** `data.code && data.code !== existing.code`, and another promotion holds it. */
  predicate CodeTaken(ps: seq<Promotion>, existing: Promotion, patch: Patch) {
    patch.code.Some? && patch.code.value != "" && patch.code.value != existing.code
    && FirstIndex(ps, WithCode(patch.code.value)).Some?
  }

  /** `updatePromotion(id, data)`: the updated promotion. */
  function UpdatePromotion(db: Db, cfg: Config, id: string, patch: Patch): (r: Effect<Promotion>)
    ensures !IsValidObjectId(id) ==> r == Fail(db, "INVALID_PROMOTION_ID")
    ensures IsValidObjectId(id) && FirstIndex(db.promotions, WithId(id)).None? ==>
              r == Fail(db, "PROMOTION_NOT_FOUND")
    ensures r.result.Err? ==> r.db == db
    ensures IsValidObjectId(id) && FirstIndex(db.promotions, WithId(id)).Some? ==>
              var i := FirstIndex(db.promotions, WithId(id)).value;
              var existing := db.promotions[i];
              var merged := Merge(existing, patch);
              && (CodeTaken(db.promotions, existing, patch) ==> r == Fail(db, "PROMOTION_ALREADY_EXISTS"))
              && (!CodeTaken(db.promotions, existing, patch) && merged.endDate <= merged.startDate ==>
                    r == Fail(db, "END_DATE_BEFORE_START_DATE"))
              && (!CodeTaken(db.promotions, existing, patch) && merged.startDate < merged.endDate
                  && !PercentInRange(cfg, merged.discountType, merged.discountValue) ==>
                    r == Fail(db, "INVALID_PERCENTAGE_VALUE"))
              && (r.result.Ok? <==>
                    !CodeTaken(db.promotions, existing, patch) && merged.startDate < merged.endDate
                    && PercentInRange(cfg, merged.discountType, merged.discountValue))
              && (r.result.Ok? ==>
                    r == Effect(db.(promotions := db.promotions[i := merged]), Ok(merged)))
  {
    if !IsValidObjectId(id) then Fail(db, "INVALID_PROMOTION_ID")
    else match FirstIndex(db.promotions, WithId(id))
      case None => Fail(db, "PROMOTION_NOT_FOUND")
      case Some(i) =>
        var existing := db.promotions[i];
        if CodeTaken(db.promotions, existing, patch) then Fail(db, "PROMOTION_ALREADY_EXISTS")
        else
          var startDate := patch.startDate.GetOr(existing.startDate);
          var endDate := patch.endDate.GetOr(existing.endDate);
          if endDate <= startDate then Fail(db, "END_DATE_BEFORE_START_DATE")
          else
            var discountType := patch.discountType.GetOr(existing.discountType);
            var discountValue := patch.discountValue.GetOr(existing.discountValue);
            if discountType == Percent && (discountValue < cfg.minValue || discountValue > cfg.maxPercent) then
              Fail(db, "INVALID_PERCENTAGE_VALUE")
            else
              var merged := Merge(existing, patch);
              Effect(db.(promotions := db.promotions[i := merged]), Ok(merged))
  }

  /** A change from a validated payload, whose code, when present, is
      upper-cased and not empty, keeps the stored promotions well formed: the
      checks are made on exactly the values the merge writes. */
  lemma UpdateKeepsWellFormed(db: Db, cfg: Config, id: string, patch: Patch)
    requires WellFormed(cfg, db.promotions)
    requires patch.code.Some? ==> patch.code.value != ""
    ensures WellFormed(cfg, UpdatePromotion(db, cfg, id, patch).db.promotions)
  {
    var r := UpdatePromotion(db, cfg, id, patch);
    if r.result.Ok? {
      var i := FirstIndex(db.promotions, WithId(id)).value;
      var existing := db.promotions[i];
      var merged := Merge(existing, patch);
      var ps := r.db.promotions;
      assert ps == db.promotions[i := merged];
      forall j, k | 0 <= j < k < |ps| ensures ps[j].code != ps[k].code {
        if j == i || k == i {
          var other := if j == i then k else j;
          if patch.code.Some? && patch.code.value != existing.code {
            assert !WithCode(patch.code.value)(db.promotions[other]);
          }
        }
      }
    }
  }

  /** Changing nothing but the fields the checks do not read always succeeds
      on a well-formed promotion. */
  lemma HarmlessUpdateSucceeds(db: Db, cfg: Config, id: string, description: string, active: bool)
    requires WellFormed(cfg, db.promotions)
    requires IsValidObjectId(id) && FirstIndex(db.promotions, WithId(id)).Some?
    ensures UpdatePromotion(db, cfg, id, Patch(None, Some(description), None, None, None, None, None, Some(active)))
              .result.Ok?
  {
  }
}

=== FILE: query.dfy ===
/** String-valued objects in insertion order, and the two ways the payment
    code turns them into `key=value&...` strings: `qs.stringify(obj, { encode:
    false })` and the VNPay gateway's `sortObject`. */
module Query {
  import opened Wrappers
  import opened Entities
  import Text
  import Uri

  /** A plain object whose values are all strings, in insertion order. */
  type Entries = seq<(string, string)>

  function Keys<V>(o: seq<(string, V)>): (ks: seq<string>)
    ensures |ks| == |o|
    ensures forall i :: 0 <= i < |o| ==> ks[i] == o[i].0
  {
    seq(|o|, i requires 0 <= i < |o| => o[i].0)
  }

  predicate HasKey<V>(o: seq<(string, V)>, k: string) {
    exists i :: 0 <= i < |o| && o[i].0 == k
  }

  /** `o[k] = v`: an existing key keeps its place, a new key goes last. */
  function Put(o: Entries, k: string, v: string): (r: Entries)
    ensures !HasKey(o, k) ==> r == o + [(k, v)]
    decreases |o|
  {
    if o == [] then [(k, v)]
    else if o[0].0 == k then [(k, v)] + o[1..]
    else
      assert !HasKey(o, k) ==> !HasKey(o[1..], k) by {
        if HasKey(o[1..], k) {
          var j :| 0 <= j < |o| - 1 && o[1..][j].0 == k;
          assert o[j + 1].0 == k;
        }
      }
      [o[0]] + Put(o[1..], k, v)
  }

  /** Assigning to a key already present overwrites its first occurrence in place. */
  lemma {:induction false} PutOverwrites(o: Entries, k: string, v: string, i: nat)
    requires i < |o| && o[i].0 == k
    requires forall j :: 0 <= j < i ==> o[j].0 != k
    ensures Put(o, k, v) == o[i := (k, v)]
    decreases i
  {
    if i > 0 {
      PutOverwrites(o[1..], k, v, i - 1);
      assert o[i := (k, v)] == [o[0]] + o[1..][i - 1 := (k, v)];
    }
  }

  /** `String(v)` for each name's value in `params`, in the order of `names`. */
  function Texts(params: Params, names: seq<string>): (r: seq<string>)
    ensures |r| == |names|
    ensures forall i :: 0 <= i < |names| ==> r[i] == JsText(Get(params, names[i]))
  {
    seq(|names|, i requires 0 <= i < |names| => JsText(Get(params, names[i])))
  }

  /** The `key=value` pieces of an object, in its order. */
  function Pairs(o: Entries): (ps: seq<string>)
    ensures |ps| == |o|
    ensures forall i :: 0 <= i < |o| ==> ps[i] == o[i].0 + "=" + o[i].1
  {
    seq(|o|, i requires 0 <= i < |o| => o[i].0 + "=" + o[i].1)
  }

  /** `qs.stringify(o, { encode: false })` on an object whose values are strings. */
  function Stringify(o: Entries): string {
    Text.Join(Pairs(o), "&")
  }

  /** Appending one entry appends `&key=value` to a non-empty query string. */
  lemma StringifyAppend(o: Entries, k: string, v: string)
    requires o != []
    ensures Stringify(o + [(k, v)]) == Stringify(o) + "&" + k + "=" + v
  {
    JoinAppend(Pairs(o), k + "=" + v, "&");
    assert Pairs(o + [(k, v)]) == Pairs(o) + [k + "=" + v];
  }

  lemma {:induction false} JoinAppend(parts: seq<string>, last: string, sep: string)
    requires parts != []
    ensures Text.Join(parts + [last], sep) == Text.Join(parts, sep) + sep + last
    decreases |parts|
  {
    if |parts| == 1 {
      assert (parts + [last])[1..] == [last];
    } else {
      JoinAppend(parts[1..], last, sep);
      assert (parts + [last])[1..] == parts[1..] + [last];
    }
  }

  // ---------------------------------------------------------------------------
  // `sortObject`
  // ---------------------------------------------------------------------------

  /** `encodeURIComponent(v).replace(/%20/g, "+")` */
  function EncodeValue(v: Js): string {
    Text.ReplacePct20(Uri.Encode(JsText(v)))
  }

  /** The value `sortObject` stores under key `k`; a missing key reads as `undefined`. */
  function SortedValue(obj: Params, k: string): string {
    EncodeValue(Get(obj, k))
  }

  function EncodedKeys(obj: Params): (ks: seq<string>)
    ensures |ks| == |obj|
    ensures forall i :: 0 <= i < |obj| ==> ks[i] == Uri.Encode(obj[i].0)
  {
    seq(|obj|, i requires 0 <= i < |obj| => Uri.Encode(obj[i].0))
  }

  /** The second loop of `sortObject`: `sorted[ks[i]] = vs[i]` for each key in turn. */
  function Fill(acc: Entries, ks: seq<string>, vs: seq<string>): Entries
    requires |ks| == |vs|
    decreases |ks|
  {
    if ks == [] then acc else Fill(Put(acc, ks[0], vs[0]), ks[1..], vs[1..])
  }

  function Values(ks: seq<string>, obj: Params): (vs: seq<string>)
    ensures |vs| == |ks|
    ensures forall i :: 0 <= i < |ks| ==> vs[i] == SortedValue(obj, ks[i])
  {
    seq(|ks|, i requires 0 <= i < |ks| => SortedValue(obj, ks[i]))
  }

  /** Every value encoded as `sortObject` encodes it. */
  function EncodeAll(vs: seq<Js>): (r: seq<string>)
    ensures |r| == |vs| && forall i :: 0 <= i < |vs| ==> r[i] == EncodeValue(vs[i])
  {
    seq(|vs|, i requires 0 <= i < |vs| => EncodeValue(vs[i]))
  }

  lemma EncodeAllAppend(a: seq<Js>, b: seq<Js>)
    ensures EncodeAll(a + b) == EncodeAll(a) + EncodeAll(b)
  {
  }

  lemma EncodeFour(a: Js, b: Js, c: Js, d: Js)
    ensures EncodeAll([a, b, c, d]) == [EncodeValue(a), EncodeValue(b), EncodeValue(c), EncodeValue(d)]
  {
    var r := EncodeAll([a, b, c, d]);
    assert r[0] == EncodeValue(a) && r[1] == EncodeValue(b) && r[2] == EncodeValue(c) && r[3] == EncodeValue(d);
  }

  /** `sortObject(obj)`: the encoded own keys, sorted, each paired with the
      encoded value read under that key. */
  function SortObject(obj: Params): Entries {
    var ks := Text.SortStrings(EncodedKeys(obj));
    Fill([], ks, Values(ks, obj))
  }

  function Zip<V>(ks: seq<string>, vs: seq<V>): (r: seq<(string, V)>)
    requires |ks| == |vs|
    ensures |r| == |ks| && Keys(r) == ks
    ensures forall i :: 0 <= i < |ks| ==> r[i] == (ks[i], vs[i])
  {
    seq(|ks|, i requires 0 <= i < |ks| => (ks[i], vs[i]))
  }

  lemma HasKeyAppend(acc: Entries, e: (string, string), k: string)
    ensures HasKey(acc + [e], k) <==> HasKey(acc, k) || e.0 == k
  {
    if HasKey(acc + [e], k) {
      var j :| 0 <= j < |acc| + 1 && (acc + [e])[j].0 == k;
      if j < |acc| { assert acc[j].0 == k; }
    }
    if HasKey(acc, k) {
      var j :| 0 <= j < |acc| && acc[j].0 == k;
      assert (acc + [e])[j].0 == k;
    }
    if e.0 == k {
      assert (acc + [e])[|acc|].0 == k;
    }
  }

  lemma ZipCons(acc: Entries, ks: seq<string>, vs: seq<string>)
    requires |ks| == |vs| && ks != []
    ensures acc + [(ks[0], vs[0])] + Zip(ks[1..], vs[1..]) == acc + Zip(ks, vs)
  {
    var z := Zip(ks[1..], vs[1..]);
    assert Zip(ks, vs) == [(ks[0], vs[0])] + z;
  }

  /** With distinct keys, filling appends one entry per key. */
  lemma {:induction false} FillDistinct(acc: Entries, ks: seq<string>, vs: seq<string>)
    requires |ks| == |vs|
    requires forall i, j :: 0 <= i < j < |ks| ==> ks[i] != ks[j]
    requires forall i :: 0 <= i < |ks| ==> !HasKey(acc, ks[i])
    ensures Fill(acc, ks, vs) == acc + Zip(ks, vs)
    decreases |ks|
  {
    if ks != [] {
      var entry := (ks[0], vs[0]);
      var acc' := Put(acc, ks[0], vs[0]);
      assert acc' == acc + [entry];
      forall i | 0 <= i < |ks| - 1 ensures !HasKey(acc', ks[1..][i]) {
        assert ks[1..][i] == ks[i + 1];
        HasKeyAppend(acc, entry, ks[i + 1]);
      }
      FillDistinct(acc', ks[1..], vs[1..]);
      assert Fill(acc, ks, vs) == acc' + Zip(ks[1..], vs[1..]);
      ZipCons(acc, ks, vs);
    }
  }

  /** `sortObject` on an object whose keys need no encoding: its keys in
      ascending order, each with its encoded value; the result is sorted and
      holds exactly the object's keys. */
  lemma SortObjectPlain(obj: Params)
    requires DistinctKeys(obj)
    requires forall i :: 0 <= i < |obj| ==> Uri.AllUnreserved(obj[i].0)
    ensures var ks := Text.SortStrings(Keys(obj));
            SortObject(obj) == Zip(ks, Values(ks, obj))
    ensures Text.Sorted(Keys(SortObject(obj)))
    ensures multiset(Keys(SortObject(obj))) == multiset(Keys(obj))
  {
    assert EncodedKeys(obj) == Keys(obj) by {
      forall i | 0 <= i < |obj| ensures EncodedKeys(obj)[i] == Keys(obj)[i] {
        Uri.EncodeIdentity(obj[i].0);
      }
    }
    var sorted := Text.SortStrings(Keys(obj));
    assert forall i, j :: 0 <= i < j < |sorted| ==> sorted[i] != sorted[j] by {
      forall i, j | 0 <= i < j < |sorted| ensures sorted[i] != sorted[j] {
        if sorted[i] == sorted[j] {
          DuplicateInMultiset(sorted, i, j);
          DistinctKeysMultiset(obj, sorted[i]);
        }
      }
    }
    FillDistinct([], sorted, Values(sorted, obj));
  }

  lemma DuplicateInMultiset(s: seq<string>, i: nat, j: nat)
    requires i < j < |s| && s[i] == s[j]
    ensures multiset(s)[s[i]] >= 2
  {
    var x := s[i];
    assert s == s[..i] + [x] + s[i + 1..j] + [x] + s[j + 1..];
    assert multiset(s) == multiset(s[..i]) + multiset{x} + multiset(s[i + 1..j]) + multiset{x} + multiset(s[j + 1..]);
  }

  lemma {:induction false} DistinctKeysMultiset(obj: Params, k: string)
    requires DistinctKeys(obj)
    ensures multiset(Keys(obj))[k] <= 1
    decreases |obj|
  {
    if obj != [] {
      var rest := obj[1..];
      assert DistinctKeys(rest) by {
        forall i, j | 0 <= i < j < |rest| ensures rest[i].0 != rest[j].0 {
          assert rest[i] == obj[i + 1] && rest[j] == obj[j + 1];
        }
      }
      DistinctKeysMultiset(rest, k);
      assert Keys(obj) == [obj[0].0] + Keys(rest);
      if obj[0].0 == k {
        forall j | 0 <= j < |rest| ensures Keys(rest)[j] != k {
          assert obj[j + 1].0 != obj[0].0;
        }
        assert k !in Keys(rest);
      }
    }
  }

  /** Reading the keys of an object built from distinct keys gives back its values, encoded. */
  lemma ValuesOfZip(ks: seq<string>, vs: seq<Js>)
    requires |ks| == |vs|
    requires forall i, j :: 0 <= i < j < |ks| ==> ks[i] != ks[j]
    ensures Values(ks, Zip(ks, vs)) == EncodeAll(vs)
  {
    var obj := Zip(ks, vs);
    assert DistinctKeys(obj);
    forall i | 0 <= i < |ks| ensures Values(ks, obj)[i] == EncodeAll(vs)[i] {
      GetDistinct(obj, i);
    }
  }

  /** Looking up a key of an object with distinct keys finds its own value. */
  lemma {:induction false} GetDistinct(obj: Params, i: nat)
    requires DistinctKeys(obj) && i < |obj|
    ensures Get(obj, obj[i].0) == obj[i].1
    decreases i
  {
    if i > 0 {
      assert obj[0].0 != obj[i].0;
      assert DistinctKeys(obj[1..]) by {
        forall a, b | 0 <= a < b < |obj| - 1 ensures obj[1..][a].0 != obj[1..][b].0 {
          assert obj[1..][a] == obj[a + 1] && obj[1..][b] == obj[b + 1];
        }
      }
      GetDistinct(obj[1..], i - 1);
    }
  }

  /** `replace(/%20/g, "+")` changes nothing in a string without `%`. */
  lemma {:induction false} ReplacePct20NoPercent(s: string)
    requires '%' !in s
    ensures Text.ReplacePct20(s) == s
    decreases |s|
  {
    if |s| >= 3 {
      assert s[0] != '%';
      assert s[..3] != "%20";
      assert '%' !in s[1..];
      ReplacePct20NoPercent(s[1..]);
      assert s == [s[0]] + s[1..];
    }
  }

  /** Text made only of unreserved characters reaches the signed string as is. */
  lemma PlainText(v: string)
    requires Uri.AllUnreserved(v)
    ensures EncodeValue(Str(v)) == v
  {
    Uri.EncodeIdentity(v);
    forall i | 0 <= i < |v| ensures v[i] != '%' {
      assert Uri.IsUnreserved(v[i]);
    }
    assert '%' !in v;
    ReplacePct20NoPercent(v);
  }
}

=== FILE: rbac.dfy ===
/** Role-based access control for the protected API: a request path names a
    resource, the HTTP method names the permission it needs, and each role
    holds a fixed list of permissions per resource. */
module Rbac {
  import opened Wrappers
  import Text

  datatype Role = Admin | Customer
  datatype Resource = Users | Categories
  datatype HttpMethod = GET | POST | PUT | PATCH | DELETE
  datatype Permission = Read | Write | Update | Delete

  /** `PERMISSION_MAPPING[method]` */
  function MethodToPermission(m: HttpMethod): (p: Permission)
    ensures p == Read <==> m == GET
    ensures p == Write <==> m == POST
    ensures p == Update <==> m == PUT || m == PATCH
    ensures p == Delete <==> m == DELETE
  {
    match m
    case GET => Read
    case POST => Write
    case PUT => Update
    case PATCH => Update
    case DELETE => Delete
  }

  /** The patterns of `RESOURCE_MAPPING`, in the order `Object.entries` lists
      them. `^/users/.*` and `^/categories.*` match exactly the paths that start
      with their literal part, since `.*` also matches nothing. */
  function Patterns(): seq<(string, Resource)> {
    [("/users/", Users), ("/categories", Categories)]
  }

  /** `Object.entries(RESOURCE_MAPPING).find(([pattern]) => new RegExp(pattern).test(path))?.[1]` */
  function FindResource(patterns: seq<(string, Resource)>, path: string): (r: Option<Resource>)
    ensures r.None? <==> forall i :: 0 <= i < |patterns| ==> !Text.StartsWith(path, patterns[i].0)
    ensures r.Some? ==> exists i :: 0 <= i < |patterns| && Text.StartsWith(path, patterns[i].0)
                                   && patterns[i].1 == r.value
                                   && forall j :: 0 <= j < i ==> !Text.StartsWith(path, patterns[j].0)
  {
    if patterns == [] then None
    else if Text.StartsWith(path, patterns[0].0) then Some(patterns[0].1)
    else
      var r := FindResource(patterns[1..], path);
      if r.Some? then
        var i :| 0 <= i < |patterns[1..]| && Text.StartsWith(path, patterns[1..][i].0)
                 && patterns[1..][i].1 == r.value
                 && forall j :: 0 <= j < i ==> !Text.StartsWith(path, patterns[1..][j].0);
        assert patterns[i + 1] == patterns[1..][i];
        assert forall j :: 1 <= j < i + 1 ==> patterns[j] == patterns[1..][j - 1];
        r
      else
        assert forall i :: 1 <= i < |patterns| ==> patterns[i] == patterns[1..][i - 1];
        r
  }

  function PathToResource(path: string): Option<Resource> {
    FindResource(Patterns(), path)
  }

  /** `RESOURCES_FOR_ROLES[role][resource]` */
  function Granted(role: Role, res: Resource): seq<Permission> {
    match (role, res)
    case (Admin, _) => [Read, Write, Update, Delete]
    case (Customer, Users) => [Read, Update]
    case (Customer, Categories) => [Read]
  }

  /** `hasPermission(role, path, method)` */
  function HasPermission(role: Role, path: string, m: HttpMethod): (allowed: bool)
    ensures allowed <==> PathToResource(path).Some?
                         && MethodToPermission(m) in Granted(role, PathToResource(path).value)
  {
    match PathToResource(path)
    case None => false
    case Some(res) => MethodToPermission(m) in Granted(role, res)
  }

  /** The resource of a path, read off its prefix: the users pattern is tried
      first, and "/users" without a slash matches neither pattern. */
  lemma ResourceOfPath(path: string)
    ensures Text.StartsWith(path, "/users/") ==> PathToResource(path) == Some(Users)
    ensures !Text.StartsWith(path, "/users/") && Text.StartsWith(path, "/categories") ==>
              PathToResource(path) == Some(Categories)
    ensures !Text.StartsWith(path, "/users/") && !Text.StartsWith(path, "/categories") ==>
              PathToResource(path).None?
  {
    var ps := Patterns();
    if Text.StartsWith(path, "/users/") {
      assert Text.StartsWith(path, ps[0].0);
    } else if Text.StartsWith(path, "/categories") {
      assert Text.StartsWith(path, ps[1].0);
    }
  }

  /** A path outside both resources is refused to every role and method. */
  lemma UnknownPathDenied(role: Role, path: string, m: HttpMethod)
    requires !Text.StartsWith(path, "/users/") && !Text.StartsWith(path, "/categories")
    ensures !HasPermission(role, path, m)
  {
    ResourceOfPath(path);
  }

  /** The administrator may do anything on either resource. */
  lemma AdminAllowedOnResources(path: string, m: HttpMethod)
    ensures HasPermission(Admin, path, m) <==> PathToResource(path).Some?
  {
    var p := MethodToPermission(m);
    assert p in Granted(Admin, Users) && p in Granted(Admin, Categories);
  }

  /** A customer never creates or deletes anything, may update users but not
      categories, and may read both. */
  lemma CustomerPermissions(path: string, m: HttpMethod)
    ensures m == POST || m == DELETE ==> !HasPermission(Customer, path, m)
    ensures HasPermission(Customer, path, m) <==>
              (PathToResource(path) == Some(Users) && (m == GET || m == PUT || m == PATCH))
              || (PathToResource(path) == Some(Categories) && m == GET)
  {
  }

  /** Whatever a customer may do, an administrator may do too. */
  lemma CustomerBelowAdmin(path: string, m: HttpMethod)
    ensures HasPermission(Customer, path, m) ==> HasPermission(Admin, path, m)
  {
    AdminAllowedOnResources(path, m);
  }
}

=== FILE: request_context.dfy ===
/** What the HTTP layer works out about a request before any service runs: the
    client's address behind proxies, and the locale, device, location and date
    shown in security e-mails. Headers arrive as Node gives them: absent, one
    string, or a list of strings. The translation table, the GeoIP database and
    the clock's date formatting are parameters. */
module RequestContext {
  import opened Wrappers
  import Text

  datatype Header = Absent | One(value: string) | Many(values: seq<string>)

  // ---------------------------------------------------------------------------
  // `getClientIp`
  // ---------------------------------------------------------------------------

  /** `getClientIp(req)` for the `x-forwarded-for` header `xff` and `req.ip`. */
  function ClientIp(xff: Header, ip: Option<string>): (r: string)
    ensures xff.One? ==> r == Text.Trim(Text.BeforeFirst(xff.value, ',')) && ',' !in r
    ensures xff.Many? && |xff.values| > 0 ==> r == Text.Trim(xff.values[0])
    ensures xff.Absent? || (xff.Many? && |xff.values| == 0) ==>
              r == (if ip.Some? && ip.value != "" then ip.value else "")
  {
    match xff
    case One(s) => Text.Trim(Text.BeforeFirst(s, ','))
    case Many(vs) => if |vs| > 0 then Text.Trim(vs[0]) else Text.OrElse(ip, "")
    case Absent => Text.OrElse(ip, "")
  }

  /** Behind a chain of proxies the client is the first hop, with the spaces
      around it dropped. */
  lemma ClientIpIsFirstHop(first: string, rest: string, ip: Option<string>)
    requires ',' !in first
    ensures ClientIp(One(first + "," + rest), ip) == Text.Trim(first)
  {
    var s := first + "," + rest;
    assert s[|first|] == ',';
    assert s[..|first|] == first;
    assert forall i :: 0 <= i < |first| ==> s[i] == first[i];
    FirstCommaAt(s, |first|);
  }

  lemma FirstCommaAt(s: string, k: nat)
    requires k < |s| && s[k] == ',' && forall i :: 0 <= i < k ==> s[i] != ','
    ensures Text.BeforeFirst(s, ',') == s[..k]
  {
  }

  /** A single address without commas or surrounding spaces comes back as it is. */
  lemma PlainAddressKept(addr: string, ip: Option<string>)
    requires ',' !in addr && addr != [] && !Text.IsSpace(addr[0]) && !Text.IsSpace(addr[|addr| - 1])
    ensures ClientIp(One(addr), ip) == addr
  {
    BeforeFirstAbsent(addr);
    Text.TrimKeeps(addr);
  }

  lemma BeforeFirstAbsent(s: string)
    requires ',' !in s
    ensures Text.BeforeFirst(s, ',') == s
  {
  }

  // ---------------------------------------------------------------------------
  // `deviceContextMiddleware`
  // ---------------------------------------------------------------------------

  /** `t(key, locale)` */
  type Translate = (string, string) -> string

  /** What `geoip.lookup(ip)` finds, when it finds anything. */
  datatype Geo = Geo(city: Option<string>, country: Option<string>)

  datatype DeviceContext = DeviceContext(date: string, device: string, locale: string, location: string)

  /** The locale from `accept-language`: Vietnamese when the header is one
      string starting with "vi", English otherwise. */
  function Locale(acceptLanguage: Header): (locale: string)
    ensures locale == "vi" <==> acceptLanguage.One? && Text.StartsWith(acceptLanguage.value, "vi")
    ensures locale == "vi" || locale == "en"
  {
    var lang := if acceptLanguage.One? then acceptLanguage.value else "";
    if Text.StartsWith(lang, "vi") then "vi"
    else if Text.StartsWith(lang, "en") then "en"
    else "en"
  }

  /** `req.headers["user-agent"] ?? t("deviceContext.unknownDevice", locale)` */
  function Device(userAgent: Option<string>, t: Translate, locale: string): (device: string)
    ensures userAgent.Some? ==> device == userAgent.value
    ensures userAgent.None? ==> device == t("deviceContext.unknownDevice", locale)
  {
    userAgent.GetOr(t("deviceContext.unknownDevice", locale))
  }

  predicate Known(v: Option<string>) {
    v.Some? && v.value != ""
  }

  /** The location line: "city, country" when the lookup knows both, else the
      address itself, or the translated unknown text without an address. */
  function Location(ip: Option<string>, lookup: string -> Option<Geo>, t: Translate, locale: string)
    : (location: string)
    ensures !Known(ip) ==> location == t("deviceContext.unknownLocation", locale)
    ensures Known(ip) ==>
              var geo := lookup(ip.value);
              && (geo.Some? && Known(geo.value.city) && Known(geo.value.country) ==>
                    location == geo.value.city.value + ", " + geo.value.country.value)
              && (!(geo.Some? && Known(geo.value.city) && Known(geo.value.country)) ==> location == ip.value)
  {
    if Known(ip) then
      var geo := lookup(ip.value);
      if geo.Some? && Known(geo.value.city) && Known(geo.value.country) then
        geo.value.city.value + ", " + geo.value.country.value
      else ip.value
    else t("deviceContext.unknownLocation", locale)
  }

  /** `deviceContextMiddleware(req)` at time `now`, with `formatDate` standing for
      `toLocaleString(locale, { timeZone: "UTC" })`. */
  function DeviceContextOf(acceptLanguage: Header, userAgent: Option<string>, ip: Option<string>,
                           lookup: string -> Option<Geo>, t: Translate,
                           formatDate: (int, string) -> string, now: int): (c: DeviceContext)
    ensures c.locale == Locale(acceptLanguage)
    ensures c.device == Device(userAgent, t, c.locale)
    ensures c.location == Location(ip, lookup, t, c.locale)
    ensures c.date == formatDate(now, c.locale)
  {
    var locale := Locale(acceptLanguage);
    DeviceContext(formatDate(now, locale), Device(userAgent, t, locale), locale,
                  Location(ip, lookup, t, locale))
  }

  /** A request with no headers and no address gets English and the two
      translated unknown texts. */
  lemma BareRequestContext(lookup: string -> Option<Geo>, t: Translate, formatDate: (int, string) -> string,
                           now: int)
    ensures var c := DeviceContextOf(Absent, None, None, lookup, t, formatDate, now);
            && c.locale == "en"
            && c.device == t("deviceContext.unknownDevice", "en")
            && c.location == t("deviceContext.unknownLocation", "en")
  {
  }

  /** An `accept-language` header sent as a list never selects Vietnamese. */
  lemma ListedLanguageIsEnglish(values: seq<string>)
    ensures Locale(Many(values)) == "en"
  {
  }
}

=== FILE: reset_code.dfy ===
/** The forgotten-password flow: a six-digit code is drawn, stored on the user
    with an expiry fifteen minutes ahead and mailed; presenting it again before
    it expires earns a short-lived reset token. The random draw, the clock and
    the token signer are parameters. */
module ResetCode {
  import opened Wrappers
  import opened Entities
  import Text
  import RequestContext

  /** `authConfig.pwForgot.resetCode.length` */
  const CodeLength: nat := 6
  /** `authConfig.pwForgot.resetCode.expire`, in minutes. */
  const ExpireMinutes: nat := 15
  const MinuteMs: nat := 60_000

  /** The bounds handed to `crypto.randomInt`: `10 ** (length - 1)` and
      `10 ** length - 1`, the upper one excluded. */
  const LowestCode: nat := Text.Pow10(CodeLength - 1)
  const CodeBound: nat := Text.Pow10(CodeLength) - 1

  // ---------------------------------------------------------------------------
  // `ValidateResetCodeService`
  // ---------------------------------------------------------------------------

  /** `validateResetCode({ email, code })` at time `now`; `token(email)` stands
      for the signed JWT carrying the email. */
  function ValidateResetCode(db: Db, email: string, code: string, now: int, token: string -> string)
    : (r: Result<string, Error>)
    ensures |code| != CodeLength ==> r == Err(ZodError("code"))
    ensures |code| == CodeLength && email !in db.users ==> r == Err(Thrown("USER_NOT_FOUND"))
    ensures |code| == CodeLength && email in db.users ==>
              var u := db.users[email];
              && (u.resetCode != Some(code) ==> r == Err(Thrown("INVALID_CODE")))
              && (u.resetCode == Some(code) && u.resetCodeExp.Some? && u.resetCodeExp.value < now ==>
                    r == Err(Thrown("EXPIRED_CODE")))
    ensures r.Ok? <==>
              && |code| == CodeLength && email in db.users
              && db.users[email].resetCode == Some(code)
              && (db.users[email].resetCodeExp.None? || now <= db.users[email].resetCodeExp.value)
    ensures r.Ok? ==> r.value == token(email)
  {
    if |code| != CodeLength then Err(ZodError("code"))
    else if email !in db.users then Err(Thrown("USER_NOT_FOUND"))
    else
      var u := db.users[email];
      if u.resetCode.None? || u.resetCode.value == "" || u.resetCode.value != code then Err(Thrown("INVALID_CODE"))
      else if u.resetCodeExp.Some? && u.resetCodeExp.value < now then Err(Thrown("EXPIRED_CODE"))
      else Ok(token(email))
  }

  // ---------------------------------------------------------------------------
  // `ForgotPasswordService`
  // ---------------------------------------------------------------------------

  /** The variables the "forgot-password" template is rendered with, and the
      address the mail goes to. */
  datatype ResetMail = ResetMail(to: string, code: string, codeExpiryMinutes: string,
                                 date: string, device: string, location: string)

  /** `generateResetCode()` for the number `draw` that `crypto.randomInt`
      returned and the clock reading `now`: the code and its expiry. */
  function GenerateResetCode(draw: nat, now: int): (r: (string, int))
    requires LowestCode <= draw < CodeBound
    ensures |r.0| == CodeLength && Text.AllDigits(r.0) && r.0[0] != '0'
    ensures Text.DigitsValue(r.0) == draw
    ensures r.1 == now + ExpireMinutes * MinuteMs
  {
    Text.NatToStringLength(draw, CodeLength);
    Text.DigitsValueOfNatToString(draw);
    (Text.NatToString(draw), now + ExpireMinutes * MinuteMs)
  }

  /** `forgotPassword({ email }, context, subject)`: the database after the
      code is saved, and the mail that is then sent. */
  function ForgotPassword(db: Db, email: string, draw: nat, now: int, context: RequestContext.DeviceContext)
    : (r: Effect<ResetMail>)
    requires LowestCode <= draw < CodeBound
    ensures email !in db.users ==> r == Fail(db, "USER_NOT_FOUND")
    ensures email in db.users ==> r.result.Ok?
    ensures r.result.Ok? ==>
              var mail := r.result.value;
              && r.db == db.(users := db.users[email := db.users[email].(
                                resetCode := Some(mail.code),
                                resetCodeExp := Some(now + ExpireMinutes * MinuteMs))])
              && mail.to == email
              && |mail.code| == CodeLength && Text.AllDigits(mail.code)
              && Text.DigitsValue(mail.code) == draw
              && mail.codeExpiryMinutes == "15"
              && mail.date == context.date && mail.device == context.device && mail.location == context.location
  {
    if email !in db.users then Fail(db, "USER_NOT_FOUND")
    else
      var (code, expiresAt) := GenerateResetCode(draw, now);
      var u := db.users[email];
      var db1 := db.(users := db.users[email := u.(resetCode := Some(code), resetCodeExp := Some(expiresAt))]);
      Effect(db1, Ok(ResetMail(email, code, Text.NatToString(ExpireMinutes),
                               context.date, context.device, context.location)))
  }

  /** The mailed code, presented again, is accepted until and including the
      moment it expires, and refused afterwards; any other code is refused. */
  lemma ForgotThenValidate(db: Db, email: string, draw: nat, now: int, context: RequestContext.DeviceContext,
                           code: string, later: int, token: string -> string)
    requires email in db.users && LowestCode <= draw < CodeBound
    ensures var e := ForgotPassword(db, email, draw, now, context);
            var mailed := e.result.value.code;
            && (ValidateResetCode(e.db, email, mailed, later, token).Ok? <==>
                  later <= now + ExpireMinutes * MinuteMs)
            && (later > now + ExpireMinutes * MinuteMs ==>
                  ValidateResetCode(e.db, email, mailed, later, token) == Err(Thrown("EXPIRED_CODE")))
            && (|code| == CodeLength && code != mailed ==>
                  ValidateResetCode(e.db, email, code, later, token) == Err(Thrown("INVALID_CODE")))
  {
  }

  /** Asking again replaces the stored code: only the latest mailed code is
      accepted. */
  lemma LatestCodeOnly(db: Db, email: string, draw1: nat, draw2: nat, now1: int, now2: int,
                       context: RequestContext.DeviceContext, later: int, token: string -> string)
    requires email in db.users && LowestCode <= draw1 < CodeBound && LowestCode <= draw2 < CodeBound
    requires draw1 != draw2
    ensures var e1 := ForgotPassword(db, email, draw1, now1, context);
            var e2 := ForgotPassword(e1.db, email, draw2, now2, context);
            ValidateResetCode(e2.db, email, e1.result.value.code, later, token) == Err(Thrown("INVALID_CODE"))
  {
    var e1 := ForgotPassword(db, email, draw1, now1, context);
    var e2 := ForgotPassword(e1.db, email, draw2, now2, context);
    assert Text.DigitsValue(e1.result.value.code) != Text.DigitsValue(e2.result.value.code);
  }

  /** A user who never asked for a code cannot pass the check, whatever code
      is sent. */
  lemma NoCodeNoToken(db: Db, email: string, code: string, now: int, token: string -> string)
    requires email in db.users && db.users[email].resetCode.None?
    ensures ValidateResetCode(db, email, code, now, token).Err?
  {
  }
}

=== FILE: reviews.dfy ===
/** Changing and deleting a product review: only its author may do either, and
    only within a period after it was written (the periods, in hours, are
    parameters). Both refresh the product's rating statistics afterwards. */
module Reviews {
  import opened Wrappers
  import opened Entities
  import Text

  /** Milliseconds in an hour: `60 * 60 * 1000`. */
  const HourMs: int := 3_600_000

  /** The reviews of a product. */
  function ReviewsOf(reviews: map<string, Review>, productId: string): set<string> {
    set id | id in reviews && reviews[id].productId == productId
  }

  /** `updateProductRatings(productId)`: the number of reviews left for the
      product, and their mean rating rounded to one decimal, which the database
      computes and is given here as `mean`; both are 0 when none is left. A
      product that no longer exists is left missing. */
  function RefreshRatings(db: Db, productId: string, mean: real): (r: Db)
    ensures r == db.(products := r.products)
    ensures r.products.Keys == db.products.Keys
    ensures forall id :: id in db.products && id != productId ==> r.products[id] == db.products[id]
    ensures productId in db.products ==>
              var n := |ReviewsOf(db.reviews, productId)|;
              r.products[productId] == db.products[productId].(ratingsAverage := Some(if n > 0 then mean else 0.0),
                                                               ratingsCount := Some(n))
  {
    if productId !in db.products then db
    else
      var n := |ReviewsOf(db.reviews, productId)|;
      var p := db.products[productId];
      var p1 := if n > 0 then p.(ratingsAverage := Some(mean), ratingsCount := Some(n))
                else p.(ratingsAverage := Some(0.0), ratingsCount := Some(0));
      db.(products := db.products[productId := p1])
  }

  /** The checks both services make, in order, before the period: `None` when
      the review exists and belongs to `userId`. */
  function Owned(db: Db, userId: string, reviewId: string): Option<string> {
    if !IsValidObjectId(reviewId) then Some("INVALID_REVIEW_ID")
    else if reviewId !in db.reviews then Some("REVIEW_NOT_FOUND")
    else if db.reviews[reviewId].userId != userId then Some("REVIEW_NOT_OWNED")
    else None
  }

  /** `now - createdAt > allowedPeriod * 60 * 60 * 1000` */
  predicate PeriodOver(r: Review, allowedHours: int, now: int) {
    now - r.createdAt > allowedHours * HourMs
  }

  // ---------------------------------------------------------------------------
  // `UpdateReviewService.updateReview`
  // ---------------------------------------------------------------------------

  /** The review with the fields present in the payload written over it. */
  function Patched(r: Review, rating: Option<int>, comment: Option<string>): Review {
    r.(rating := if rating.Some? then rating else r.rating,
       comment := if comment.Some? then comment else r.comment)
  }

  /** The schema's save hook: `this.comment = this.comment.trim()`, which
      throws when the review has no comment. */
  function SaveHook(r: Review): Result<Review, Error> {
    match r.comment
    case None => Err(TypeError)
    case Some(c) => Ok(r.(comment := Some(Text.Trim(c))))
  }

  /** `updateReview(userId, reviewId, { rating, comment })` at time `now`. */
  function UpdateReview(db: Db, userId: string, reviewId: string, rating: Option<int>,
                        comment: Option<string>, allowedHours: int, now: int, mean: real)
    : (r: Effect<Review>)
    ensures Owned(db, userId, reviewId).Some? ==> r == Fail(db, Owned(db, userId, reviewId).value)
    ensures Owned(db, userId, reviewId).None? && PeriodOver(db.reviews[reviewId], allowedHours, now) ==>
              r == Fail(db, "REVIEW_UPDATE_PERIOD_EXPIRED")
    ensures r.result.Err? ==> r.db == db
    ensures r.result.Ok? <==>
              && Owned(db, userId, reviewId).None?
              && !PeriodOver(db.reviews[reviewId], allowedHours, now)
              && (comment.Some? || db.reviews[reviewId].comment.Some?)
    ensures r.result.Ok? ==>
              var before := db.reviews[reviewId];
              var saved := r.result.value;
              && saved.id == before.id && saved.productId == before.productId
              && saved.userId == before.userId && saved.createdAt == before.createdAt
              && saved.rating == (if rating.Some? then rating else before.rating)
              && saved.comment == Some(Text.Trim(if comment.Some? then comment.value else before.comment.value))
              && r.db == RefreshRatings(db.(reviews := db.reviews[reviewId := saved]), before.productId, mean)
  {
    match Owned(db, userId, reviewId)
    case Some(e) => Fail(db, e)
    case None =>
      var review := db.reviews[reviewId];
      if PeriodOver(review, allowedHours, now) then Fail(db, "REVIEW_UPDATE_PERIOD_EXPIRED")
      else match SaveHook(Patched(review, rating, comment))
        case Err(e) => Effect(db, Err(e))
        case Ok(saved) =>
          Effect(RefreshRatings(db.(reviews := db.reviews[reviewId := saved]), review.productId, mean), Ok(saved))
  }

  /** Exactly at the end of the period a change is still accepted. */
  lemma UpdateAtBoundary(db: Db, userId: string, reviewId: string, rating: Option<int>, comment: string,
                         allowedHours: int, mean: real)
    requires Owned(db, userId, reviewId).None?
    ensures var now := db.reviews[reviewId].createdAt + allowedHours * HourMs;
            UpdateReview(db, userId, reviewId, rating, Some(comment), allowedHours, now, mean).result.Ok?
  {
  }

  /** A change keeps the product's review count: the review stays on the same
      product. */
  lemma UpdateKeepsCount(db: Db, userId: string, reviewId: string, rating: Option<int>,
                         comment: Option<string>, allowedHours: int, now: int, mean: real)
    requires UpdateReview(db, userId, reviewId, rating, comment, allowedHours, now, mean).result.Ok?
    ensures var db1 := UpdateReview(db, userId, reviewId, rating, comment, allowedHours, now, mean).db;
            var pid := db.reviews[reviewId].productId;
            pid in db.products ==> db1.products[pid].ratingsCount == Some(|ReviewsOf(db.reviews, pid)|)
  {
    var saved := UpdateReview(db, userId, reviewId, rating, comment, allowedHours, now, mean).result.value;
    var pid := db.reviews[reviewId].productId;
    var reviews1 := db.reviews[reviewId := saved];
    assert ReviewsOf(reviews1, pid) == ReviewsOf(db.reviews, pid);
  }

  // ---------------------------------------------------------------------------
  // `DeleteReviewService.deleteReview`
  // ---------------------------------------------------------------------------

  /** `deleteReview(userId, reviewId)` at time `now`. */
  function DeleteReview(db: Db, userId: string, reviewId: string, allowedHours: int, now: int, mean: real)
    : (r: Effect<()>)
    ensures Owned(db, userId, reviewId).Some? ==> r == Fail(db, Owned(db, userId, reviewId).value)
    ensures r.result.Err? ==> r.db == db
    ensures r.result.Ok? <==>
              Owned(db, userId, reviewId).None? && !PeriodOver(db.reviews[reviewId], allowedHours, now)
    ensures Owned(db, userId, reviewId).None? && PeriodOver(db.reviews[reviewId], allowedHours, now) ==>
              r == Fail(db, "REVIEW_DELETE_PERIOD_EXPIRED")
    ensures r.result.Ok? ==>
              r.db == RefreshRatings(db.(reviews := db.reviews - {reviewId}), db.reviews[reviewId].productId, mean)
  {
    match Owned(db, userId, reviewId)
    case Some(e) => Fail(db, e)
    case None =>
      var review := db.reviews[reviewId];
      if PeriodOver(review, allowedHours, now) then Fail(db, "REVIEW_DELETE_PERIOD_EXPIRED")
      else
        var productId := review.productId;
        Effect(RefreshRatings(db.(reviews := db.reviews - {reviewId}), productId, mean), Ok(()))
  }

  /** A deletion takes out exactly that review, and the product it belonged to
      then counts one review fewer. */
  lemma DeleteCountsOneFewer(db: Db, userId: string, reviewId: string, allowedHours: int, now: int, mean: real)
    requires DeleteReview(db, userId, reviewId, allowedHours, now, mean).result.Ok?
    ensures var db1 := DeleteReview(db, userId, reviewId, allowedHours, now, mean).db;
            var pid := db.reviews[reviewId].productId;
            && db1.reviews == db.reviews - {reviewId}
            && (pid in db.products ==> db1.products[pid].ratingsCount == Some(|ReviewsOf(db.reviews, pid)| - 1))
  {
    var pid := db.reviews[reviewId].productId;
    var rest := db.reviews - {reviewId};
    assert ReviewsOf(rest, pid) == ReviewsOf(db.reviews, pid) - {reviewId};
    assert reviewId in ReviewsOf(db.reviews, pid);
  }

  /** Exactly at the end of the period a deletion is still accepted. */
  lemma DeleteAtBoundary(db: Db, userId: string, reviewId: string, allowedHours: int, mean: real)
    requires Owned(db, userId, reviewId).None?
    ensures var now := db.reviews[reviewId].createdAt + allowedHours * HourMs;
            DeleteReview(db, userId, reviewId, allowedHours, now, mean).result.Ok?
  {
  }

  /** Whoever is not the author can neither change nor delete a review. */
  lemma OnlyAuthorMayEdit(db: Db, userId: string, reviewId: string, rating: Option<int>,
                          comment: Option<string>, allowedHours: int, now: int, mean: real)
    requires reviewId in db.reviews && db.reviews[reviewId].userId != userId
    ensures UpdateReview(db, userId, reviewId, rating, comment, allowedHours, now, mean).db == db
    ensures DeleteReview(db, userId, reviewId, allowedHours, now, mean).db == db
    ensures reviewId in DeleteReview(db, userId, reviewId, allowedHours, now, mean).db.reviews
  {
  }
}

=== FILE: text.dfy ===
/** String helpers standing in for the JavaScript built-ins the services call:
    number-to-string conversion, `parseInt`, `trim`, `split`, `join`,
    `startsWith`, `toUpperCase`, the default `Array.prototype.sort` order on
    strings, and the three two-digit padding idioms used for VNPay dates. */
module Text {
  import opened Wrappers

  // ---------------------------------------------------------------------------
  // Decimal digits
  // ---------------------------------------------------------------------------

  predicate IsDigit(c: char) {
    '0' <= c <= '9'
  }

  predicate AllDigits(s: string) {
    forall i :: 0 <= i < |s| ==> IsDigit(s[i])
  }

  function DigitChar(d: nat): (c: char)
    requires d < 10
    ensures IsDigit(c) && c as int - '0' as int == d
  {
    ('0' as int + d) as char
  }

  function DigitValue(c: char): nat
    requires IsDigit(c)
  {
    c as int - '0' as int
  }

  function Pow10(k: nat): (r: nat)
    ensures r >= 1
  {
    if k == 0 then 1 else 10 * Pow10(k - 1)
  }

  /** `String(n)` for a natural number: its decimal digits, without leading zeros. */
  function NatToString(n: nat): (r: string)
    ensures 1 <= |r| && AllDigits(r)
    ensures |r| > 1 ==> r[0] != '0'
    decreases n
  {
    if n < 10 then [DigitChar(n)] else NatToString(n / 10) + [DigitChar(n % 10)]
  }

  /** `String(i)` for an integer. */
  function IntToString(i: int): (r: string)
    ensures 1 <= |r|
  {
    if i < 0 then "-" + NatToString(-i) else NatToString(i)
  }

  /** The value of a run of decimal digits. */
  function DigitsValue(s: string): nat
    requires AllDigits(s)
  {
    if s == [] then 0 else 10 * DigitsValue(s[..|s| - 1]) + DigitValue(s[|s| - 1])
  }

  /** Reading back the digits of `String(n)` gives `n`. */
  lemma {:induction false} DigitsValueOfNatToString(n: nat)
    ensures DigitsValue(NatToString(n)) == n
    decreases n
  {
    var s := NatToString(n);
    if n >= 10 {
      assert s[..|s| - 1] == NatToString(n / 10);
      DigitsValueOfNatToString(n / 10);
    }
  }

  /** A number in [10^(k-1), 10^k) is written with exactly `k` digits. */
  lemma {:induction false} NatToStringLength(n: nat, k: nat)
    requires 1 <= k && Pow10(k - 1) <= n < Pow10(k)
    ensures |NatToString(n)| == k
    decreases k
  {
    if k > 1 {
      var p := Pow10(k - 2);
      assert Pow10(k - 1) == 10 * p;
      assert Pow10(k) == 100 * p;
      assert p <= n / 10 < 10 * p;
      NatToStringLength(n / 10, k - 1);
    }
  }

  /** The longest prefix of `s` made of decimal digits. */
  function DigitPrefix(s: string): (r: string)
    ensures |r| <= |s| && AllDigits(r) && r == s[..|r|]
    ensures |r| < |s| ==> !IsDigit(s[|r|])
  {
    if s == [] || !IsDigit(s[0]) then []
    else
      var t := DigitPrefix(s[1..]);
      assert s[..|t| + 1] == [s[0]] + s[1..][..|t|];
      [s[0]] + t
  }

  /** `parseInt(s, 10)`: leading white space, an optional sign, then the longest
      run of digits; `None` is `NaN`. */
  function ParseInt(s: string): Option<int> {
    ParseTrimmedInt(TrimStart(s))
  }

  function ParseTrimmedInt(t: string): Option<int> {
    var negative := |t| > 0 && t[0] == '-';
    var body := if |t| > 0 && (t[0] == '-' || t[0] == '+') then t[1..] else t;
    var digits := DigitPrefix(body);
    if digits == [] then None
    else if negative then Some(-(DigitsValue(digits) as int))
    else Some(DigitsValue(digits))
  }

  lemma DigitPrefixOfDigits(s: string)
    requires AllDigits(s)
    ensures DigitPrefix(s) == s
  {
  }

  lemma ParseIntOfDigits(d: string)
    requires d != [] && AllDigits(d)
    ensures ParseInt(d) == Some(DigitsValue(d) as int)
    ensures ParseInt("-" + d) == Some(-(DigitsValue(d) as int))
  {
    ParseIntOfPlain(d);
    ParseIntOfNegated(d);
  }

  lemma ParseIntOfPlain(d: string)
    requires d != [] && AllDigits(d)
    ensures ParseInt(d) == Some(DigitsValue(d) as int)
  {
    assert !IsSpace(d[0]);
    assert TrimStart(d) == d;
    DigitPrefixOfDigits(d);
  }

  lemma ParseIntOfNegated(d: string)
    requires d != [] && AllDigits(d)
    ensures ParseInt("-" + d) == Some(-(DigitsValue(d) as int))
  {
    var m := "-" + d;
    NoSpaceFirst(m);
    DigitPrefixOfDigits(d);
    NegatedBody(m, d);
  }

  lemma NoSpaceFirst(s: string)
    requires s != [] && !IsSpace(s[0])
    ensures TrimStart(s) == s
  {
  }

  lemma NegatedBody(m: string, d: string)
    requires m == "-" + d && d != [] && DigitPrefix(d) == d
    ensures ParseTrimmedInt(m) == Some(-(DigitsValue(d) as int))
  {
    assert m[1..] == d;
  }

  /** `parseInt(String(i))` is `i`: a decimal rendering reads back unchanged. */
  lemma ParseIntOfIntToString(i: int)
    ensures ParseInt(IntToString(i)) == Some(i)
  {
    var d := NatToString(if i < 0 then -i else i);
    ParseIntOfDigits(d);
    DigitsValueOfNatToString(if i < 0 then -i else i);
  }

  /** `Number(s)` for integer strings: surrounding white space is ignored, the
      empty string is 0, otherwise an optional sign and one or more digits and
      nothing else; `None` is `NaN`. */
  function ParseNumber(s: string): Option<int> {
    ParseTrimmedNumber(Trim(s))
  }

  function ParseTrimmedNumber(t: string): Option<int> {
    var body := if |t| > 0 && (t[0] == '-' || t[0] == '+') then t[1..] else t;
    if t == [] then Some(0)
    else if body == [] || !AllDigits(body) then None
    else if t[0] == '-' then Some(-(DigitsValue(body) as int))
    else Some(DigitsValue(body))
  }

  lemma ParseNumberOfDigits(d: string)
    requires d != [] && AllDigits(d)
    ensures ParseNumber(d) == Some(DigitsValue(d) as int)
  {
    assert IsDigit(d[0]) && IsDigit(d[|d| - 1]);
    TrimKeeps(d);
  }

  lemma ParseNumberOfNegated(d: string)
    requires d != [] && AllDigits(d)
    ensures ParseNumber("-" + d) == Some(-(DigitsValue(d) as int))
  {
    var m := "-" + d;
    assert m[|m| - 1] == d[|d| - 1] && IsDigit(d[|d| - 1]);
    TrimKeeps(m);
    NegatedNumberBody(m, d);
  }

  lemma NegatedNumberBody(m: string, d: string)
    requires m == "-" + d && d != [] && AllDigits(d)
    ensures ParseTrimmedNumber(m) == Some(-(DigitsValue(d) as int))
  {
    assert m[1..] == d;
  }

  /** `Number(String(i))` is `i`. */
  lemma ParseNumberOfIntToString(i: int)
    ensures ParseNumber(IntToString(i)) == Some(i)
  {
    ParseNumberOfDigits(NatToString(if i < 0 then -i else i));
    ParseNumberOfNegated(NatToString(if i < 0 then -i else i));
    DigitsValueOfNatToString(if i < 0 then -i else i);
  }

  /** A string that starts and ends with a non-space character is its own trim. */
  lemma TrimKeeps(s: string)
    requires s != [] && !IsSpace(s[0]) && !IsSpace(s[|s| - 1])
    ensures Trim(s) == s
  {
    assert TrimStart(s) == s;
    assert TrimEnd(s) == s;
  }

  // ---------------------------------------------------------------------------
  // White space, trimming, splitting, joining
  // ---------------------------------------------------------------------------

  /** The characters `String.prototype.trim` removes (white space and line terminators). */
  predicate IsSpace(c: char) {
    || c == ' ' || c == '\t' || c == '\n' || c == '\r' || c == '\U{0B}' || c == '\U{0C}'
    || c == '\U{A0}' || c == '\U{FEFF}' || c == '\U{1680}' || ('\U{2000}' <= c <= '\U{200A}')
    || c == '\U{2028}' || c == '\U{2029}' || c == '\U{202F}' || c == '\U{205F}' || c == '\U{3000}'
  }

  function TrimStart(s: string): (r: string)
    ensures |r| <= |s| && r == s[|s| - |r|..]
    ensures |r| > 0 ==> !IsSpace(r[0])
    ensures forall i :: 0 <= i < |s| - |r| ==> IsSpace(s[i])
  {
    if s != [] && IsSpace(s[0]) then
      var r := TrimStart(s[1..]);
      assert s[1..][|s| - 1 - |r|..] == s[|s| - |r|..];
      assert forall i :: 1 <= i < |s| - |r| ==> s[i] == s[1..][i - 1];
      r
    else s
  }

  function TrimEnd(s: string): (r: string)
    ensures |r| <= |s| && r == s[..|r|]
    ensures |r| > 0 ==> !IsSpace(r[|r| - 1])
    ensures forall i :: |r| <= i < |s| ==> IsSpace(s[i])
  {
    if s != [] && IsSpace(s[|s| - 1]) then
      var r := TrimEnd(s[..|s| - 1]);
      assert s[..|s| - 1][..|r|] == s[..|r|];
      assert forall i :: |r| <= i < |s| - 1 ==> s[i] == s[..|s| - 1][i];
      r
    else s
  }

  /** `s.trim()` */
  function Trim(s: string): (r: string)
    ensures |r| == 0 || (!IsSpace(r[0]) && !IsSpace(r[|r| - 1]))
    ensures forall i :: 0 <= i < |r| ==> r[i] in s
  {
    var t := TrimStart(s);
    var r := TrimEnd(t);
    InsideOf(s, t, r);
    r
  }

  lemma InsideOf(s: string, t: string, r: string)
    requires |r| <= |t| <= |s| && t == s[|s| - |t|..] && r == t[..|r|]
    ensures forall i :: 0 <= i < |r| ==> r[i] in s
  {
    forall i | 0 <= i < |r|
      ensures r[i] in s
    {
      assert r[i] == s[|s| - |t| + i];
    }
  }

  /** `s.split(c)[0]`: everything before the first occurrence of `c`. */
  function BeforeFirst(s: string, c: char): (r: string)
    ensures |r| <= |s| && r == s[..|r|]
    ensures c !in r
    ensures |r| < |s| ==> s[|r|] == c
  {
    if s == [] || s[0] == c then []
    else
      var t := BeforeFirst(s[1..], c);
      assert s[..|t| + 1] == [s[0]] + s[1..][..|t|];
      [s[0]] + t
  }

  /** `parts.join(sep)` */
  function Join(parts: seq<string>, sep: string): string {
    if |parts| == 0 then ""
    else if |parts| == 1 then parts[0]
    else parts[0] + sep + Join(parts[1..], sep)
  }

  predicate StartsWith(s: string, prefix: string) {
    |prefix| <= |s| && s[..|prefix|] == prefix
  }

  /** `v || d` for a possibly-undefined string: undefined and "" fall back to `d`. */
  function OrElse(v: Option<string>, d: string): string {
    if v.Some? && v.value != "" then v.value else d
  }

  /** `s.replace(/%20/g, "+")` */
  function ReplacePct20(s: string): string
    decreases |s|
  {
    if |s| < 3 then s
    else if s[..3] == "%20" then "+" + ReplacePct20(s[3..])
    else [s[0]] + ReplacePct20(s[1..])
  }

  // ---------------------------------------------------------------------------
  // Case
  // ---------------------------------------------------------------------------

  /** The capital of `c` as `toUpperCase` gives it, for the letters whose
      capital is one character: ASCII, Latin-1, Latin Extended-A, the horned
      Vietnamese vowels U+01A1 and U+01B0, and the Latin Extended Additional
      block U+1EA0-U+1EF9 that Vietnamese writes its toned vowels with. Any
      other character is its own capital here. */
  function UpperChar(c: char): char {
    var n := c as int;
    if 'a' <= c <= 'z' then (n - 32) as char
    else if n == 0xB5 then 0x39C as char
    else if 0xE0 <= n <= 0xFE && n != 0xF7 then (n - 32) as char
    else if n == 0xFF then 0x178 as char
    else if (0x100 <= n <= 0x12F || 0x132 <= n <= 0x137 || 0x14A <= n <= 0x177 || 0x1EA0 <= n <= 0x1EF9)
            && n % 2 == 1 then (n - 1) as char
    else if (0x139 <= n <= 0x148 || 0x179 <= n <= 0x17E) && n % 2 == 0 then (n - 1) as char
    else if n == 0x131 then 'I'
    else if n == 0x17F then 'S'
    else if n == 0x1A1 || n == 0x1B0 then (n - 1) as char
    else c
  }

  /** `c.toUpperCase()`: the sharp s and U+0149 have two-character capitals. */
  function Capital(c: char): string {
    if c == 0xDF as char then "SS"
    else if c == 0x149 as char then [0x2BC as char, 'N']
    else [UpperChar(c)]
  }

  /** `s.toUpperCase()` on the letters `Capital` covers. */
  function ToUpper(s: string): (r: string)
    ensures |s| <= |r| <= 2 * |s|
    ensures r == [] <==> s == []
  {
    if s == [] then [] else Capital(s[0]) + ToUpper(s[1..])
  }

  /** Upper-casing works character by character. */
  lemma {:induction false} ToUpperConcat(a: string, b: string)
    ensures ToUpper(a + b) == ToUpper(a) + ToUpper(b)
  {
    if a == [] {
      assert a + b == b;
    } else {
      assert (a + b)[0] == a[0] && (a + b)[1..] == a[1..] + b;
      ToUpperConcat(a[1..], b);
    }
  }

  /** A capital is its own capital. */
  lemma CapitalIsUpper(c: char)
    ensures ToUpper(Capital(c)) == Capital(c)
  {
    if c == 0xDF as char {
      assert ToUpper("SS") == "S" + ToUpper("S");
    } else if c == 0x149 as char {
      assert ToUpper([0x2BC as char, 'N']) == [0x2BC as char] + ToUpper("N");
    } else {
      var u := UpperChar(c);
      UpperCharIsUpper(c);
      assert Capital(u) == [u];
      assert ToUpper([u]) == Capital(u) + ToUpper([]);
    }
  }

  /** The capital of any letter other than the two with longer capitals is
      its own capital, and is not one of those two either. */
  lemma UpperCharIsUpper(c: char)
    requires c != 0xDF as char && c != 0x149 as char
    ensures UpperChar(UpperChar(c)) == UpperChar(c)
    ensures UpperChar(c) != 0xDF as char && UpperChar(c) != 0x149 as char
  {
    var n := c as int;
    var m := UpperChar(c) as int;
    if 'a' <= c <= 'z' {
      assert 'A' as int <= m <= 'Z' as int;
    } else if n == 0xB5 {
      assert m == 0x39C;
    } else if 0xE0 <= n <= 0xFE && n != 0xF7 {
      assert 0xC0 <= m <= 0xDE && m != 0xD7 && m != 0xDF;
    } else if n == 0xFF {
      assert m == 0x178;
    } else if (0x100 <= n <= 0x12F || 0x132 <= n <= 0x137 || 0x14A <= n <= 0x177 || 0x1EA0 <= n <= 0x1EF9)
              && n % 2 == 1 {
      assert m == n - 1 && m % 2 == 0;
    } else if (0x139 <= n <= 0x148 || 0x179 <= n <= 0x17E) && n % 2 == 0 {
      assert m == n - 1 && m % 2 == 1;
    } else if n == 0x131 || n == 0x17F {
      assert m == 'I' as int || m == 'S' as int;
    } else if n == 0x1A1 || n == 0x1B0 {
      assert m == n - 1;
    } else {
      assert m == n;
    }
  }

  /** Upper-casing twice is upper-casing once. */
  lemma {:induction false} ToUpperIdempotent(s: string)
    ensures ToUpper(ToUpper(s)) == ToUpper(s)
  {
    if s != [] {
      ToUpperConcat(Capital(s[0]), ToUpper(s[1..]));
      CapitalIsUpper(s[0]);
      ToUpperIdempotent(s[1..]);
    }
  }

  // ---------------------------------------------------------------------------
  // Default sort order on strings
  // ---------------------------------------------------------------------------

  /** `a <= b` in the lexicographic order `Array.prototype.sort` uses by default. */
  predicate Below(a: string, b: string) {
    a == [] || (b != [] && (a[0] < b[0] || (a[0] == b[0] && Below(a[1..], b[1..]))))
  }

  /** Two strings that agree before position `i` and differ there are ordered by that character. */
  lemma {:induction false} BelowAt(a: string, b: string, i: nat)
    requires i < |a| && i < |b| && a[..i] == b[..i] && a[i] < b[i]
    ensures Below(a, b)
    decreases i
  {
    if i > 0 {
      assert a[1..][..i - 1] == a[1..i] == b[1..i] == b[1..][..i - 1];
      BelowAt(a[1..], b[1..], i - 1);
    }
  }

  lemma {:induction false} BelowReflexive(a: string)
    ensures Below(a, a)
  {
    if a != [] {
      BelowReflexive(a[1..]);
    }
  }

  lemma {:induction false} BelowTotal(a: string, b: string)
    ensures Below(a, b) || Below(b, a)
  {
    if a != [] && b != [] && a[0] == b[0] {
      BelowTotal(a[1..], b[1..]);
    }
  }

  lemma {:induction false} BelowAntisymmetric(a: string, b: string)
    requires Below(a, b) && Below(b, a)
    ensures a == b
  {
    if a != [] {
      BelowAntisymmetric(a[1..], b[1..]);
      assert a == [a[0]] + a[1..];
      assert b == [b[0]] + b[1..];
    }
  }

  lemma {:induction false} BelowTransitive(a: string, b: string, c: string)
    requires Below(a, b) && Below(b, c)
    ensures Below(a, c)
  {
    if a != [] && a[0] == b[0] && b[0] == c[0] {
      BelowTransitive(a[1..], b[1..], c[1..]);
    }
  }

  predicate Sorted(s: seq<string>) {
    forall i, j :: 0 <= i < j < |s| ==> Below(s[i], s[j])
  }

  /** A list already in ascending order by neighbours is sorted. */
  lemma {:induction false} NeighboursSorted(s: seq<string>)
    requires forall i :: 0 <= i < |s| - 1 ==> Below(s[i], s[i + 1])
    ensures Sorted(s)
    decreases |s|
  {
    if |s| > 1 {
      NeighboursSorted(s[1..]);
      forall j | 1 <= j < |s| ensures Below(s[0], s[j]) {
        if j > 1 {
          assert Below(s[1], s[j]) by { assert s[1..][0] == s[1] && s[1..][j - 1] == s[j]; }
          BelowTransitive(s[0], s[1], s[j]);
        }
      }
      forall i, j | 0 <= i < j < |s| ensures Below(s[i], s[j]) {
        if i > 0 { assert s[1..][i - 1] == s[i] && s[1..][j - 1] == s[j]; }
      }
    }
  }

  /** `a` and `b` agree before position `i` and `a` has the smaller character there. */
  predicate DiffersAt(a: string, b: string, i: nat) {
    i < |a| && i < |b| && a[..i] == b[..i] && a[i] < b[i]
  }

  /** A list whose neighbours first differ at the given positions, each in
      favour of the earlier string, is sorted. */
  lemma SortedByDiffs(s: seq<string>, at: seq<nat>)
    requires |at| + 1 == |s|
    requires forall i :: 0 <= i < |at| ==> DiffersAt(s[i], s[i + 1], at[i])
    ensures Sorted(s)
  {
    forall i | 0 <= i < |s| - 1 ensures Below(s[i], s[i + 1]) {
      BelowAt(s[i], s[i + 1], at[i]);
    }
    NeighboursSorted(s);
  }

  function Insert(x: string, s: seq<string>): (r: seq<string>)
    requires Sorted(s)
    ensures Sorted(r)
    ensures multiset(r) == multiset(s) + multiset{x}
  {
    if s == [] then [x]
    else if Below(x, s[0]) then
      assert forall j :: 0 <= j < |s| ==> Below(x, s[j]) by {
        forall j | 0 <= j < |s|
          ensures Below(x, s[j])
        {
          if j > 0 { BelowTransitive(x, s[0], s[j]); }
        }
      }
      [x] + s
    else
      var rest := Insert(x, s[1..]);
      HeadBelowRest(x, s, rest);
      assert s == [s[0]] + s[1..];
      [s[0]] + rest
  }

  /** Whatever `x` is inserted among the tail of `s`, the head of a sorted `s`
      that is not above `x` stays below all of it. */
  lemma HeadBelowRest(x: string, s: seq<string>, rest: seq<string>)
    requires Sorted(s) && s != [] && !Below(x, s[0])
    requires multiset(rest) == multiset(s[1..]) + multiset{x}
    ensures forall k :: 0 <= k < |rest| ==> Below(s[0], rest[k])
  {
    forall k | 0 <= k < |rest|
      ensures Below(s[0], rest[k])
    {
      assert rest[k] in multiset(rest);
      if rest[k] == x {
        BelowTotal(x, s[0]);
      } else {
        assert rest[k] in multiset(s[1..]);
        var j :| 0 <= j < |s[1..]| && s[1..][j] == rest[k];
        assert s[j + 1] == rest[k];
      }
    }
  }

  /** `keys.sort()` on distinct strings. */
  function SortStrings(s: seq<string>): (r: seq<string>)
    ensures Sorted(r)
    ensures multiset(r) == multiset(s)
  {
    if s == [] then []
    else
      assert s == s[..|s| - 1] + [s[|s| - 1]];
      Insert(s[|s| - 1], SortStrings(s[..|s| - 1]))
  }

  /** Two sorted arrangements of the same strings are the same sequence. */
  lemma {:induction false} SortedUnique(a: seq<string>, b: seq<string>)
    requires Sorted(a) && Sorted(b) && multiset(a) == multiset(b)
    ensures a == b
    decreases |a|
  {
    if a != [] {
      SameHead(a, b);
      SortedTail(a);
      SortedTail(b);
      assert a == [a[0]] + a[1..];
      assert b == [b[0]] + b[1..];
      assert multiset(a[1..]) == multiset(b[1..]) by {
        assert multiset(a) == multiset([a[0]]) + multiset(a[1..]);
        assert multiset(b) == multiset([b[0]]) + multiset(b[1..]);
        assert multiset(a[1..]) == multiset(a) - multiset{a[0]};
        assert multiset(b[1..]) == multiset(b) - multiset{b[0]};
      }
      SortedUnique(a[1..], b[1..]);
    }
  }

  /** Sorted arrangements of the same strings start alike. */
  lemma SameHead(a: seq<string>, b: seq<string>)
    requires Sorted(a) && Sorted(b) && multiset(a) == multiset(b) && a != []
    ensures b != [] && a[0] == b[0]
  {
    assert a[0] in multiset(b);
    assert b != [] && b[0] in multiset(a);
    var i :| 0 <= i < |b| && b[i] == a[0];
    var j :| 0 <= j < |a| && a[j] == b[0];
    assert Below(b[0], a[0]) by {
      if i > 0 { assert Below(b[0], b[i]); } else { BelowReflexive(a[0]); }
    }
    assert Below(a[0], b[0]) by {
      if j > 0 { assert Below(a[0], a[j]); } else { BelowReflexive(b[0]); }
    }
    BelowAntisymmetric(a[0], b[0]);
  }

  lemma SortedTail(a: seq<string>)
    requires Sorted(a) && a != []
    ensures Sorted(a[1..])
  {
    forall i, j | 0 <= i < j < |a| - 1
      ensures Below(a[1..][i], a[1..][j])
    {
      assert a[1..][i] == a[i + 1] && a[1..][j] == a[j + 1];
    }
  }

  // ---------------------------------------------------------------------------
  // Two-digit padding idioms used for `yyyyMMddHHmmss` dates
  // ---------------------------------------------------------------------------

  /** `num < 10 ? "0" + num : num`, interpolated into a template string. */
  function PadIfSmall(n: nat): string {
    if n < 10 then "0" + NatToString(n) else NatToString(n)
  }

  /** `n.toString().padStart(2, "0")` */
  function PadStart2(n: nat): string {
    var s := NatToString(n);
    if |s| < 2 then seq(2 - |s|, _ => '0') + s else s
  }

  /** `("0" + n).slice(-2)` */
  function SliceLast2(n: nat): string {
    var s := "0" + NatToString(n);
    s[|s| - 2..]
  }

  /** The three padding idioms agree on every value below 100, and all give two digits. */
  lemma PadsAgree(n: nat)
    requires n < 100
    ensures PadIfSmall(n) == PadStart2(n) == SliceLast2(n)
    ensures |PadIfSmall(n)| == 2 && AllDigits(PadIfSmall(n))
    ensures DigitsValue(PadIfSmall(n)) == n
  {
    if n < 10 {
      var d := [DigitChar(n)];
      assert NatToString(n) == d;
      var p := "0" + d;
      assert p[..1] == "0" && p[..0] == [];
      assert DigitsValue(p[..1]) == 0;
    } else {
      assert Pow10(1) == 10 && Pow10(2) == 100;
      NatToStringLength(n, 2);
      DigitsValueOfNatToString(n);
    }
  }
}

=== FILE: uri.dfy ===
/** `encodeURIComponent` (section 18.2.6.5 of ECMA-262): the unreserved marks
    pass through, every other character becomes the percent-escaped bytes of
    its UTF-8 encoding, upper-case hexadecimal. */
module Uri {

  /** Letters, digits and `- _ . ! ~ * ' ( )`. */
  predicate IsUnreserved(c: char) {
    || 'A' <= c <= 'Z' || 'a' <= c <= 'z' || '0' <= c <= '9'
    || c == '-' || c == '_' || c == '.' || c == '!' || c == '~' || c == '*'
    || c == '\'' || c == '(' || c == ')'
  }

  predicate AllUnreserved(s: string) {
    forall i :: 0 <= i < |s| ==> IsUnreserved(s[i])
  }

  function HexDigit(d: nat): (c: char)
    requires d < 16
    ensures IsUnreserved(c)
  {
    if d < 10 then ('0' as int + d) as char else ('A' as int + d - 10) as char
  }

  /** `%XX` for one byte. */
  function Escape(b: nat): (r: string)
    requires b < 256
    ensures |r| == 3 && r[0] == '%'
  {
    ['%', HexDigit(b / 16), HexDigit(b % 16)]
  }

  /** The UTF-8 bytes of one Unicode scalar value. */
  function Utf8(c: char): (r: seq<nat>)
    ensures 1 <= |r| <= 4
    ensures forall i :: 0 <= i < |r| ==> r[i] < 256
  {
    var n := c as int;
    if n < 0x80 then [n]
    else if n < 0x800 then [0xC0 + n / 0x40, 0x80 + n % 0x40]
    else if n < 0x1_0000 then [0xE0 + n / 0x1000, 0x80 + (n / 0x40) % 0x40, 0x80 + n % 0x40]
    else [0xF0 + n / 0x4_0000, 0x80 + (n / 0x1000) % 0x40, 0x80 + (n / 0x40) % 0x40, 0x80 + n % 0x40]
  }

  function EscapeAll(bytes: seq<nat>): (r: string)
    requires forall i :: 0 <= i < |bytes| ==> bytes[i] < 256
    ensures |r| == 3 * |bytes|
    ensures forall i :: 0 <= i < |r| ==> r[i] == '%' || IsUnreserved(r[i])
    decreases |bytes|
  {
    if bytes == [] then [] else Escape(bytes[0]) + EscapeAll(bytes[1..])
  }

  function EncodeChar(c: char): (r: string)
    ensures IsUnreserved(c) ==> r == [c]
    ensures !IsUnreserved(c) ==> |r| >= 3 && r[0] == '%'
    ensures forall i :: 0 <= i < |r| ==> r[i] == '%' || IsUnreserved(r[i])
  {
    if IsUnreserved(c) then [c] else EscapeAll(Utf8(c))
  }

  /** `encodeURIComponent(s)` */
  function Encode(s: string): (r: string)
    ensures |r| >= |s|
    ensures forall i :: 0 <= i < |r| ==> r[i] == '%' || IsUnreserved(r[i])
    decreases |s|
  {
    if s == [] then [] else EncodeChar(s[0]) + Encode(s[1..])
  }

  /** A string is its own encoding exactly when every character is unreserved;
      otherwise the encoding is strictly longer. */
  lemma {:induction false} EncodeIdentity(s: string)
    ensures Encode(s) == s <==> AllUnreserved(s)
    ensures !AllUnreserved(s) ==> |Encode(s)| > |s|
    decreases |s|
  {
    if s != [] {
      EncodeIdentity(s[1..]);
      assert s == [s[0]] + s[1..];
      if AllUnreserved(s) {
        assert AllUnreserved(s[1..]) by {
          forall i | 0 <= i < |s| - 1 ensures IsUnreserved(s[1..][i]) {
            assert s[1..][i] == s[i + 1];
          }
        }
      } else if IsUnreserved(s[0]) {
        assert !AllUnreserved(s[1..]) by {
          var i :| 0 <= i < |s| && !IsUnreserved(s[i]);
          assert s[1..][i - 1] == s[i];
        }
      }
    }
  }

  /** The separators of a query string never survive encoding, so encoded keys
      and values can be joined with `=` and `&` without ambiguity. */
  lemma EncodedHasNoSeparators(s: string)
    ensures '&' !in Encode(s) && '=' !in Encode(s) && '+' !in Encode(s) && ' ' !in Encode(s)
  {
    var e := Encode(s);
    forall i | 0 <= i < |e| ensures e[i] != '&' && e[i] != '=' && e[i] != '+' && e[i] != ' ' {
    }
  }
}

=== FILE: vnpay_amounts.dfy ===
/** How VNPay's callback reports the amount back: `vnp_Amount` carries the
    hundredths the payment URL asked for, and `verifyPayment` divides by 100. */
module VnpayAmounts {
  import opened Wrappers
  import opened Entities
  import Text
  import VnpayGateway

  /** An amount sent as the hundredths VNPay was asked for is reported back as
      the original amount; a missing amount is reported as 0. */
  lemma AmountRoundTrip(amount: int)
    ensures amount != 0 ==> VnpayGateway.HundredthsOf(Str(Text.IntToString(amount * 100))) == Some(amount as real)
    ensures VnpayGateway.HundredthsOf(Undefined) == Some(0.0)
  {
    if amount != 0 {
      RenderedHundredths(amount * 100);
      assert (amount * 100) as real / 100.0 == amount as real;
    }
    MissingHundredths();
  }

  lemma RenderedHundredths(n: int)
    requires n != 0
    ensures VnpayGateway.HundredthsOf(Str(Text.IntToString(n))) == Some(n as real / 100.0)
  {
    ReadBackOrZero(Str(Text.IntToString(n)), n);
  }

  lemma MissingHundredths()
    ensures VnpayGateway.HundredthsOf(Undefined) == Some(0.0)
  {
    ReadBackOrZero(Undefined, 0);
  }
}

=== FILE: vnpay_gateway.dfy ===
/** The VNPay gateway: the payment URL it builds for an order, and the way it
    judges the parameters VNPay sends back. The HMAC-SHA512 of the signed
    string is an uninterpreted function of the secret and the data. */
module VnpayGateway {
  import opened Wrappers
  import opened Entities
  import Text
  import Uri
  import opened Query
  import VnpayKeys

  /** The gateway's settings, each read from the environment with `|| ""`. */
  datatype Config = Config(version: string, tmnCode: string, hashSecret: string,
                           vnpayUrl: string, returnUrl: string)

  /** The local calendar fields of a `Date`; `month` is `getMonth() + 1`. */
  datatype LocalTime = LocalTime(year: nat, month: nat, day: nat, hours: nat, minutes: nat, seconds: nat)

  predicate ValidTime(t: LocalTime) {
    && 1000 <= t.year <= 9999 && 1 <= t.month <= 12 && 1 <= t.day <= 31
    && t.hours < 24 && t.minutes < 60 && t.seconds < 60
  }

  // ---------------------------------------------------------------------------
  // `formatDate`
  // ---------------------------------------------------------------------------

  /** `${year}${pad(month)}${pad(day)}${pad(hours)}${pad(minutes)}${pad(seconds)}` */
  function FormatDate(t: LocalTime): (r: string)
    ensures Text.AllDigits(r)
  {
    Text.NatToString(t.year) + Text.PadIfSmall(t.month) + Text.PadIfSmall(t.day)
    + Text.PadIfSmall(t.hours) + Text.PadIfSmall(t.minutes) + Text.PadIfSmall(t.seconds)
  }

  /** Reads a `yyyyMMddHHmmss` string back into its fields. */
  function ParseDate(s: string): LocalTime
    requires |s| == 14 && Text.AllDigits(s)
  {
    LocalTime(Text.DigitsValue(s[..4]), Text.DigitsValue(s[4..6]), Text.DigitsValue(s[6..8]),
              Text.DigitsValue(s[8..10]), Text.DigitsValue(s[10..12]), Text.DigitsValue(s[12..]))
  }

  /** A date of a four-digit year is written with 14 digits, `yyyyMMddHHmmss`,
      and every field can be read back from its fixed position. */
  lemma FormatDateRoundTrip(t: LocalTime)
    requires ValidTime(t)
    ensures |FormatDate(t)| == 14
    ensures Text.AllDigits(FormatDate(t)) && ParseDate(FormatDate(t)) == t
  {
    var y := Text.NatToString(t.year);
    assert Text.Pow10(3) == 1000 && Text.Pow10(4) == 10000;
    Text.NatToStringLength(t.year, 4);
    Text.DigitsValueOfNatToString(t.year);
    Text.PadsAgree(t.month);
    Text.PadsAgree(t.day);
    Text.PadsAgree(t.hours);
    Text.PadsAgree(t.minutes);
    Text.PadsAgree(t.seconds);
    var mo, d, h, mi, se := Text.PadIfSmall(t.month), Text.PadIfSmall(t.day),
      Text.PadIfSmall(t.hours), Text.PadIfSmall(t.minutes), Text.PadIfSmall(t.seconds);
    var s := FormatDate(t);
    assert s == y + mo + d + h + mi + se;
    assert s[..4] == y;
    assert s[4..6] == mo;
    assert s[6..8] == d;
    assert s[8..10] == h;
    assert s[10..12] == mi;
    assert s[12..] == se;
  }

  // ---------------------------------------------------------------------------
  // `createPayment`
  // ---------------------------------------------------------------------------

  /** The values of the parameter object `createPayment` builds, in its literal
      order (written as three groups of four). */
  function RequestValues(cfg: Config, orderId: string, amount: int, ipAddr: Js, orderInfo: Js,
                         createDate: string): seq<Js>
  {
    [Num(amount * 100), Str("pay"), Str(createDate), Str("VND")]
    + [ipAddr, Str("vn"), orderInfo, Str("other")]
    + [Str(cfg.returnUrl), Str(cfg.tmnCode), Str(orderId), Str(cfg.version)]
  }

  function RequestParams(cfg: Config, orderId: string, amount: int, ipAddr: Js, orderInfo: Js,
                         createDate: string): Params
  {
    Zip(VnpayKeys.RequestKeys(), RequestValues(cfg, orderId, amount, ipAddr, orderInfo, createDate))
  }

  /** What VNPay is asked to sign, value by value: the amount in hundredths, the
      fixed literals and the date as they are, and every caller-supplied value
      URI-encoded. */
  function SignedValues(cfg: Config, orderId: string, amount: int, ipAddr: Js, orderInfo: Js,
                        createDate: string): seq<string>
  {
    [Text.IntToString(amount * 100), "pay", createDate, "VND"]
    + [EncodeValue(ipAddr), "vn", EncodeValue(orderInfo), "other"]
    + EncodeAll([Str(cfg.returnUrl), Str(cfg.tmnCode), Str(orderId), Str(cfg.version)])
  }

  /** The twelve parameter names in ascending order, each with its signed value. */
  function Canonical(cfg: Config, orderId: string, amount: int, ipAddr: Js, orderInfo: Js,
                     createDate: string): Entries
  {
    Zip(VnpayKeys.RequestKeys(), SignedValues(cfg, orderId, amount, ipAddr, orderInfo, createDate))
  }

  lemma IntToStringUnreserved(i: int)
    ensures Uri.AllUnreserved(Text.IntToString(i))
  {
    var s := Text.IntToString(i);
    forall k | 0 <= k < |s| ensures Uri.IsUnreserved(s[k]) {
      if i < 0 {
        if k > 0 { assert s[k] == Text.NatToString(-i)[k - 1]; }
      }
    }
  }

  // The fixed values need no encoding; each fact is proved on its own, since
  // the encodings of several literals in one context are costly to unfold.
  lemma PayIsPlain() ensures EncodeValue(Str("pay")) == "pay" { PlainText("pay"); }
  lemma VndIsPlain() ensures EncodeValue(Str("VND")) == "VND" { PlainText("VND"); }
  lemma VnIsPlain() ensures EncodeValue(Str("vn")) == "vn" { PlainText("vn"); }
  lemma OtherIsPlain() ensures EncodeValue(Str("other")) == "other" { PlainText("other"); }

  lemma DigitsArePlain(d: string)
    requires Text.AllDigits(d)
    ensures EncodeValue(Str(d)) == d
  {
    assert Uri.AllUnreserved(d) by {
      forall i | 0 <= i < |d| ensures Uri.IsUnreserved(d[i]) {
        assert Text.IsDigit(d[i]);
      }
    }
    PlainText(d);
  }

  lemma AmountIsPlain(amount: int)
    ensures EncodeValue(Num(amount * 100)) == Text.IntToString(amount * 100)
  {
    IntToStringUnreserved(amount * 100);
    PlainText(Text.IntToString(amount * 100));
  }

  /** Encoding each request value gives its signed value. */
  lemma EncodeRequestValues(cfg: Config, orderId: string, amount: int, ipAddr: Js, orderInfo: Js,
                            createDate: string)
    requires Text.AllDigits(createDate)
    ensures EncodeAll(RequestValues(cfg, orderId, amount, ipAddr, orderInfo, createDate))
            == SignedValues(cfg, orderId, amount, ipAddr, orderInfo, createDate)
  {
    var a := [Num(amount * 100), Str("pay"), Str(createDate), Str("VND")];
    var b := [ipAddr, Str("vn"), orderInfo, Str("other")];
    var c := [Str(cfg.returnUrl), Str(cfg.tmnCode), Str(orderId), Str(cfg.version)];
    EncodeAllAppend(a + b, c);
    EncodeAllAppend(a, b);
    EncodeFirstGroup(amount, createDate);
    EncodeSecondGroup(ipAddr, orderInfo);
  }

  lemma EncodeFirstGroup(amount: int, createDate: string)
    requires Text.AllDigits(createDate)
    ensures EncodeAll([Num(amount * 100), Str("pay"), Str(createDate), Str("VND")])
            == [Text.IntToString(amount * 100), "pay", createDate, "VND"]
  {
    AmountIsPlain(amount);
    PayIsPlain();
    DigitsArePlain(createDate);
    VndIsPlain();
    EncodeFour(Num(amount * 100), Str("pay"), Str(createDate), Str("VND"));
  }

  lemma EncodeSecondGroup(ipAddr: Js, orderInfo: Js)
    ensures EncodeAll([ipAddr, Str("vn"), orderInfo, Str("other")])
            == [EncodeValue(ipAddr), "vn", EncodeValue(orderInfo), "other"]
  {
    VnIsPlain();
    OtherIsPlain();
    EncodeFour(ipAddr, Str("vn"), orderInfo, Str("other"));
  }


  /** `sortObject` puts the request into exactly the canonical order and encoding. */
  lemma SortRequest(cfg: Config, orderId: string, amount: int, ipAddr: Js, orderInfo: Js,
                    createDate: string)
    requires Text.AllDigits(createDate)
    ensures SortObject(RequestParams(cfg, orderId, amount, ipAddr, orderInfo, createDate))
            == Canonical(cfg, orderId, amount, ipAddr, orderInfo, createDate)
  {
    var vs := RequestValues(cfg, orderId, amount, ipAddr, orderInfo, createDate);
    var params := Zip(VnpayKeys.RequestKeys(), vs);
    var ks := VnpayKeys.RequestKeys();
    VnpayKeys.RequestKeysSorted();
    VnpayKeys.RequestKeysDistinct();
    VnpayKeys.RequestKeysNotHash();
    VnpayKeys.RequestKeysUnreserved();
    assert Keys(params) == ks;
    SortObjectPlain(params);
    Text.SortedUnique(Text.SortStrings(ks), ks);
    ValuesOfZip(ks, vs);
    EncodeRequestValues(cfg, orderId, amount, ipAddr, orderInfo, createDate);
  }

  /** `createPayment(orderId, amount, { ipAddr, orderInfo })` at local time `now`:
      the redirect URL. */
  function CreatePayment(cfg: Config, hmac: Hmac, orderId: string, amount: int, ipAddr: Js,
                         orderInfo: Js, now: LocalTime): (redirectUrl: string)
    ensures var signData := Stringify(Canonical(cfg, orderId, amount, ipAddr, orderInfo, FormatDate(now)));
            redirectUrl == cfg.vnpayUrl + "?" + signData + "&vnp_SecureHash=" + hmac(cfg.hashSecret, signData)
  {
    var sorted := SortObject(RequestParams(cfg, orderId, amount, ipAddr, orderInfo, FormatDate(now)));
    var signData := Stringify(sorted);
    var hash := hmac(cfg.hashSecret, signData);
    SortRequest(cfg, orderId, amount, ipAddr, orderInfo, FormatDate(now));
    SecureHashNotSigned(cfg, orderId, amount, ipAddr, orderInfo, FormatDate(now));
    AppendHash(cfg.vnpayUrl, sorted, hash);
    cfg.vnpayUrl + "?" + Stringify(Put(sorted, "vnp_SecureHash", hash))
  }

  lemma AppendHash(base: string, sorted: Entries, hash: string)
    requires sorted != [] && !HasKey(sorted, "vnp_SecureHash")
    ensures base + "?" + Stringify(Put(sorted, "vnp_SecureHash", hash))
            == base + "?" + Stringify(sorted) + "&vnp_SecureHash=" + hash
  {
    StringifyAppend(sorted, "vnp_SecureHash", hash);
    var s := Stringify(sorted);
    assert "&" + "vnp_SecureHash" + "=" == "&vnp_SecureHash=";
    assert s + "&" + "vnp_SecureHash" + "=" + hash == s + "&vnp_SecureHash=" + hash;
    assert base + "?" + (s + "&vnp_SecureHash=" + hash) == base + "?" + s + "&vnp_SecureHash=" + hash;
  }

  /** The hash parameter is added after signing, so it is never part of the signed data. */
  lemma SecureHashNotSigned(cfg: Config, orderId: string, amount: int, ipAddr: Js, orderInfo: Js,
                            createDate: string)
    ensures !HasKey(Canonical(cfg, orderId, amount, ipAddr, orderInfo, createDate), "vnp_SecureHash")
  {
    VnpayKeys.RequestKeysDistinct();
    VnpayKeys.RequestKeysNotHash();
    VnpayKeys.RequestKeysUnreserved();
  }

  // ---------------------------------------------------------------------------
  // `verifyPayment`
  // ---------------------------------------------------------------------------

  /** `parseInt(v || "0") / 100` */
  function HundredthsOf(v: Js): Option<real> {
    Hundredths(Text.ParseInt(JsText(JsOr(v, Str("0")))))
  }

  function Hundredths(n: Option<int>): Option<real> {
    if n.Some? then Some(n.value as real / 100.0) else None
  }

  /** The parameters left after `delete params.vnp_SecureHash; delete params.vnp_SecureHashType`. */
  function Unsigned(params: Params): (rest: Params)
    ensures forall i :: 0 <= i < |rest| ==> rest[i].0 != "vnp_SecureHash" && rest[i].0 != "vnp_SecureHashType"
  {
    Delete(Delete(params, "vnp_SecureHash"), "vnp_SecureHashType")
  }

  /** Removing the hash parameters leaves every other parameter readable as before. */
  lemma GetUnsigned(params: Params, k: string)
    requires k != "vnp_SecureHash" && k != "vnp_SecureHashType"
    ensures Get(Unsigned(params), k) == Get(params, k)
  {
    GetDelete(params, "vnp_SecureHash", k);
    GetDelete(Delete(params, "vnp_SecureHash"), "vnp_SecureHashType", k);
  }

  /** The hash VNPay should have sent for these parameters. */
  function Checksum(cfg: Config, hmac: Hmac, params: Params): string {
    hmac(cfg.hashSecret, Stringify(SortObject(Unsigned(params))))
  }

  /** `verifyPayment(params)` */
  function VerifyPayment(cfg: Config, hmac: Hmac, params: Params): (r: PaymentResult)
    ensures r.status == SUCCESS || r.status == FAILED
    ensures r.status == SUCCESS ==> Get(params, "vnp_ResponseCode") == Str("00")
    ensures Get(params, "vnp_SecureHash") != Str(Checksum(cfg, hmac, params)) ==> r.status == FAILED
    ensures r.rawResponse == Unsigned(params)
    ensures r.amount == HundredthsOf(Get(params, "vnp_Amount"))
    ensures r.transactionId == JsOr(Get(params, "vnp_TransactionNo"), Str(""))
  {
    var secureHash := Get(params, "vnp_SecureHash");
    var rest := Unsigned(params);
    GetUnsigned(params, "vnp_Amount");
    GetUnsigned(params, "vnp_TransactionNo");
    GetUnsigned(params, "vnp_ResponseCode");
    var checkSum := hmac(cfg.hashSecret, Stringify(SortObject(rest)));
    var amount := HundredthsOf(Get(rest, "vnp_Amount"));
    var transactionId := JsOr(Get(rest, "vnp_TransactionNo"), Str(""));
    if secureHash != Str(checkSum) then PaymentResult(amount, rest, FAILED, transactionId)
    else
      var status := if Get(rest, "vnp_ResponseCode") == Str("00") then SUCCESS else FAILED;
      PaymentResult(amount, rest, status, transactionId)
  }

  /** A callback carrying the hash of its own other fields, as the gateway
      signs it, is accepted: it succeeds exactly when the response code is "00",
      and the raw response handed on is those fields. */
  lemma SignedCallbackAccepted(cfg: Config, hmac: Hmac, fields: Params)
    requires forall i :: 0 <= i < |fields| ==>
               fields[i].0 != "vnp_SecureHash" && fields[i].0 != "vnp_SecureHashType"
    ensures var h := hmac(cfg.hashSecret, Stringify(SortObject(fields)));
            var r := VerifyPayment(cfg, hmac, fields + [("vnp_SecureHash", Str(h))]);
            && (r.status == SUCCESS <==> Get(fields, "vnp_ResponseCode") == Str("00"))
            && r.rawResponse == fields
  {
    var h := hmac(cfg.hashSecret, Stringify(SortObject(fields)));
    var params := fields + [("vnp_SecureHash", Str(h))];
    AddNewKey(fields, "vnp_SecureHash", Str(h));
    DeleteAbsent(fields, "vnp_SecureHashType");
    assert Unsigned(params) == fields;
  }
}

=== FILE: vnpay_keys.dfy ===
/** The parameter names of a VNPay payment request and the facts about them
    that the gateway's canonical ordering relies on. */
module VnpayKeys {
  import Text
  import Uri

  /** The parameter names of a payment request, in the order they are written. */
  function RequestKeys(): seq<string> {
    [ "vnp_Amount", "vnp_Command", "vnp_CreateDate", "vnp_CurrCode", "vnp_IpAddr", "vnp_Locale",
      "vnp_OrderInfo", "vnp_OrderType", "vnp_ReturnUrl", "vnp_TmnCode", "vnp_TxnRef", "vnp_Version" ]
  }

  /** The request's names are already in ascending order. */
  lemma RequestKeysSorted()
    ensures Text.Sorted(RequestKeys())
  {
    Text.SortedByDiffs(RequestKeys(), [4, 5, 5, 4, 4, 4, 9, 4, 4, 5, 4]);
  }

  /** No two request names are equal. */
  lemma RequestKeysDistinct()
    ensures forall i, j :: 0 <= i < j < |RequestKeys()| ==> RequestKeys()[i] != RequestKeys()[j]
  {
    var ks := RequestKeys();
    forall i, j | 0 <= i < j < |ks| ensures ks[i] != ks[j] {
      assert ks[i][4..] != ks[j][4..];
    }
  }

  /** None of the request names is the hash parameter. */
  lemma RequestKeysNotHash()
    ensures forall i :: 0 <= i < |RequestKeys()| ==> RequestKeys()[i] != "vnp_SecureHash"
  {
    var ks := RequestKeys();
    forall i | 0 <= i < |ks| ensures ks[i] != "vnp_SecureHash" {
      assert ks[i][4..] != "SecureHash";
    }
  }

  /** No request name needs percent-encoding. */
  lemma RequestKeysUnreserved()
    ensures forall i :: 0 <= i < |RequestKeys()| ==> Uri.AllUnreserved(RequestKeys()[i])
  {
  }

  // ---------------------------------------------------------------------------
  // The order the services write the names in
  // ---------------------------------------------------------------------------

  /** The request names in the order the two VNPay services write their
      object literal. */
  function LiteralKeys(): seq<string> {
    [ "vnp_Version", "vnp_Command", "vnp_TmnCode", "vnp_Locale", "vnp_CurrCode", "vnp_TxnRef",
      "vnp_OrderInfo", "vnp_OrderType", "vnp_Amount", "vnp_ReturnUrl", "vnp_IpAddr", "vnp_CreateDate" ]
  }

  /** Rearranges twelve items listed by ascending name into the literal order. */
  function Reorder<T>(s: seq<T>): (r: seq<T>)
    requires |s| == 12
    ensures |r| == 12
  {
    [s[11], s[1], s[9], s[5], s[3], s[10], s[6], s[7], s[0], s[8], s[4], s[2]]
  }

  /** Where `Reorder` puts the item at each position. */
  function Placed(): seq<nat> {
    [8, 1, 11, 4, 10, 3, 6, 7, 9, 2, 5, 0]
  }

  lemma PlacedInverts<T>(s: seq<T>)
    requires |s| == 12
    ensures |Placed()| == 12
    ensures forall m :: 0 <= m < 12 ==> Placed()[m] < 12 && Reorder(s)[Placed()[m]] == s[m]
  {
  }

  lemma LiteralIsReorder()
    ensures LiteralKeys() == Reorder(RequestKeys())
  {
  }

  function Swap<T>(s: seq<T>, i: nat, j: nat): (r: seq<T>)
    requires i < |s| && j < |s|
    ensures |r| == |s| && multiset(r) == multiset(s)
  {
    s[i := s[j]][j := s[i]]
  }

  /** `Reorder` as a chain of seven exchanges. */
  function Exchanged<T>(s: seq<T>): (r: seq<T>)
    requires |s| == 12
    ensures multiset(r) == multiset(s)
  {
    Swap(Swap(Swap(Swap(Swap(Swap(Swap(s, 0, 11), 2, 9), 3, 5), 4, 5), 5, 10), 8, 11), 9, 11)
  }

  lemma ExchangedIsReorder<T>(s: seq<T>)
    requires |s| == 12
    ensures Exchanged(s) == Reorder(s)
  {
  }

  lemma ReorderPermutes<T>(s: seq<T>)
    requires |s| == 12
    ensures multiset(Reorder(s)) == multiset(s)
  {
    ExchangedIsReorder(s);
    assert multiset(Exchanged(s)) == multiset(s);
  }

  /** Where each item of `Reorder` comes from. */
  function Source(): seq<nat> {
    [11, 1, 9, 5, 3, 10, 6, 7, 0, 8, 4, 2]
  }

  lemma ReorderFrom<T>(s: seq<T>)
    requires |s| == 12
    ensures |Source()| == 12
    ensures forall i :: 0 <= i < 12 ==> Source()[i] < 12 && Reorder(s)[i] == s[Source()[i]]
  {
  }

  /** Rearranging distinct items keeps them distinct. */
  lemma ReorderDistinct<T>(s: seq<T>)
    requires |s| == 12
    requires forall i, j :: 0 <= i < j < 12 ==> s[i] != s[j]
    ensures forall i, j :: 0 <= i < j < 12 ==> Reorder(s)[i] != Reorder(s)[j]
  {
  }

  /** Sorting the names in literal order gives the names in ascending order. */
  lemma LiteralKeysSort()
    ensures Text.SortStrings(LiteralKeys()) == RequestKeys()
  {
    LiteralIsReorder();
    ReorderPermutes(RequestKeys());
    RequestKeysSorted();
    Text.SortedUnique(Text.SortStrings(LiteralKeys()), RequestKeys());
  }

  /** The names in literal order are distinct, and none is the hash parameter. */
  lemma LiteralKeysPlain()
    ensures forall i, j :: 0 <= i < j < |LiteralKeys()| ==> LiteralKeys()[i] != LiteralKeys()[j]
    ensures forall i :: 0 <= i < |LiteralKeys()| ==> LiteralKeys()[i] != "vnp_SecureHash"
  {
    RequestKeysDistinct();
    RequestKeysNotHash();
    LiteralIsReorder();
    ReorderDistinct(RequestKeys());
    ReorderFrom(RequestKeys());
    forall i | 0 <= i < 12 ensures LiteralKeys()[i] != "vnp_SecureHash" {
      assert LiteralKeys()[i] == RequestKeys()[Source()[i]];
    }
  }
}

=== FILE: vnpay_services.dfy ===
/** The services that talk to VNPay directly, without the gateway object: the
    one that builds a payment URL and records a PENDING payment, the plain URL
    builder, and the return callback that settles the payment and mirrors it
    on the order. Each signs a `key=value&...` string with HMAC-SHA512, an
    uninterpreted function of the secret and the data. */
module VnpayServices {
  import opened Wrappers
  import opened Entities
  import Text
  import Uri
  import opened Query
  import VnpayKeys
  import VnpayGateway

  /** The settings read from the environment. */
  datatype Settings = Settings(tmnCode: string, hashSecret: string, vnpUrl: string, returnUrl: string)

  /** The variable values of a payment request; the others are literals. */
  datatype Request = Request(tmnCode: string, txnRef: string, orderInfo: string, amount: string,
                             returnUrl: string, ipAddr: string, createDate: string)

  /** The request values, in the order of `LiteralKeys`. */
  function LiteralValues(q: Request): seq<string> {
    [ "2.1.0", "pay", q.tmnCode, "vn", "VND", q.txnRef,
      q.orderInfo, "other", q.amount, q.returnUrl, q.ipAddr, q.createDate ]
  }

  /** The request values, in ascending order of their names. */
  function SortedValues(q: Request): seq<string> {
    [ q.amount, "pay", q.createDate, "VND", q.ipAddr, "vn",
      q.orderInfo, "other", q.returnUrl, q.tmnCode, q.txnRef, "2.1.0" ]
  }

  function Strs(vs: seq<string>): (r: seq<Js>)
    ensures |r| == |vs| && forall i :: 0 <= i < |vs| ==> r[i] == Str(vs[i])
  {
    seq(|vs|, i requires 0 <= i < |vs| => Str(vs[i]))
  }

  /** `encodeURIComponent` on each value. */
  function EncodeEach(vs: seq<string>): (r: seq<string>)
    ensures |r| == |vs| && forall i :: 0 <= i < |vs| ==> r[i] == Uri.Encode(vs[i])
  {
    seq(|vs|, i requires 0 <= i < |vs| => Uri.Encode(vs[i]))
  }

  /** The `vnp_Params` object literal. */
  function RequestObject(q: Request): Params {
    Zip(VnpayKeys.LiteralKeys(), Strs(LiteralValues(q)))
  }

  /** What VNPay is asked to sign: the names in ascending order, each with its
      raw value. */
  function SignData(q: Request): string {
    Stringify(Zip(VnpayKeys.RequestKeys(), SortedValues(q)))
  }

  /** The canonical pairs of the request with each value percent-encoded. */
  function EncodedQuery(q: Request): string {
    Stringify(Zip(VnpayKeys.RequestKeys(), EncodeEach(SortedValues(q))))
  }

  /** `Object.keys(obj).sort().map(key => `${key}=${obj[key]}`).join("&")`,
      with each value passed through `encode` first. */
  function SortedPairs(obj: Params, encode: bool): string {
    var ks := Text.SortStrings(Keys(obj));
    var vs := Texts(obj, ks);
    Stringify(Zip(ks, if encode then EncodeEach(vs) else vs))
  }

  // ---------------------------------------------------------------------------
  // Facts about the request object
  // ---------------------------------------------------------------------------

  /** Reading an object with distinct names under its own names gives its values. */
  lemma TextsOfOwnKeys(obj: Params)
    requires DistinctKeys(obj)
    ensures forall i :: 0 <= i < |obj| ==> Texts(obj, Keys(obj))[i] == JsText(obj[i].1)
  {
    forall i | 0 <= i < |obj| ensures Texts(obj, Keys(obj))[i] == JsText(obj[i].1) {
      GetDistinct(obj, i);
    }
  }

  /** An object written in literal order and read in ascending order of its
      distinct names gives its values in ascending order. */
  lemma LookupReordered(ks: seq<string>, vs: seq<string>)
    requires |ks| == 12 && |vs| == 12
    requires forall i, j :: 0 <= i < j < 12 ==> ks[i] != ks[j]
    ensures Texts(Zip(VnpayKeys.Reorder(ks), Strs(VnpayKeys.Reorder(vs))), ks) == vs
  {
    var obj := Zip(VnpayKeys.Reorder(ks), Strs(VnpayKeys.Reorder(vs)));
    VnpayKeys.ReorderDistinct(ks);
    assert DistinctKeys(obj);
    VnpayKeys.PlacedInverts(ks);
    VnpayKeys.PlacedInverts(vs);
    forall m | 0 <= m < 12 ensures Texts(obj, ks)[m] == vs[m] {
      GetDistinct(obj, VnpayKeys.Placed()[m]);
    }
  }

  /** Reading the request object under the sorted names gives the sorted values. */
  lemma SortedLookups(q: Request)
    ensures Texts(RequestObject(q), VnpayKeys.RequestKeys()) == SortedValues(q)
  {
    VnpayKeys.LiteralIsReorder();
    VnpayKeys.RequestKeysDistinct();
    VnpayKeys.RequestKeysNotHash();
    VnpayKeys.RequestKeysUnreserved();
    assert LiteralValues(q) == VnpayKeys.Reorder(SortedValues(q));
    LookupReordered(VnpayKeys.RequestKeys(), SortedValues(q));
  }

  /** Both services sign the same canonical string for the same request. */
  lemma SortedPairsOfRequest(q: Request)
    ensures SortedPairs(RequestObject(q), false) == SignData(q)
    ensures SortedPairs(RequestObject(q), true) == EncodedQuery(q)
  {
    VnpayKeys.LiteralKeysSort();
    assert Keys(RequestObject(q)) == VnpayKeys.LiteralKeys();
    SortedLookups(q);
  }

  /** An object of distinct names with the hash added last, written out with
      every value encoded: the encoded object, then the encoded hash. */
  lemma SignedQuery(ks: seq<string>, vs: seq<string>, hash: string)
    requires |ks| == |vs| && ks != []
    requires forall i, j :: 0 <= i < j < |ks| ==> ks[i] != ks[j]
    requires forall i :: 0 <= i < |ks| ==> ks[i] != "vnp_SecureHash"
    ensures var signed := Zip(ks, Strs(vs)) + [("vnp_SecureHash", Str(hash))];
            Stringify(Zip(Keys(signed), EncodeEach(Texts(signed, Keys(signed)))))
            == Stringify(Zip(ks, EncodeEach(vs))) + "&vnp_SecureHash=" + Uri.Encode(hash)
  {
    var signed := Zip(ks, Strs(vs)) + [("vnp_SecureHash", Str(hash))];
    assert DistinctKeys(signed);
    TextsOfOwnKeys(signed);
    var front := Zip(ks, EncodeEach(vs));
    assert Zip(Keys(signed), EncodeEach(Texts(signed, Keys(signed)))) == front + [("vnp_SecureHash", Uri.Encode(hash))];
    StringifyAppend(front, "vnp_SecureHash", Uri.Encode(hash));
    HashSuffix(Stringify(front), Uri.Encode(hash));
  }

  /** The hash put after the encoded sorted pairs comes last, as it is. */
  lemma HashLast(ks: seq<string>, vs: seq<string>, hash: string)
    requires |ks| == |vs| && ks != []
    requires forall i :: 0 <= i < |ks| ==> ks[i] != "vnp_SecureHash"
    ensures Stringify(Put(Zip(ks, EncodeEach(vs)), "vnp_SecureHash", hash))
            == Stringify(Zip(ks, EncodeEach(vs))) + "&vnp_SecureHash=" + hash
  {
    var front := Zip(ks, EncodeEach(vs));
    assert !HasKey(front, "vnp_SecureHash");
    StringifyAppend(front, "vnp_SecureHash", hash);
    HashSuffix(Stringify(front), hash);
  }

  lemma HashSuffix(front: string, hash: string)
    ensures front + "&" + "vnp_SecureHash" + "=" + hash == front + "&vnp_SecureHash=" + hash
  {
    assert "&" + "vnp_SecureHash" + "=" == "&vnp_SecureHash=";
    assert front + "&" + "vnp_SecureHash" + "=" + hash == front + ("&" + "vnp_SecureHash" + "=") + hash;
  }

  // ---------------------------------------------------------------------------
  // `CreateVnpayPaymentService.execute`
  // ---------------------------------------------------------------------------

  /** `${year}${pad(month)}${pad(day)}${pad(hours)}${pad(minutes)}${pad(seconds)}`
      with `pad` the two-character `padStart`. */
  function PaddedStamp(t: VnpayGateway.LocalTime): string {
    Text.NatToString(t.year) + Text.PadStart2(t.month) + Text.PadStart2(t.day)
    + Text.PadStart2(t.hours) + Text.PadStart2(t.minutes) + Text.PadStart2(t.seconds)
  }

  /** `Thanh toán đơn hàng #<orderId>` */
  function OrderInfo(orderId: string): string {
    "Thanh toán đơn hàng #" + orderId
  }

  /** The request `execute` builds for order `orderId` at `now` (`Date.now()`)
      and local time `local`. */
  function CreateRequest(s: Settings, orderId: string, amount: nat, now: int, local: VnpayGateway.LocalTime): Request {
    Request(s.tmnCode, orderId + "_" + Text.IntToString(now), OrderInfo(orderId),
            Text.IntToString(amount * 100), s.returnUrl, "0.0.0.0", PaddedStamp(local))
  }

  /** `CreateVnpayPaymentService.execute({ orderId, amount })`: the payment
      URL, after recording a PENDING payment under `paymentId` whose
      transaction id is the request's `vnp_TxnRef`. */
  function CreateVnpayPayment(db: Db, s: Settings, hmac: Hmac, orderId: string, amount: nat, now: int,
                              local: VnpayGateway.LocalTime, paymentId: string): (r: Effect<string>)
    ensures orderId !in db.orders ==> r == Fail(db, "ORDER_NOT_FOUND")
    ensures orderId in db.orders ==>
              var q := CreateRequest(s, orderId, amount, now, local);
              var hash := hmac(s.hashSecret, SignData(q));
              var url := s.vnpUrl + "?" + (Stringify(Zip(VnpayKeys.LiteralKeys(), EncodeEach(LiteralValues(q))))
                                           + "&vnp_SecureHash=" + Uri.Encode(hash));
              && r.result == Ok(url)
              && q.txnRef == orderId + "_" + Text.IntToString(now)
              && q.amount == Text.IntToString(amount * 100)
              && r.db == db.(payments := r.db.payments)
              && |r.db.payments| == |db.payments| + 1
              && r.db.payments[..|db.payments|] == db.payments
              && var made := r.db.payments[|db.payments|];
                 && made.orderId == orderId && made.status == Some(PENDING)
                 && made.transactionId == q.txnRef && made.amount == amount
                 && made.paymentMethod == Some(VNPAY) && made.payUrl == Some(url)
                 && made.rawResponse == Some(RequestObject(q) + [("vnp_SecureHash", Str(hash))])
  {
    if orderId !in db.orders then Fail(db, "ORDER_NOT_FOUND")
    else
      var q := CreateRequest(s, orderId, amount, now, local);
      RecordedFor(db, s, hmac, q, orderId, amount, now, paymentId);
      Record(db, s, hmac, q, orderId, amount, now, paymentId)
  }

  /** The signing, the URL and the payment write for request `q`. */
  function Record(db: Db, s: Settings, hmac: Hmac, q: Request, orderId: string, amount: nat, now: int,
                  paymentId: string): Effect<string> {
    var vnpParams := RequestObject(q);
    var signData := SortedPairs(vnpParams, false);
    var hash := hmac(s.hashSecret, signData);
    var signed := vnpParams + [("vnp_SecureHash", Str(hash))];
    var queryString := Stringify(Zip(Keys(signed), EncodeEach(Texts(signed, Keys(signed)))));
    var url := s.vnpUrl + "?" + queryString;
    var made := NewPayment(paymentId, orderId, None, None, Some(VNPAY), PENDING, q.txnRef, amount, now)
                  .(payUrl := Some(url), rawResponse := Some(signed));
    Effect(db.(payments := db.payments + [made]), Ok(url))
  }

  /** The URL signs the sorted raw request and lists the request in literal
      order, every value encoded, with the encoded hash last; the new payment
      is appended and nothing else changes. */
  lemma RecordedFor(db: Db, s: Settings, hmac: Hmac, q: Request, orderId: string, amount: nat, now: int,
                    paymentId: string)
    ensures var r := Record(db, s, hmac, q, orderId, amount, now, paymentId);
            var hash := hmac(s.hashSecret, SignData(q));
            var url := s.vnpUrl + "?" + (Stringify(Zip(VnpayKeys.LiteralKeys(), EncodeEach(LiteralValues(q))))
                                         + "&vnp_SecureHash=" + Uri.Encode(hash));
            && r.result == Ok(url)
            && r.db == db.(payments := r.db.payments)
            && |r.db.payments| == |db.payments| + 1
            && r.db.payments[..|db.payments|] == db.payments
            && var made := r.db.payments[|db.payments|];
               && made.orderId == orderId && made.status == Some(PENDING)
               && made.transactionId == q.txnRef && made.amount == amount
               && made.paymentMethod == Some(VNPAY) && made.payUrl == Some(url)
               && made.rawResponse == Some(RequestObject(q) + [("vnp_SecureHash", Str(hash))])
  {
    SortedPairsOfRequest(q);
    VnpayKeys.LiteralKeysPlain();
    SignedQuery(VnpayKeys.LiteralKeys(), LiteralValues(q), hmac(s.hashSecret, SignData(q)));
  }

  /** The stored payment carries the transaction reference the return callback
      looks it up by: a callback naming that reference finds it when no older
      payment has the same transaction id. */
  lemma CreatedPaymentIsFound(db: Db, s: Settings, hmac: Hmac, orderId: string, amount: nat, now: int,
                              local: VnpayGateway.LocalTime, paymentId: string, rest: Params)
    requires orderId in db.orders
    requires Get(rest, "vnp_TxnRef") == Str(CreateRequest(s, orderId, amount, now, local).txnRef)
    requires forall j :: 0 <= j < |db.payments| ==> Str(db.payments[j].transactionId) != Get(rest, "vnp_TxnRef")
    ensures var db1 := CreateVnpayPayment(db, s, hmac, orderId, amount, now, local, paymentId).db;
            PaymentOfTxnRef(db1, rest) == Some(|db.payments|)
  {
    var db1 := CreateVnpayPayment(db, s, hmac, orderId, amount, now, local, paymentId).db;
    var made := db1.payments[|db.payments|];
    assert db1.payments == db.payments + [made];
    FoundLast(db.payments, made, Get(rest, "vnp_TxnRef"));
  }

  /** A payment appended after payments none of which has its transaction id
      is the first one found under that id. */
  lemma FoundLast(ps: seq<Payment>, made: Payment, ref: Js)
    requires Str(made.transactionId) == ref
    requires forall j :: 0 <= j < |ps| ==> Str(ps[j].transactionId) != ref
    ensures FirstIndex(ps + [made], WithTxnRef(ref)) == Some(|ps|)
  {
    var s := ps + [made];
    var r := FirstIndex(s, WithTxnRef(ref));
    assert WithTxnRef(ref)(s[|ps|]);
  }

  /** The date the service writes is the gateway's `yyyyMMddHHmmss` date. */
  lemma PaddedStampIsGatewayDate(t: VnpayGateway.LocalTime)
    requires t.month < 100 && t.day < 100 && t.hours < 100 && t.minutes < 100 && t.seconds < 100
    ensures PaddedStamp(t) == VnpayGateway.FormatDate(t)
  {
    Text.PadsAgree(t.month);
    Text.PadsAgree(t.day);
    Text.PadsAgree(t.hours);
    Text.PadsAgree(t.minutes);
    Text.PadsAgree(t.seconds);
  }

  // ---------------------------------------------------------------------------
  // `createVnpayUrl`
  // ---------------------------------------------------------------------------

  /** `("0" + n).slice(-2)` for each field after the year. */
  function SlicedStamp(t: VnpayGateway.LocalTime): string {
    Text.NatToString(t.year) + Text.SliceLast2(t.month) + Text.SliceLast2(t.day)
    + Text.SliceLast2(t.hours) + Text.SliceLast2(t.minutes) + Text.SliceLast2(t.seconds)
  }

  /** The date written by the module-level initialiser, read once when the
      module is loaded at local time `loaded`. */
  lemma SlicedStampIsGatewayDate(t: VnpayGateway.LocalTime)
    requires t.month < 100 && t.day < 100 && t.hours < 100 && t.minutes < 100 && t.seconds < 100
    ensures SlicedStamp(t) == VnpayGateway.FormatDate(t)
  {
    Text.PadsAgree(t.month);
    Text.PadsAgree(t.day);
    Text.PadsAgree(t.hours);
    Text.PadsAgree(t.minutes);
    Text.PadsAgree(t.seconds);
  }

  function UrlRequest(s: Settings, loaded: VnpayGateway.LocalTime, amount: int, orderId: string,
                      orderInfo: string): Request {
    Request(s.tmnCode, orderId, orderInfo, Text.IntToString(amount * 100), s.returnUrl, "127.0.0.1",
            SlicedStamp(loaded))
  }

  /** `createVnpayUrl({ amount, orderId, orderInfo })` in a process whose module
      was loaded at local time `loaded`: the sorted request with encoded values,
      then the hash of the raw sorted request, itself not encoded. */
  function CreateVnpayUrl(s: Settings, hmac: Hmac, loaded: VnpayGateway.LocalTime, amount: int,
                          orderId: string, orderInfo: string): (url: string)
    ensures var q := UrlRequest(s, loaded, amount, orderId, orderInfo);
            && q.txnRef == orderId && q.amount == Text.IntToString(amount * 100)
            && q.createDate == SlicedStamp(loaded)
            && url == s.vnpUrl + "?" + (EncodedQuery(q)
                                        + "&vnp_SecureHash=" + hmac(s.hashSecret, SignData(q)))
  {
    UrlFor(s, hmac, UrlRequest(s, loaded, amount, orderId, orderInfo))
  }

  /** The URL for request `q`, read as the canonical names with encoded values
      and the hash of the raw canonical pairs. */
  function UrlFor(s: Settings, hmac: Hmac, q: Request): (url: string)
    ensures url == s.vnpUrl + "?" + (EncodedQuery(q)
                                     + "&vnp_SecureHash=" + hmac(s.hashSecret, SignData(q)))
  {
    SortedUrlOf(s, hmac, q);
    SortedUrlString(s, hmac, q)
  }

  /** The URL for request `q`: the sorted names with encoded values, then the
      hash of the raw sorted pairs. */
  function SortedUrlString(s: Settings, hmac: Hmac, q: Request): string {
    var vnpParams := RequestObject(q);
    var ks := Text.SortStrings(Keys(vnpParams));
    var sortedParams := Zip(ks, Texts(vnpParams, ks));
    var signData := Stringify(sortedParams);
    var secureHash := hmac(s.hashSecret, signData);
    var paramsForUrl := Put(Zip(ks, EncodeEach(Texts(vnpParams, ks))), "vnp_SecureHash", secureHash);
    s.vnpUrl + "?" + Stringify(paramsForUrl)
  }

  lemma SortedUrlOf(s: Settings, hmac: Hmac, q: Request)
    ensures SortedUrlString(s, hmac, q)
            == s.vnpUrl + "?" + (EncodedQuery(q)
                                 + "&vnp_SecureHash=" + hmac(s.hashSecret, SignData(q)))
  {
    VnpayKeys.LiteralKeysSort();
    SortedLookups(q);
    VnpayKeys.RequestKeysDistinct();
    VnpayKeys.RequestKeysNotHash();
    VnpayKeys.RequestKeysUnreserved();
    SortedUrl(RequestObject(q), VnpayKeys.RequestKeys(), SortedValues(q), s.hashSecret, hmac);
  }

  /** The sorted query of an object whose sorted names and values are known,
      with the hash of the raw sorted pairs put last. */
  lemma SortedUrl(obj: Params, ks: seq<string>, vs: seq<string>, secret: string, hmac: Hmac)
    requires Text.SortStrings(Keys(obj)) == ks && Texts(obj, ks) == vs && ks != []
    requires forall i :: 0 <= i < |ks| ==> ks[i] != "vnp_SecureHash"
    ensures var sorted := Text.SortStrings(Keys(obj));
            var signData := Stringify(Zip(sorted, Texts(obj, sorted)));
            Stringify(Put(Zip(sorted, EncodeEach(Texts(obj, sorted))), "vnp_SecureHash", hmac(secret, signData)))
            == Stringify(Zip(ks, EncodeEach(vs))) + "&vnp_SecureHash=" + hmac(secret, Stringify(Zip(ks, vs)))
  {
    HashLast(ks, vs, hmac(secret, Stringify(Zip(ks, vs))));
  }

  /** When no value needs encoding, the query string before the hash is
      exactly the signed string, so VNPay can recompute the hash from it. */
  lemma PlainUrlCarriesSignData(s: Settings, hmac: Hmac, loaded: VnpayGateway.LocalTime, amount: int,
                                orderId: string, orderInfo: string)
    requires forall i :: 0 <= i < 12 ==> Uri.AllUnreserved(SortedValues(UrlRequest(s, loaded, amount, orderId, orderInfo))[i])
    ensures var q := UrlRequest(s, loaded, amount, orderId, orderInfo);
            CreateVnpayUrl(s, hmac, loaded, amount, orderId, orderInfo)
            == s.vnpUrl + "?" + (SignData(q) + "&vnp_SecureHash=" + hmac(s.hashSecret, SignData(q)))
  {
    var q := UrlRequest(s, loaded, amount, orderId, orderInfo);
    var vs := SortedValues(q);
    forall i | 0 <= i < |vs| ensures EncodeEach(vs)[i] == vs[i] {
      Uri.EncodeIdentity(vs[i]);
    }
    assert EncodeEach(vs) == vs;
  }

  /** Two URLs built in the same process carry the same creation date,
      whenever they are built. */
  lemma UrlsShareCreateDate(s: Settings, hmac: Hmac, loaded: VnpayGateway.LocalTime, amount1: int,
                            orderId1: string, orderInfo1: string, amount2: int, orderId2: string,
                            orderInfo2: string)
    ensures UrlRequest(s, loaded, amount1, orderId1, orderInfo1).createDate
            == UrlRequest(s, loaded, amount2, orderId2, orderInfo2).createDate
  {
  }

  // ---------------------------------------------------------------------------
  // `VerifyVnpayCallbackService.execute`
  // ---------------------------------------------------------------------------

  /** The hash the callback should carry: the sorted parameters other than the
      two hash parameters, each value URI-encoded. */
  function CallbackHash(s: Settings, hmac: Hmac, query: Params): string {
    hmac(s.hashSecret, SortedPairs(VnpayGateway.Unsigned(query), true))
  }

  predicate SignatureValid(s: Settings, hmac: Hmac, query: Params) {
    Get(query, "vnp_SecureHash") == Str(CallbackHash(s, hmac, query))
  }

  /** `vnp_Params["vnp_ResponseCode"] === "00"`, on the parameters left after
      the two hash parameters are removed. */
  predicate Succeeded(rest: Params) {
    Get(rest, "vnp_ResponseCode") == Str("00")
  }

  /** `Payment.findOne({ transactionId: vnp_Params["vnp_TxnRef"] })` */
  function PaymentOfTxnRef(db: Db, rest: Params): Option<nat> {
    FirstIndex(db.payments, WithTxnRef(Get(rest, "vnp_TxnRef")))
  }

  function WithTxnRef(ref: Js): Payment -> bool {
    (p: Payment) => Str(p.transactionId) == ref
  }

  /** The payment write of the callback. */
  function Settle(p: Payment, rest: Params, now: int): Payment {
    if Succeeded(rest) then p.(status := Some(PAID), paidTimestamp := Some(now), rawResponse := Some(rest))
    else p.(status := Some(FAILED), failedTimestamp := Some(now), rawResponse := Some(rest))
  }

  /** The order write of the callback. */
  function MarkOrder(o: Order, rest: Params, now: int): Order {
    if Succeeded(rest) then o.(paymentStatus := Some(PAID), paidTimestamp := Some(now))
    else o.(paymentStatus := Some(FAILED), failedTimestamp := Some(now))
  }

  /** Both writes, for the payment at position `i` and that payment's order. */
  function Apply(db: Db, i: nat, rest: Params, now: int): Db
    requires i < |db.payments|
  {
    var p := db.payments[i];
    UpdateOrder(SetPayment(db, i, Settle(p, rest, now)), p.orderId, (o: Order) => MarkOrder(o, rest, now))
  }

  /** `VerifyVnpayCallbackService.execute(query)` at time `now`. */
  function VerifyVnpayCallback(db: Db, s: Settings, hmac: Hmac, query: Params, now: int)
    : (r: Effect<string>)
    ensures !SignatureValid(s, hmac, query) ==> r == Fail(db, "INVALID_VNPAY_SIGNATURE")
    ensures var rest := VnpayGateway.Unsigned(query);
            SignatureValid(s, hmac, query) && PaymentOfTxnRef(db, rest).None? ==>
              r == Fail(db, "PAYMENT_NOT_FOUND")
    ensures var rest := VnpayGateway.Unsigned(query);
            r.result.Ok? <==> SignatureValid(s, hmac, query) && PaymentOfTxnRef(db, rest).Some?
    ensures var rest := VnpayGateway.Unsigned(query);
            r.result.Ok? ==> r == Effect(Apply(db, PaymentOfTxnRef(db, rest).value, rest, now), Ok("ok"))
  {
    var secureHash := Get(query, "vnp_SecureHash");
    var vnpParams := VnpayGateway.Unsigned(query);
    var expected := hmac(s.hashSecret, SortedPairs(vnpParams, true));
    if Str(expected) != secureHash then Fail(db, "INVALID_VNPAY_SIGNATURE")
    else match PaymentOfTxnRef(db, vnpParams)
      case None => Fail(db, "PAYMENT_NOT_FOUND")
      case Some(i) => Effect(Apply(db, i, vnpParams, now), Ok("ok"))
  }

  /** What the callback writes for the payment at position `i`: that payment
      is settled with the parameters it was sent, its order has the outcome
      mirrored in `paymentStatus`, and nothing else changes. */
  lemma ApplyWrites(db: Db, i: nat, rest: Params, now: int)
    requires i < |db.payments|
    ensures var r := Apply(db, i, rest, now);
            var p := db.payments[i];
            && |r.payments| == |db.payments|
            && (forall j :: 0 <= j < |db.payments| && j != i ==> r.payments[j] == db.payments[j])
            && (Succeeded(rest) ==>
                  r.payments[i] == p.(status := Some(PAID), paidTimestamp := Some(now), rawResponse := Some(rest)))
            && (!Succeeded(rest) ==>
                  r.payments[i] == p.(status := Some(FAILED), failedTimestamp := Some(now), rawResponse := Some(rest)))
            && r.orders.Keys == db.orders.Keys
            && (forall id :: id in db.orders && id != p.orderId ==> r.orders[id] == db.orders[id])
            && (p.orderId in db.orders ==>
                  var o := db.orders[p.orderId];
                  r.orders[p.orderId] ==
                    if Succeeded(rest) then o.(paymentStatus := Some(PAID), paidTimestamp := Some(now))
                    else o.(paymentStatus := Some(FAILED), failedTimestamp := Some(now)))
            && r == db.(payments := r.payments, orders := r.orders)
  {
  }

  /** A correctly signed callback naming a stored payment, delivered again at
      the same instant, changes nothing more. */
  lemma VerifyVnpayCallbackReplay(db: Db, s: Settings, hmac: Hmac, query: Params, now: int)
    requires SignatureValid(s, hmac, query) && PaymentOfTxnRef(db, VnpayGateway.Unsigned(query)).Some?
    ensures var db1 := VerifyVnpayCallback(db, s, hmac, query, now).db;
            VerifyVnpayCallback(db1, s, hmac, query, now) == Effect(db1, Ok("ok"))
  {
    var rest := VnpayGateway.Unsigned(query);
    ApplyIdempotent(db, PaymentOfTxnRef(db, rest).value, rest, now);
  }

  lemma ApplyIdempotent(db: Db, i: nat, rest: Params, now: int)
    requires PaymentOfTxnRef(db, rest) == Some(i)
    ensures PaymentOfTxnRef(Apply(db, i, rest, now), rest) == Some(i)
    ensures Apply(Apply(db, i, rest, now), i, rest, now) == Apply(db, i, rest, now)
  {
    var p := db.payments[i];
    var p1 := Settle(p, rest, now);
    var mid := SetPayment(db, i, p1);
    var db1 := Apply(db, i, rest, now);
    assert db1.payments == db.payments[i := p1];
    FirstIndexUpdate(db.payments, WithTxnRef(Get(rest, "vnp_TxnRef")), i, p1);
    assert Settle(p1, rest, now) == p1;
    assert SetPayment(db1, i, p1) == db1;
    MarkTwice(mid, p.orderId, rest, now);
  }

  lemma MarkTwice(db: Db, id: string, rest: Params, now: int)
    ensures var mark := (o: Order) => MarkOrder(o, rest, now);
            UpdateOrder(UpdateOrder(db, id, mark), id, mark) == UpdateOrder(db, id, mark)
  {
    if id in db.orders {
      var o := db.orders[id];
      assert MarkOrder(MarkOrder(o, rest, now), rest, now) == MarkOrder(o, rest, now);
    }
  }

  /** A callback whose hash is not the hash of its own other parameters
      changes nothing, whatever its response code says. */
  lemma ForgedCallbackWritesNothing(db: Db, s: Settings, hmac: Hmac, fields: Params, forged: string, now: int)
    requires forall i :: 0 <= i < |fields| ==> fields[i].0 != "vnp_SecureHash" && fields[i].0 != "vnp_SecureHashType"
    requires forged != hmac(s.hashSecret, SortedPairs(fields, true))
    ensures VerifyVnpayCallback(db, s, hmac, fields + [("vnp_SecureHash", Str(forged))], now)
            == Fail(db, "INVALID_VNPAY_SIGNATURE")
  {
    var query := fields + [("vnp_SecureHash", Str(forged))];
    AddNewKey(fields, "vnp_SecureHash", Str(forged));
    DeleteAbsent(fields, "vnp_SecureHashType");
    assert VnpayGateway.Unsigned(query) == fields;
  }

  /** A callback carrying the hash of its own other parameters settles the
      payment it names: PAID exactly when the response code is "00". */
  lemma SignedCallbackSettles(db: Db, s: Settings, hmac: Hmac, fields: Params, now: int)
    requires forall i :: 0 <= i < |fields| ==> fields[i].0 != "vnp_SecureHash" && fields[i].0 != "vnp_SecureHashType"
    ensures var query := fields + [("vnp_SecureHash", Str(hmac(s.hashSecret, SortedPairs(fields, true))))];
            var r := VerifyVnpayCallback(db, s, hmac, query, now);
            && (r.result.Ok? <==> PaymentOfTxnRef(db, fields).Some?)
            && (r.result.Ok? ==>
                  && r.db.payments[PaymentOfTxnRef(db, fields).value].status
                     == Some(if Succeeded(fields) then PAID else FAILED)
                  && r.db.payments[PaymentOfTxnRef(db, fields).value].rawResponse == Some(fields))
  {
    var h := Str(hmac(s.hashSecret, SortedPairs(fields, true)));
    var query := fields + [("vnp_SecureHash", h)];
    AddNewKey(fields, "vnp_SecureHash", h);
    DeleteAbsent(fields, "vnp_SecureHashType");
    assert VnpayGateway.Unsigned(query) == fields;
  }
}

=== FILE: wrappers.dfy ===
/** Failure-compatible wrappers used by every service model: `Option` stands in
    for JavaScript's `undefined`/`null`, `Result` for a value or a thrown error. */
module Wrappers {

  datatype Option<+T> = None | Some(value: T) {

    predicate IsFailure() {
      None?
    }

    function PropagateFailure<U>(): Option<U>
      requires None?
    {
      None
    }

    function Extract(): T
      requires Some?
    {
      value
    }

    /** `x ?? d` */
    function GetOr(default: T): T {
      match this
      case Some(v) => v
      case None => default
    }
  }

  datatype Result<+T, +E> = Ok(value: T) | Err(error: E) {

    predicate IsFailure() {
      Err?
    }

    function PropagateFailure<U>(): Result<U, E>
      requires Err?
    {
      Err(error)
    }

    function Extract(): T
      requires Ok?
    {
      value
    }
  }
}

=== FILE: zod_errors.dfy ===
/** `handleZodError`: the issues a schema reports are grouped by field, the
    field being the issue's path joined with ".", and each message is
    translated into the request's locale. Path segments that are array
    indices are given as their decimal text. */
module ZodErrors {
  import opened Wrappers
  import Text
  import Entities
  import RequestContext

  datatype Issue = Issue(path: seq<string>, message: string)
  datatype FieldErrors = FieldErrors(field: string, messages: seq<string>)

  /** `err.path.join(".")` */
  function FieldOf(issue: Issue): string {
    Text.Join(issue.path, ".")
  }

  // ---------------------------------------------------------------------------
  // Reference: the grouping described field by field
  // ---------------------------------------------------------------------------

  /** The translated messages of the issues on `field`, in issue order. */
  function MessagesFor(issues: seq<Issue>, field: string, t: RequestContext.Translate, locale: string)
    : seq<string>
  {
    if issues == [] then []
    else
      var last := issues[|issues| - 1];
      MessagesFor(issues[..|issues| - 1], field, t, locale)
        + (if FieldOf(last) == field then [t(last.message, locale)] else [])
  }

  /** The distinct fields, in the order of their first issue. */
  function FieldsInOrder(issues: seq<Issue>): seq<string> {
    if issues == [] then []
    else
      var before := FieldsInOrder(issues[..|issues| - 1]);
      var f := FieldOf(issues[|issues| - 1]);
      if f in before then before else before + [f]
  }

  function Fields(groups: seq<FieldErrors>): seq<string> {
    seq(|groups|, k requires 0 <= k < |groups| => groups[k].field)
  }

  predicate Distinct(fields: seq<string>) {
    forall a, b :: 0 <= a < b < |fields| ==> fields[a] != fields[b]
  }

  /** The number of messages over all groups. */
  function Total(groups: seq<FieldErrors>): nat {
    if groups == [] then 0 else Total(groups[..|groups| - 1]) + |groups[|groups| - 1].messages|
  }

  // ---------------------------------------------------------------------------
  // `handleZodError`
  // ---------------------------------------------------------------------------

  function WithField(f: string): FieldErrors -> bool {
    (g: FieldErrors) => g.field == f
  }

  /** `errRecord[field] ??= []; errRecord[field].push(message)` */
  function Add(groups: seq<FieldErrors>, field: string, message: string): seq<FieldErrors> {
    match Entities.FirstIndex(groups, WithField(field))
    case None => groups + [FieldErrors(field, [message])]
    case Some(at) => groups[at := FieldErrors(field, groups[at].messages + [message])]
  }

  /** `groups` is the grouping of `issues`: one group per field, in the order of
      the fields' first issues, each holding its field's messages in issue
      order, and nothing else. */
  ghost predicate Grouped(issues: seq<Issue>, groups: seq<FieldErrors>, t: RequestContext.Translate, locale: string) {
    && Fields(groups) == FieldsInOrder(issues)
    && Distinct(Fields(groups))
    && (forall k :: 0 <= k < |groups| ==>
          groups[k].messages == MessagesFor(issues, groups[k].field, t, locale) && groups[k].messages != [])
    && (forall j :: 0 <= j < |issues| ==> FieldOf(issues[j]) in Fields(groups))
    && Total(groups) == |issues|
  }

  /** `handleZodError(error, locale)` for the issues of `error`, with `t` the
      translation function. */
  method HandleZodError(issues: seq<Issue>, t: RequestContext.Translate, locale: string)
    returns (groups: seq<FieldErrors>)
    ensures Fields(groups) == FieldsInOrder(issues)
    ensures Distinct(Fields(groups))
    ensures forall k :: 0 <= k < |groups| ==>
              groups[k].messages == MessagesFor(issues, groups[k].field, t, locale) && groups[k].messages != []
    ensures forall j :: 0 <= j < |issues| ==> FieldOf(issues[j]) in Fields(groups)
    ensures Total(groups) == |issues|
  {
    groups := [];
    var i := 0;
    while i < |issues|
      invariant 0 <= i <= |issues|
      invariant Grouped(issues[..i], groups, t, locale)
    {
      assert issues[..i + 1] == issues[..i] + [issues[i]];
      AddKeepsGrouped(issues[..i], issues[i], groups, t, locale);
      groups := Add(groups, FieldOf(issues[i]), t(issues[i].message, locale));
      i := i + 1;
    }
    assert issues[..i] == issues;
  }

  /** One more issue, added to its group or opening a new one at the end,
      keeps the grouping exact. */
  lemma AddKeepsGrouped(issues: seq<Issue>, x: Issue, groups: seq<FieldErrors>, t: RequestContext.Translate,
                        locale: string)
    requires Grouped(issues, groups, t, locale)
    ensures Grouped(issues + [x], Add(groups, FieldOf(x), t(x.message, locale)), t, locale)
  {
    match Entities.FirstIndex(groups, WithField(FieldOf(x)))
    case None => AddNewGroup(issues, x, groups, t, locale);
    case Some(at) => AddToGroup(issues, x, groups, at, t, locale);
  }

  lemma AddNewGroup(issues: seq<Issue>, x: Issue, groups: seq<FieldErrors>, t: RequestContext.Translate,
                    locale: string)
    requires Grouped(issues, groups, t, locale)
    requires FieldOf(x) !in Fields(groups)
    ensures Grouped(issues + [x], groups + [FieldErrors(FieldOf(x), [t(x.message, locale)])], t, locale)
  {
    var all := issues + [x];
    var f := FieldOf(x);
    var g := FieldErrors(f, [t(x.message, locale)]);
    var groups1 := groups + [g];
    assert all[..|issues|] == issues;
    MessagesForAbsent(issues, f, t, locale);
    TotalAppend(groups, g);
    assert Fields(groups1) == Fields(groups) + [f];
    forall k | 0 <= k < |groups1|
      ensures groups1[k].messages == MessagesFor(all, groups1[k].field, t, locale)
    {
      if k < |groups| {
        assert groups1[k] == groups[k];
      }
    }
  }

  lemma AddToGroup(issues: seq<Issue>, x: Issue, groups: seq<FieldErrors>, at: nat, t: RequestContext.Translate,
                   locale: string)
    requires Grouped(issues, groups, t, locale)
    requires at < |groups| && groups[at].field == FieldOf(x)
    ensures var g := FieldErrors(FieldOf(x), groups[at].messages + [t(x.message, locale)]);
            Grouped(issues + [x], groups[at := g], t, locale)
  {
    var all := issues + [x];
    var f := FieldOf(x);
    var g := FieldErrors(f, groups[at].messages + [t(x.message, locale)]);
    var groups1 := groups[at := g];
    assert all[..|issues|] == issues;
    assert Fields(groups)[at] == f;
    TotalUpdate(groups, at, g);
    assert Fields(groups1) == Fields(groups);
    forall k | 0 <= k < |groups1|
      ensures groups1[k].messages == MessagesFor(all, groups1[k].field, t, locale)
    {
      if k != at {
        assert Fields(groups)[k] != f;
      }
    }
  }

  // ---------------------------------------------------------------------------
  // Lemmas
  // ---------------------------------------------------------------------------

  /** A field no issue is on has no messages. */
  lemma {:induction false} MessagesForAbsent(issues: seq<Issue>, f: string, t: RequestContext.Translate,
                                             locale: string)
    requires forall j :: 0 <= j < |issues| ==> f != FieldOf(issues[j])
    ensures MessagesFor(issues, f, t, locale) == []
  {
    if issues != [] {
      MessagesForAbsent(issues[..|issues| - 1], f, t, locale);
    }
  }

  lemma TotalAppend(groups: seq<FieldErrors>, g: FieldErrors)
    ensures Total(groups + [g]) == Total(groups) + |g.messages|
  {
    assert (groups + [g])[..|groups|] == groups;
  }

  lemma {:induction false} TotalUpdate(groups: seq<FieldErrors>, k: nat, g: FieldErrors)
    requires k < |groups|
    ensures Total(groups[k := g]) == Total(groups) - |groups[k].messages| + |g.messages|
    decreases |groups|
  {
    var n := |groups|;
    if k < n - 1 {
      assert groups[k := g][..n - 1] == groups[..n - 1][k := g];
      TotalUpdate(groups[..n - 1], k, g);
    } else {
      assert groups[k := g][..n - 1] == groups[..n - 1];
    }
  }

  /** A field is listed exactly when some issue is on it. */
  lemma {:induction false} FieldsInOrderListsIssues(issues: seq<Issue>, f: string)
    ensures f in FieldsInOrder(issues) <==> exists j :: 0 <= j < |issues| && FieldOf(issues[j]) == f
  {
    if issues != [] {
      var init := issues[..|issues| - 1];
      FieldsInOrderListsIssues(init, f);
      if f in FieldsInOrder(init) {
        var j :| 0 <= j < |init| && FieldOf(init[j]) == f;
        assert issues[j] == init[j];
      } else if exists j :: 0 <= j < |issues| && FieldOf(issues[j]) == f {
        var j :| 0 <= j < |issues| && FieldOf(issues[j]) == f;
        if j < |init| {
          assert FieldOf(init[j]) == f;
        }
      }
    }
  }

  /** Issues on one field only give one group holding all their messages, in
      order. */
  lemma SingleField(issues: seq<Issue>, t: RequestContext.Translate, locale: string, groups: seq<FieldErrors>)
    requires issues != [] && forall j :: 0 <= j < |issues| ==> FieldOf(issues[j]) == FieldOf(issues[0])
    requires Fields(groups) == FieldsInOrder(issues)
    requires forall k :: 0 <= k < |groups| ==> groups[k].messages == MessagesFor(issues, groups[k].field, t, locale)
    ensures |groups| == 1 && groups[0].field == FieldOf(issues[0])
    ensures |groups[0].messages| == |issues|
    ensures forall j :: 0 <= j < |issues| ==> groups[0].messages[j] == t(issues[j].message, locale)
  {
    SingleFieldInOrder(issues);
    SingleFieldMessages(issues, t, locale);
    assert |Fields(groups)| == 1;
    assert Fields(groups)[0] == groups[0].field;
  }

  lemma {:induction false} SingleFieldInOrder(issues: seq<Issue>)
    requires issues != [] && forall j :: 0 <= j < |issues| ==> FieldOf(issues[j]) == FieldOf(issues[0])
    ensures FieldsInOrder(issues) == [FieldOf(issues[0])]
  {
    var init := issues[..|issues| - 1];
    if init != [] {
      assert init[0] == issues[0];
      SingleFieldInOrder(init);
    }
  }

  lemma {:induction false} SingleFieldMessages(issues: seq<Issue>, t: RequestContext.Translate, locale: string)
    requires issues != [] && forall j :: 0 <= j < |issues| ==> FieldOf(issues[j]) == FieldOf(issues[0])
    ensures var ms := MessagesFor(issues, FieldOf(issues[0]), t, locale);
            |ms| == |issues| && forall j :: 0 <= j < |issues| ==> ms[j] == t(issues[j].message, locale)
  {
    var init := issues[..|issues| - 1];
    if init != [] {
      assert init[0] == issues[0];
      SingleFieldMessages(init, t, locale);
    }
  }
}
